=== FILE: README.md ===
# widerest core in Dafny

widerest puts a REST facade over the Broadleaf Commerce e-commerce framework:
Spring controllers expose categories, products, SKUs, customers, orders,
settings and currencies as HAL resources, and delegate persistence and
business rules to Broadleaf services. This project models the decision logic
of that facade as pure Dafny functions over immutable state, and proves what
each endpoint promises.

- **State.** `Catalog.Store` holds categories and products by id and two
  ordered join tables: parent to subcategory, and category to product.
  `OrderAccess.OrderStore` holds the customers and orders.
  `CustomerController.Customers`, `Settings.SettingsStore` and the currency
  table of `Currency` complete the state.
- **Endpoints.** Every endpoint is a function from a state and a request to a
  status (`Base.HttpStatus`) and a new state. A failing request leaves the
  state unchanged. The order of the checks, the statuses and the edge cases
  follow the Java controllers.
- **Exceptions** become error values (`Result`, `Option`). An exception that
  escapes to Spring becomes `ServerError`.
- **Visibility.** Archiving is Broadleaf's soft delete: the 'Y' flag. The
  controllers look an entity up and filter it through the archived filters,
  so a category or product is found when it exists and is not archived
  (`Catalog.CategoryVisible`, `Catalog.ProductVisible`). Embedding
  subcategories uses the stricter `shouldCategoryBeVisible`: active, or not
  archived and the caller holds the read permission.
- **Java semantics written out:**
  - `Long.parseLong` on ASCII digits, with an optional sign and the 64-bit range;
  - int overflow in `getSublistForOffset`;
  - `List.remove(Object)`, which removes the first match;
  - `findAny`/`findFirst` on sequential streams, which take the first match;
  - boxed `Long` identity (`==`) against `Objects.equals`;
  - ASCII `toUpperCase`.
- **Modules:**
  - `Base`: shared types and sequence facts;
  - `CatalogUtils`: visibility, availability, href parsing and paging;
  - `Catalog`: the catalog store;
  - `MediaConverter` and `CategoryConverter`: the transfer objects;
  - `CategoryController` and `CategoryLevels`: the category endpoints, and
    the breadth-first walk to a given depth;
  - `ProductController`: the product endpoints;
  - `OrderAccess`, `CartOrderService`, `OrderService` and
    `OrderValidation`: orders and checkout;
  - `CustomerController`: customers;
  - `AnonymousUser`: the user details handed to an anonymous visitor;
  - `Settings` and `Currency`: system settings and currencies.

## Model

| member | source | states |
|---|---|---|
| CatalogUtils.VisibilityMonotone | api/src/main/java/pl/touk/widerest/api/common/CatalogUtils.java:39-43 | The read permission can only reveal an entity, never hide one. Without it exactly the active entities are visible; an archived entity is visible only while active, whoever asks. |
| CatalogUtils.GetInstance | api/src/main/java/pl/touk/widerest/api/common/CatalogUtils.java:45-46 | The inventory type found for a string is the one registered under that string; no type is found only when no type carries that name. |
| CatalogUtils.ToInventoryTypeByAvailability | api/src/main/java/pl/touk/widerest/api/common/CatalogUtils.java:45-46 | A null or unknown availability string means always available; a known one maps to the type registered under it. |
| CatalogUtils.AvailabilityRoundTrip | api/src/main/java/pl/touk/widerest/api/common/CatalogUtils.java:45-46 | Mapping an inventory type's name back gives the same type. |
| CatalogUtils.ParseLong | api/src/main/java/pl/touk/widerest/api/common/CatalogUtils.java:64-66 | Long.parseLong accepts only values in the signed 64-bit range, never the empty string, and never a string containing '/'. |
| CatalogUtils.ParseLongRoundTrip | api/src/main/java/pl/touk/widerest/api/common/CatalogUtils.java:64-66 | Parsing the decimal form of any long gives the long back. |
| CatalogUtils.ParseLongNonCanonical | api/src/main/java/pl/touk/widerest/api/common/CatalogUtils.java:64-66 | A digit string parses to its value when that fits in a long. A '+' sign or a leading zero does not change the result, and a '-' negates any value whose negation fits, so "-0" is 0. |
| CatalogUtils.GetIdFromUrl | api/src/main/java/pl/touk/widerest/api/common/CatalogUtils.java:64-66 | No path segment at all is the index error; otherwise the id is the parsed last segment, and parsing fails exactly when that segment is no long. |
| CatalogUtils.TokensJoinPath | api/src/main/java/pl/touk/widerest/api/common/CatalogUtils.java:64-66 | Splitting a path joined from plain segments gives the segments back. |
| CatalogUtils.UriPathSegmentsAbsolute | api/src/main/java/pl/touk/widerest/api/common/CatalogUtils.java:64-66 | The path segments of "scheme://host/path" are the tokens of the path alone. |
| CatalogUtils.GetIdFromAbsoluteHref | api/src/main/java/pl/touk/widerest/api/common/CatalogUtils.java:64-66 | For an absolute href whose last segment is the decimal form of a long n, the id read is n. |
| CatalogUtils.SubList | api/src/main/java/pl/touk/widerest/api/common/CatalogUtils.java:119-128 | subList succeeds exactly when 0 <= from <= to <= size and returns that slice; from > to within bounds is the illegal-argument error. |
| CatalogUtils.SublistForOffsetOverflow | api/src/main/java/pl/touk/widerest/api/common/CatalogUtils.java:119-120 | For ten elements, offset 1 and limit Integer.MAX_VALUE, the code as written throws, while the corrected definition returns the nine trailing elements. |
| CatalogUtils.SublistForOffsetAsWritten | api/src/main/java/pl/touk/widerest/api/common/CatalogUtils.java:119-128 | The paging as written fails exactly when the offset lies inside the list, the limit is positive and offset plus limit passes the int maximum; whenever it succeeds it returns the intended page. |
| CatalogUtils.SublistForOffset | api/src/main/java/pl/touk/widerest/api/common/CatalogUtils.java:88-129 | An empty list comes back unchanged and an offset at or past the end gives nothing. Otherwise the result is the slice starting at the offset, of length min(limit, rest), or the whole rest when the limit is not positive. |
| CatalogUtils.SublistForOffsetAgrees | api/src/main/java/pl/touk/widerest/api/common/CatalogUtils.java:88-129 | Whenever offset + limit fits in an int, the code as written returns exactly the corrected result and never throws. |
| CatalogUtils.SublistForOffsetSplit | api/src/main/java/pl/touk/widerest/api/common/CatalogUtils.java:88-129 | A first page of k elements followed by everything from offset k is the whole list. |
| CatalogUtils.SublistForOffsetPages | api/src/main/java/pl/touk/widerest/api/common/CatalogUtils.java:88-129 | Consecutive pages of a fixed size tile the list with no gap or overlap. |
| Catalog.AllSkus | api/src/main/java/pl/touk/widerest/api/catalog/products/ProductController.java:1170-1186 | A product's SKU list starts with the default SKU and holds exactly the additional SKUs whose id differs from the default's. |
| Catalog.WithoutIdMember | api/src/main/java/pl/touk/widerest/api/catalog/products/ProductController.java:1170-1186 | Filtering SKUs by id keeps exactly the SKUs with another id. |
| Catalog.TargetsMember | api/src/main/java/pl/touk/widerest/api/catalog/controllers/CategoryController.java:284-290 | An id is among an owner's targets exactly when the join table holds that row. |
| Catalog.NoDuplicatesRemoveFirst | api/src/main/java/pl/touk/widerest/api/catalog/controllers/CategoryController.java:328-342 | Removing one row keeps a duplicate-free join table duplicate-free. |
| MediaConverter.CreateDto | api/src/main/java/pl/touk/widerest/api/catalog/products/converters/MediaConverter.java:14-21 | The transfer object carries the entity's four fields unchanged. |
| MediaConverter.UpdateEntity | api/src/main/java/pl/touk/widerest/api/catalog/products/converters/MediaConverter.java:30-37 | A full update takes all four fields from the transfer object, nulls included. |
| MediaConverter.UpdateThenCreateDto | api/src/main/java/pl/touk/widerest/api/catalog/products/converters/MediaConverter.java:30-37 | The transfer object of an updated entity is the one applied; nothing of the old entity survives. |
| MediaConverter.CreateDtoThenEntity | api/src/main/java/pl/touk/widerest/api/catalog/products/converters/MediaConverter.java:14-27 | Converting an entity to a transfer object and back loses nothing. |
| MediaConverter.PartialUpdateEntity | api/src/main/java/pl/touk/widerest/api/catalog/products/converters/MediaConverter.java:40-58 | A partial update overwrites exactly the fields the transfer object carries; every other field keeps its old value. |
| MediaConverter.PartialUpdateEmpty | api/src/main/java/pl/touk/widerest/api/catalog/products/converters/MediaConverter.java:40-58 | A transfer object without any field leaves the entity as it was. |
| MediaConverter.PartialUpdateIdempotent | api/src/main/java/pl/touk/widerest/api/catalog/products/converters/MediaConverter.java:40-58 | Applying the same partial update twice is the same as applying it once. |
| MediaConverter.PartialUpdateOfCompleteDto | api/src/main/java/pl/touk/widerest/api/catalog/products/converters/MediaConverter.java:30-58 | With every field present, the partial update equals the full update. |
| MediaConverter.PartialUpdateKeepsPresent | api/src/main/java/pl/touk/widerest/api/catalog/products/converters/MediaConverter.java:40-58 | A field that was set is never cleared by a partial update. |
| CategoryConverter.UpdateEntity | api/src/main/java/pl/touk/widerest/api/categories/CategoryConverter.java:133-191 | Every field comes from the transfer object, and a missing start date becomes now. The availability maps as toInventoryTypeByAvailability does. The attributes and media are replaced key by key, and the archived flag stays. A category whose end date has passed is inactive from then on; one that is not archived and gets no dates is active now. |
| CategoryConverter.UpdateInStore | api/src/main/java/pl/touk/widerest/api/categories/CategoryConverter.java:133-191 | Only the updated category changes in the store. |
| CategoryConverter.UpdateKeepsReferences | api/src/main/java/pl/touk/widerest/api/categories/CategoryConverter.java:133-191 | An update changes no category's products, children, parents or visibility. |
| CategoryConverter.UpdateEntityIdempotent | api/src/main/java/pl/touk/widerest/api/categories/CategoryConverter.java:133-191 | Updating twice with the same transfer object and time is updating once. |
| CategoryConverter.UpdateDropsStaleEntries | api/src/main/java/pl/touk/widerest/api/categories/CategoryConverter.java:151-186 | An attribute or media key absent from the transfer object is gone after the update. |
| CategoryConverter.ShouldCategoryBeVisible | api/src/main/java/pl/touk/widerest/api/common/CatalogUtils.java:42-43 | A category let through is found and not archived. For a caller with the read permission it is let through exactly when it is found and not archived; for a caller without it, exactly when it is found and active now. |
| CategoryConverter.RemovedCategoryNeverEmbedded | api/src/main/java/pl/touk/widerest/api/catalog/controllers/CategoryController.java:155-168 | A removed category is never embedded again, whoever asks and whenever. |
| CategoryConverter.ExpiredCategoryHiddenFromGuests | api/src/main/java/pl/touk/widerest/api/categories/CategoryConverter.java:103-109 | Once the end date given in an update has passed, a caller without the read permission no longer gets the category embedded. |
| CategoryConverter.EmbeddedIdsMember | api/src/main/java/pl/touk/widerest/api/categories/CategoryConverter.java:103-109 | A child is embedded exactly when it is a child and should be visible to the caller. |
| CategoryConverter.Links | api/src/main/java/pl/touk/widerest/api/categories/CategoryConverter.java:80-101 | The self link comes first. With links requested, it is followed by the products link, then one subcategory link per child edge, then one parent link per parent edge, in table order. |
| CategoryConverter.MediaDtos | api/src/main/java/pl/touk/widerest/api/categories/CategoryConverter.java:72-78 | The representation holds one media transfer object per media key of the entity. |
| CategoryConverter.CreateDto | api/src/main/java/pl/touk/widerest/api/categories/CategoryConverter.java:57-125 | The representation copies the entity's fields, turns each attribute into its value and carries the links. It embeds one representation per visible child, in edge order, and embeds nothing without embed. |
| CategoryConverter.CreateDtoLinksIndependentOfEmbed | api/src/main/java/pl/touk/widerest/api/categories/CategoryConverter.java:80-109 | Embedding does not change the links of a representation. |
| CategoryConverter.UpdateThenCreateDto | api/src/main/java/pl/touk/widerest/api/categories/CategoryConverter.java:57-191 | The representation of a category just updated gives back the transfer object's name, descriptions, url, attributes and media, and its availability whenever that names an inventory type. |
| CategoryController.HrefId | api/src/main/java/pl/touk/widerest/api/catalog/controllers/CategoryController.java:256-266 | A null or empty href, or a last segment that is no number, is a bad request. Otherwise the id is the one getIdFromUrl reads. |
| CategoryController.HrefIdOfAbsoluteHref | api/src/main/java/pl/touk/widerest/api/catalog/controllers/CategoryController.java:256-266 | Every long is read back from an absolute href ending in its decimal form. |
| CategoryController.ReadAllCategories | api/src/main/java/pl/touk/widerest/api/catalog/controllers/CategoryController.java:76-89 | The listed categories that are visible, and unless flat only those without a parent, are returned, each as often as it is listed and nothing else. |
| CategoryController.ReadAllCategoriesAppend | api/src/main/java/pl/touk/widerest/api/catalog/controllers/CategoryController.java:76-89 | Listing keeps the service's order: listing two runs one after the other gives the two listings one after the other. |
| CategoryController.AddOneCategory | api/src/main/java/pl/touk/widerest/api/catalog/controllers/CategoryController.java:104-120 | A missing or empty name is a bad request with no change; otherwise the new category is stored under a fresh id and nothing else changes. |
| CategoryController.AddedCategoryVisible | api/src/main/java/pl/touk/widerest/api/catalog/controllers/CategoryController.java:104-120 | A category just added is visible exactly when it was not created archived, and then removing it succeeds. |
| CategoryController.RemoveOneCategory | api/src/main/java/pl/touk/widerest/api/catalog/controllers/CategoryController.java:155-168 | Removal succeeds exactly when the category is visible. Then the category is no longer visible and never active again, while every other category keeps its visibility. Otherwise the answer is not found and nothing changes. |
| CategoryController.AddSubcategory | api/src/main/java/pl/touk/widerest/api/catalog/controllers/CategoryController.java:250-291 | The href is read first, and an href naming the parent is a conflict. A child or parent that is not visible is not found, and an existing edge is a conflict. Otherwise exactly one edge is appended to the parent's child list. |
| CategoryController.AddSubcategoryFrame | api/src/main/java/pl/touk/widerest/api/catalog/controllers/CategoryController.java:284-290 | A new edge changes no other category's child list and no other category's parent list. |
| CategoryController.AddSubcategoryTwice | api/src/main/java/pl/touk/widerest/api/catalog/controllers/CategoryController.java:284-290 | Repeating a successful link is a conflict that changes nothing. |
| CategoryController.RemoveSubcategoryLookup | api/src/main/java/pl/touk/widerest/api/catalog/controllers/CategoryController.java:328-342 | A parent that is not visible, or a child that is not among its children, is not found. Otherwise the first matching edge is removed. |
| CategoryController.RemoveSubcategory | api/src/main/java/pl/touk/widerest/api/catalog/controllers/CategoryController.java:305-345 | An href naming the parent is a conflict; any other href goes to the lookup; a failure leaves the store unchanged. |
| CategoryController.RemoveSubcategoryAsWritten | api/src/main/java/pl/touk/widerest/api/catalog/controllers/CategoryController.java:305-345 | As written, an href naming the parent itself falls through to the lookup instead of answering conflict. |
| CategoryController.RemoveSelfSubcategoryAnswersNotFound | api/src/main/java/pl/touk/widerest/api/catalog/controllers/CategoryController.java:323-325 | For an href naming the parent itself, the code as written answers not found while the corrected definition answers conflict. |
| CategoryController.RemoveSubcategoryTwice | api/src/main/java/pl/touk/widerest/api/catalog/controllers/CategoryController.java:328-342 | With a duplicate-free table, a removed edge is gone, so repeating the removal is not found and changes nothing. |
| CategoryController.ReadProductsFromCategory | api/src/main/java/pl/touk/widerest/api/catalog/controllers/CategoryController.java:360-370 | A category that is not visible is not found. Otherwise the answer is its referenced products that are visible, in reference order. |
| CategoryController.ReadProductsFromCategoryMember | api/src/main/java/pl/touk/widerest/api/catalog/controllers/CategoryController.java:360-370 | A product is listed exactly when it is referenced by the category and visible. |
| CategoryController.InsertProduct | api/src/main/java/pl/touk/widerest/api/catalog/controllers/CategoryController.java:390-429 | The category, then the product must be visible, and an existing reference is a conflict. Otherwise a reference is appended, seen from both the category and the product. |
| CategoryController.InsertProductTwice | api/src/main/java/pl/touk/widerest/api/catalog/controllers/CategoryController.java:408-428 | A second insert of the same product is a conflict, and the count grew by one only once. |
| CategoryController.RemoveProduct | api/src/main/java/pl/touk/widerest/api/catalog/controllers/CategoryController.java:444-489 | The product must be among the category's visible products. Its first reference is then removed; otherwise the answer is not found and nothing changes. |
| CategoryController.RemoveProductTwice | api/src/main/java/pl/touk/widerest/api/catalog/controllers/CategoryController.java:463-484 | With a duplicate-free table, the count drops by one and a second removal is not found. |
| CategoryController.MutationsPreserveWellFormed | api/src/main/java/pl/touk/widerest/api/catalog/controllers/CategoryController.java:250-489 | Linking, unlinking, inserting and removing keep both join tables free of duplicate rows. |
| CategoryController.PutMedia | api/src/main/java/pl/touk/widerest/api/catalog/controllers/CategoryController.java:504-528 | Media without a url is a bad request before the lookup, and a category that is not visible is not found. Otherwise only the entry under the key is replaced: the category's other fields and every other category stay as they were. |
| CategoryController.DeleteMedia | api/src/main/java/pl/touk/widerest/api/catalog/controllers/CategoryController.java:541-556 | Deletion succeeds exactly when the category is visible and holds media under the key. Only that entry is removed: the category's other fields and every other category stay as they were. |
| CategoryController.PutThenDeleteMedia | api/src/main/java/pl/touk/widerest/api/catalog/controllers/CategoryController.java:504-556 | Media put under a key can be deleted, and then a second delete is not found. |
| CategoryLevels.FrontierMember | api/src/main/java/pl/touk/widerest/api/catalog/controllers/CategoryController.java:587-620 | A category is in the queue after d rounds exactly when it lies d child edges below a starting category. |
| CategoryLevels.PerRootIsFrontier | api/src/main/java/pl/touk/widerest/api/catalog/controllers/CategoryController.java:587-620 | Running the rounds root by root gives the same sequence as one breadth-first search from all roots. |
| CategoryLevels.CategoriesAtLevel | api/src/main/java/pl/touk/widerest/api/catalog/controllers/CategoryController.java:572-578 | A negative level or no roots gives nothing; level 0 gives the roots themselves. |
| CategoryLevels.CategoriesAtLevelMember | api/src/main/java/pl/touk/widerest/api/catalog/controllers/CategoryController.java:570-621 | The result holds exactly the categories that lie level child edges below some root. |
| CategoryLevels.GetCategoriesAtLevel | api/src/main/java/pl/touk/widerest/api/catalog/controllers/CategoryController.java:570-621 | The two-queue loop computes exactly the reference definition, repetitions and order included. |
| CategoryLevels.FrontierSplit | api/src/main/java/pl/touk/widerest/api/catalog/controllers/CategoryController.java:587-620 | a + b rounds are a rounds followed by b rounds. |
| ProductController.NormalizePaging | api/src/main/java/pl/touk/widerest/api/catalog/products/ProductController.java:159-163 | The page is at least 1, and a positive page is kept. A non-positive page size becomes the default; any other is the requested size capped at the maximum. |
| ProductController.NormalizePagingStable | api/src/main/java/pl/touk/widerest/api/catalog/products/ProductController.java:159-163 | With a sensible configuration the size lies between 1 and the maximum, and normalising again changes nothing. |
| ProductController.KnownItemsAll | api/src/main/java/pl/touk/widerest/api/catalog/products/ProductController.java:301-310 | No bundle item is dropped exactly when every item's SKU exists. |
| ProductController.KnownItems | api/src/main/java/pl/touk/widerest/api/catalog/products/ProductController.java:301-310 | The kept bundle items are exactly the given items whose SKU exists, and no more than were given. |
| ProductController.CreateNewBundle | api/src/main/java/pl/touk/widerest/api/catalog/products/ProductController.java:272-322 | A duplicate name or rejected prices are a bad request, and an unknown item SKU is a conflict. Otherwise the bundle is stored under a fresh id with its items, and nothing else changes. |
| ProductController.CreateNewBundleTwice | api/src/main/java/pl/touk/widerest/api/catalog/products/ProductController.java:277-279 | A second bundle with the same name is a bad request while the first is not archived. |
| ProductController.RemovedProductFreesName | api/src/main/java/pl/touk/widerest/api/catalog/products/ProductController.java:1492-1496 | Archiving a product frees its name for a new bundle exactly when no other product that is not archived carries it. |
| ProductController.RemoveOneProduct | api/src/main/java/pl/touk/widerest/api/catalog/products/ProductController.java:583-598 | Removal succeeds exactly when the product is visible, and then the product is no longer visible while every other product keeps its visibility. |
| ProductController.RemovedProductIsGone | api/src/main/java/pl/touk/widerest/api/catalog/products/ProductController.java:583-598 | A removed product cannot be removed again, is not listed in any category and cannot be inserted into one. |
| ProductController.GetAttributes | api/src/main/java/pl/touk/widerest/api/catalog/products/ProductController.java:613-625 | A product that is not visible is not found; otherwise the answer is its attribute map. |
| ProductController.AddAttribute | api/src/main/java/pl/touk/widerest/api/catalog/products/ProductController.java:640-669 | A missing name or value is a bad request before the lookup, and a product that is not visible is not found. Otherwise only that attribute is set. |
| ProductController.DeleteAttribute | api/src/main/java/pl/touk/widerest/api/catalog/products/ProductController.java:682-700 | Deletion succeeds exactly when the product is visible and has the attribute; only that key is removed. |
| ProductController.AddThenGetAttribute | api/src/main/java/pl/touk/widerest/api/catalog/products/ProductController.java:640-669 | After an add, the attributes show the new value under its name and every other attribute unchanged. |
| ProductController.AddThenDeleteAttribute | api/src/main/java/pl/touk/widerest/api/catalog/products/ProductController.java:640-700 | An added attribute can be deleted, and then a second delete is not found. |
| ProductController.CategoryCount | api/src/main/java/pl/touk/widerest/api/catalog/products/ProductController.java:747-758 | The count is the number of the product's references whose category is visible. |
| ProductController.ArchivingCategoryDecrementsCount | api/src/main/java/pl/touk/widerest/api/catalog/products/ProductController.java:747-758 | With a duplicate-free table, archiving one of a product's categories lowers its count by exactly one. |
| ProductController.SaveOneSku | api/src/main/java/pl/touk/widerest/api/catalog/products/ProductController.java:806-867 | A missing name, quantity, start date or sale price, or rejected prices, is a bad request. A complete request on a product that is missing or archived is not found. A visible product with options needs exactly one value per option, else bad request. Option values that do not resolve are not found. Otherwise the new SKU is appended after all existing ones, and every refusal leaves the store alone. |
| ProductController.AllSkusAfterAppend | api/src/main/java/pl/touk/widerest/api/catalog/products/ProductController.java:851-856 | Saving the whole SKU list plus a new SKU as the additional SKUs makes the list grow by exactly that SKU. |
| ProductController.SaveThenDeleteSku | api/src/main/java/pl/touk/widerest/api/catalog/products/ProductController.java:806-1190 | A SKU just added can be deleted again, which gives the product back its previous SKU list. |
| ProductController.DeleteOneSku | api/src/main/java/pl/touk/widerest/api/catalog/products/ProductController.java:1156-1190 | The default SKU cannot be deleted (conflict), and an absent SKU is not found. Otherwise the SKU list loses exactly that id. |
| ProductController.DeleteOneSkuKeepsOthers | api/src/main/java/pl/touk/widerest/api/catalog/products/ProductController.java:1170-1186 | Every other SKU survives a deletion, and a second deletion is not found. |
| ProductController.FindSku | api/src/main/java/pl/touk/widerest/api/catalog/products/ProductController.java:1120-1141 | The SKU found is in the list and has the id; none is found only when no SKU has it. |
| ProductController.FindSkuIsFirst | api/src/main/java/pl/touk/widerest/api/catalog/products/ProductController.java:1120-1141 | The SKU found comes before every other SKU with the id, as findAny on a sequential stream takes the first match. |
| ProductController.GetSkuAvailability | api/src/main/java/pl/touk/widerest/api/catalog/products/ProductController.java:1120-1141 | A missing product or SKU is not found. Otherwise the answer is the SKU's inventory type name, or the empty string when it has none. |
| ProductController.SetSkuAvailability | api/src/main/java/pl/touk/widerest/api/catalog/products/ProductController.java:1081-1105 | The product, the SKU and the named inventory type must all exist, or the answer is not found. The SKU with that id then gets the type. |
| ProductController.SetThenGetSkuAvailability | api/src/main/java/pl/touk/widerest/api/catalog/products/ProductController.java:1081-1141 | Reading a SKU's availability after setting it gives the string set, and the other SKUs keep theirs. |
| ProductController.ProductScopedNotFound | api/src/main/java/pl/touk/widerest/api/catalog/products/ProductController.java:583-1190 | Every product-scoped request on a product that is not visible is not found and changes nothing. |
| OrderAccess.OrdersOfMember | api/src/main/java/pl/touk/widerest/api/cart/service/OrderServiceProxy.java:61-72 | An order is among a customer's orders exactly when it is in the store and owned by that customer. |
| OrderAccess.FindOrder | api/src/main/java/pl/touk/widerest/api/cart/service/OrderServiceProxy.java:108-116 | The order found has the id and comes before every other order with it; none is found only when no order has it. |
| OrderAccess.GetOrdersByCustomer | api/src/main/java/pl/touk/widerest/api/cart/service/OrderServiceProxy.java:61-72 | An administrator gets all orders and any other principal nothing. An unknown customer is customer-not-found; a known customer gets only its own orders. |
| OrderAccess.GetOrdersByCustomerOwn | api/src/main/java/pl/touk/widerest/api/cart/service/OrderServiceProxy.java:61-72 | A registered customer is shown exactly its own orders. |
| OrderAccess.GetOrderForCustomerById | api/src/main/java/pl/touk/widerest/api/cart/service/OrderServiceProxy.java:108-116 | A known customer gets its order with that id exactly when one exists; otherwise order-not-found. |
| OrderAccess.GetProperCart | api/src/main/java/pl/touk/widerest/api/cart/service/OrderServiceProxy.java:88-99 | A customer gets its own order or the lookup's error, an administrator any order with the id, and anyone else no cart. |
| OrderAccess.ProperCartIsOwned | api/src/main/java/pl/touk/widerest/api/cart/service/OrderServiceProxy.java:88-99 | A resolved cart carries the requested id, is a stored order, and for a customer is that customer's own. |
| OrderAccess.GetDiscreteOrderItems | api/src/main/java/pl/touk/widerest/api/cart/service/OrderServiceProxy.java:102-106 | The items of the proper cart; no cart is resource-not-found. |
| OrderAccess.DiscreteItemsOfVisibleOrder | api/src/main/java/pl/touk/widerest/api/cart/service/OrderServiceProxy.java:102-106 | Items are returned only as the items of a stored order with the requested id that the caller may see: for a customer its own, for anyone but an administrator or a customer none. |
| OrderAccess.CountMatchingOne | api/src/main/java/pl/touk/widerest/api/cart/service/OrderServiceProxy.java:139-144 | Counting item ids by value finds exactly one match precisely when exactly one item carries the id. |
| OrderAccess.CountMatchingIdentity | api/src/main/java/pl/touk/widerest/api/cart/service/OrderServiceProxy.java:142 | Identity matches as many items as value equality for cached ids, and none for any other id. |
| CartOrderService.UpdateItemQuantityWith | api/src/main/java/pl/touk/widerest/api/cart/service/OrderServiceProxy.java:131-153 | A non-positive quantity is a conflict before any lookup. The update goes ahead exactly when the proper cart exists and exactly one item matches. |
| CartOrderService.UpdateItemQuantityAsWritten | api/src/main/java/pl/touk/widerest/api/cart/service/OrderServiceProxy.java:131-153 | As written, an update with a positive quantity fails for every item id outside -128..127. |
| CartOrderService.UpdateItemQuantityLargeId | api/src/main/java/pl/touk/widerest/api/cart/service/OrderServiceProxy.java:142 | A customer's cart with one item of id 1000: the code as written refuses the update, and the corrected definition forwards it. |
| CartOrderService.UpdateItemQuantity | api/src/main/java/pl/touk/widerest/api/cart/service/OrderServiceProxy.java:131-153 | A quantity of zero or less is a conflict. Otherwise the proper cart's lookup errors pass through, and the update goes ahead exactly when exactly one item of the cart carries the id; any other item count is not found. |
| CartOrderService.UpdateItemQuantityAgreesOnSmallIds | api/src/main/java/pl/touk/widerest/api/cart/service/OrderServiceProxy.java:139-144 | The as-written and corrected updates agree on item ids from -128 to 127. |
| CartOrderService.ForwardedQuantityIsAuthorised | api/src/main/java/pl/touk/widerest/api/cart/service/OrderServiceProxy.java:131-153 | A forwarded update names an item of an order the caller may see, its own for a customer. |
| CartOrderService.UpdateSelectedFulfillmentOption | api/src/main/java/pl/touk/widerest/api/cart/service/OrderServiceProxy.java:156-168 | The proper cart must exist, and an order without items may not get a fulfillment option. |
| CartOrderService.ForwardedFulfillmentIsAuthorised | api/src/main/java/pl/touk/widerest/api/cart/service/OrderServiceProxy.java:156-168 | An option is forwarded only for a stored order with the requested id that holds items and that the caller may see. |
| OrderService.UpdateItemQuantityInOrder | api/src/main/java/pl/touk/widerest/api/orders/OrderServiceProxy.java:110-130 | The proper cart must exist and exactly one item must match; the quantity is passed on as given. |
| OrderService.UpdateItemQuantityProxiesAgree | api/src/main/java/pl/touk/widerest/api/orders/OrderServiceProxy.java:114-123 | For a positive quantity the two proxies decide alike and forward the same request; otherwise only the cart proxy refuses. |
| OrderValidation.ValidateAddress | api/src/main/java/pl/touk/widerest/api/orders/OrderValidationService.java:40-53 | An address passes exactly when both names, the first line, the postal code and the city are non-empty and the country is set. Missing names are reported first. |
| OrderValidation.ValidateOrderBeforeCheckout | api/src/main/java/pl/touk/widerest/api/orders/OrderValidationService.java:24-70 | An empty order, a missing fulfillment option, a missing address or an incomplete address fail in that order; the order passes exactly when none applies. |
| OrderValidation.FirstFailureWins | api/src/main/java/pl/touk/widerest/api/orders/OrderValidationService.java:24-30 | The validation reports the first of all failing checks and passes exactly when none fails. |
| CustomerController.ToCustomerId | api/src/main/java/pl/touk/widerest/api/cart/controllers/CustomerController.java:204-209 | "me" names the logged-in customer; any other string is parsed as a long. |
| CustomerController.ToCustomerIdRoundTrip | api/src/main/java/pl/touk/widerest/api/cart/controllers/CustomerController.java:204-209 | The decimal form of any long names that long, whoever asks. |
| CustomerController.MeWithoutCustomer | api/src/main/java/pl/touk/widerest/api/cart/controllers/CustomerController.java:204-209 | "me" without a logged-in customer names nobody. |
| CustomerController.ResolveCustomer | api/src/main/java/pl/touk/widerest/api/cart/controllers/CustomerController.java:89-130 | The named customer if it exists, customer-not-found otherwise. |
| CustomerController.ReadOneCustomer | api/src/main/java/pl/touk/widerest/api/cart/controllers/CustomerController.java:89-99 | Reading succeeds exactly when the customer resolves, and "me" reads the logged-in customer. |
| CustomerController.UpdateCustomerEmail | api/src/main/java/pl/touk/widerest/api/cart/controllers/CustomerController.java:105-115 | The resolved customer gets the new email and nobody else changes. |
| CustomerController.UpdateThenReadEmail | api/src/main/java/pl/touk/widerest/api/cart/controllers/CustomerController.java:105-115 | Reading after an email update shows the new address. |
| CustomerController.ReadAllCustomers | api/src/main/java/pl/touk/widerest/api/cart/controllers/CustomerController.java:146-157 | An administrator sees the service's list of all customers, which holds every stored customer; a customer sees at most itself; anyone else nothing. Nobody sees a customer that is not stored. |
| CustomerController.ReadAllCustomersIsReadMe | api/src/main/java/pl/touk/widerest/api/cart/controllers/CustomerController.java:146-157 | A customer's listing is what reading "me" gives: itself while it exists, nothing otherwise. |
| CustomerController.RegisterCustomer | api/src/main/java/pl/touk/widerest/api/cart/controllers/CustomerController.java:161-189 | The checks run in this order: a customer principal, a missing or already registered customer, a username in use, an email in use. Registration succeeds exactly when none applies, and then sets the four fields on that customer alone. |
| CustomerController.RegisterKeepsUsernamesUnique | api/src/main/java/pl/touk/widerest/api/cart/controllers/CustomerController.java:170-187 | Registration never lets two customers share a username. |
| CustomerController.RegisterTwice | api/src/main/java/pl/touk/widerest/api/cart/controllers/CustomerController.java:170-175 | A second registration of the same customer is refused as already registered. |
| AnonymousUser.Authorities | api/src/main/java/pl/touk/widerest/security/AnonymousUserDetailsService.java:35-51 | The authorities are the roles in order, followed by ROLE_USER when no role has that name, so ROLE_USER is always present. |
| AnonymousUser.AuthoritiesIdempotent | api/src/main/java/pl/touk/widerest/security/AnonymousUserDetailsService.java:35-51 | Granting the authorities again adds nothing. |
| AnonymousUser.CreateGrantedAuthorities | api/src/main/java/pl/touk/widerest/security/AnonymousUserDetailsService.java:35-51 | The loop computes exactly the authorities of the reference definition. |
| AnonymousUser.CreateAnonymousUser | api/src/main/java/pl/touk/widerest/security/AnonymousUserDetailsService.java:27-33 | The user is named anonymous and has its password erased. It is enabled unless deactivated, and its credentials expire when a password change is required. Its authorities are the set of the customer's roles together with ROLE_USER. |
| Settings.ReadAllProperties | api/src/main/java/pl/touk/widerest/api/settings/SettingsController.java:57-69 | One entry per available name, in the service's order. |
| Settings.GetValue | api/src/main/java/pl/touk/widerest/api/settings/SettingsController.java:82-94 | A name that is not available is not found, and a property without a value is no content. Otherwise the answer is the value. |
| Settings.SetValue | api/src/main/java/pl/touk/widerest/api/settings/SettingsController.java:107-129 | A name that is not available is not found and changes nothing. Otherwise only that property takes the value. |
| Settings.SetThenGet | api/src/main/java/pl/touk/widerest/api/settings/SettingsController.java:82-129 | Reading a property right after setting it gives the value set. |
| Settings.SetKeepsOthers | api/src/main/java/pl/touk/widerest/api/settings/SettingsController.java:82-129 | Setting one property leaves every other name's reading unchanged. |
| Settings.SetTwice | api/src/main/java/pl/touk/widerest/api/settings/SettingsController.java:107-129 | Setting twice is setting once to the last value. |
| Settings.ListedNamesReadable | api/src/main/java/pl/touk/widerest/api/settings/SettingsController.java:57-94 | Every listed name can be read: it answers 200 or 204, never 404. |
| Currency.FindDefault | api/src/main/java/pl/touk/widerest/api/settings/CurrencyServiceProxy.java:17-19 | The first currency flagged as default, or none when none is flagged. |
| Currency.FindByCode | api/src/main/java/pl/touk/widerest/api/settings/CurrencyServiceProxy.java:30-32 | The first currency with exactly that code, or none when no currency has it. |
| Currency.InvalidateCurrentDefault | api/src/main/java/pl/touk/widerest/api/settings/CurrencyServiceProxy.java:34-39 | The current default loses its flag and no other currency changes. |
| Currency.SetDefault | api/src/main/java/pl/touk/widerest/api/settings/CurrencyServiceProxy.java:22-28 | The chosen currency becomes default after the old default is cleared; only those two change. |
| Currency.SetDefaultIsTheDefault | api/src/main/java/pl/touk/widerest/api/settings/CurrencyServiceProxy.java:22-28 | With at most one default before, the chosen currency is the only default afterwards. |
| Currency.ToUpperIdempotent | api/src/main/java/pl/touk/widerest/api/settings/CurrencyController.java:34-38 | Upper-casing an upper-cased code changes nothing. |
| Currency.GetDefaultCurrencyCode | api/src/main/java/pl/touk/widerest/api/settings/CurrencyController.java:25-29 | The default currency's code, or currency-not-found exactly when none is flagged. |
| Currency.SetDefaultCurrencyCode | api/src/main/java/pl/touk/widerest/api/settings/CurrencyController.java:34-38 | Currency-not-found exactly when no code equals the upper-cased request; otherwise only default flags change. |
| Currency.SetThenGetDefault | api/src/main/java/pl/touk/widerest/api/settings/CurrencyController.java:25-38 | Setting the default by any spelling and reading it back gives the upper-cased code, with a single default kept. |
| Currency.SetCurrentDefaultAgain | api/src/main/java/pl/touk/widerest/api/settings/CurrencyServiceProxy.java:22-28 | Making the current default the default again changes nothing. |
| Currency.EurBecomesDefault | api/src/main/java/pl/touk/widerest/api/settings/CurrencyController.java:34-38 | Asking for "eur" makes EUR the default currency. |

## Left out

- Spring MVC, HATEOAS resource assembly, Swagger annotations, caching annotations and the HTTP layer are left out. Each endpoint is its decision function; a response body is the value the function returns.
- Security is not modelled as code. `@PreAuthorize` rules and `isUserAthorizedFor` become an `authorized` boolean or the `Principal` datatype. The "me" authorization expressions on the customer endpoints are not modelled.
- `archivedCategoryFilter` and `archivedProductFilter`, which the controllers call, are not defined in the CatalogUtils.java of this model's source. Both are taken to be the `isNotArchived` test on the entity's flag.
- Persistence is the immutable store. Fresh ids from the database are parameters with a freshness precondition. Broadleaf's save, archive and register calls are modelled by their effect on the store: archiving sets the flag to 'Y'.
- CategoryController.ReadAllCategories: `listed` stands for Broadleaf's `findAllCategories()` when the listing is flat and for `findAllParentCategories()` otherwise. Neither service is part of this model.
- CategoryController.HrefId: the controllers call `getIdFromUrl` of `pl.touk.widerest.api.catalog.CatalogUtils`, which is not part of this model. Its stand-in is the `getIdFromUrl(String)` of `api.common.CatalogUtils`. A URL-based parser may instead answer 400 for relative hrefs and trailing slashes, and for an href without a path.
- CategoryController.PutMedia: `mediaDtoToCategoryMediaXref` is not part of this model. The entry is taken to be the media `MediaConverter.createEntity` builds, under the given key.
- CatalogUtils.ParseLong: accepts ASCII digits only. `Long.parseLong` also accepts the other Unicode decimal digits that `Character.digit` knows.
- OrderAccess.LongIdentical: both ids are taken to be boxed through `Long.valueOf`. Only the -128..127 cache is shared; a JVM may be configured to cache a wider range.
- CategoryConverter.MediaDtos: `CategoryConverter` calls the three-argument `createDto(media, embed, link)` of `api.common.MediaConverter`, which is not part of this model. Its stand-in is the two-argument converter of `api.catalog.products.converters.MediaConverter`, and links on media representations are not modelled.
- ProductController.GetAttributes: an attribute's string form is its value, as Broadleaf's `ProductAttributeImpl.toString` gives it. That class is not part of this model.
- CategoryConverter.CreateDto: an attribute's string form is its value, as Broadleaf's `CategoryAttributeImpl.toString` gives it. That class is not part of this model.
- CategoryConverter.ShouldCategoryBeVisible: Broadleaf's `Category.isActive` is not part of this model. It is taken to be `Catalog.CategoryActive`: a start date not after now, no end date before now, and not archived.
- ProductController.RemoveOneProduct: a product's `active` is a stored flag that archiving clears. Broadleaf derives it from the dates and the archived flag; the product dates are not modelled.
- CustomerController.ReadAllCustomers: the order of `getAllCustomers` is the database's and is the parameter `all`.
- Catalog.AllSkus: Broadleaf's `getAllSkus` is not part of this model. The model takes it to be the default SKU followed by the additional SKUs without the default's id.
- Entities built by converters the core does not show become parameters (`created`): the product, the bundle and the SKU. Only the fields the controllers test are modelled.
- ProductController.CreateNewBundle: the price validator and the bundle item construction are not modelled. The validator's verdict is the `pricesValid` parameter, and a `DtoValidationException` is the bad request.
- ProductController.SaveOneSku: the option value resolution is not modelled; its verdict is the `optionsResolve` parameter.
- ProductController.HasDuplicates: product names are compared by exact equality.
- The SKU's removal from Broadleaf's global SKU table in `deleteOneSkuById` is left out. Only the product's SKU list is modelled.
- CartOrderService.UpdateItemQuantityWith and OrderService.UpdateItemQuantityInOrder hand back the request they would pass on. Broadleaf's `updateItemQuantity`, pricing and the workflow exceptions are outside the core. The same holds for the fulfillment option update.
- CustomerController.ResolveCustomer covers the lookup in `createAuthorizationCode`. OAuth authorization code generation is left out.
- CustomerController.RegisterCustomer: the password confirmation is accepted and ignored, and passwords are stored as given. Broadleaf's `registerCustomer` and password encoding are not part of this model. `mergeWithAnonymous` has no observable effect on the modelled state and is left out.
- CategoryConverter.UpdateEntity: `Instant.now()` is the `now` parameter. Dates are integers.
- CategoryConverter.CreateDto: the recursion into embedded subcategories is bounded by `fuel`. Representations deeper than the fuel are not modelled. The embedded "fulfillmentOptions" resource, read from the fulfillment service, is not modelled either.
- The product transfer object and the product converter are not modelled. Product fields appear only as far as the product endpoints test them.
- Currency.ToUpper covers the ASCII letters only. Java's locale-dependent `toUpperCase` of other characters is left out.
- Currency.SetThenGetDefault and Currency.SetDefaultIsTheDefault assume the table holds at most one default. That is what `setDefaultBroadleafCurrency` maintains, not something the table enforces.
- Settings.GetValue: `readAllProperties` returns only the names, and the property DTO conversion is left out. Settings values are strings.
- OrderValidation: the exception messages are not modelled; each failure is a constructor of `ValidationError`.
- The search service, pricing, the inventory service, the fulfillment options listing and the OAuth endpoints are outside the modelled core.

## Findings

| source | as written | input that shows it | evidently intended | confidence | as-written member | corrected member |
|---|---|---|---|---|---|---|
| api/src/main/java/pl/touk/widerest/api/common/CatalogUtils.java:119-120 | `offsetParam + limitParam` is an int sum that wraps around, so `subList` gets a negative end index and throws | a list of 10 elements, offset 1, limit `Integer.MAX_VALUE` | return the 9 elements from offset 1 | not executed | CatalogUtils.SublistForOffsetOverflow | CatalogUtils.SublistForOffset |
| api/src/main/java/pl/touk/widerest/api/cart/service/OrderServiceProxy.java:142 | item ids are compared with `==` on boxed `Long`s, which is true only for cached values from -128 to 127 | customer 7's order 1 with one item of id 1000, quantity 2 | the item matches and the update goes ahead | not executed | CartOrderService.UpdateItemQuantityLargeId | CartOrderService.UpdateItemQuantity |
| api/src/main/java/pl/touk/widerest/api/catalog/controllers/CategoryController.java:323-325 | the conflict response for an href naming the parent itself is built and discarded, so the request falls through to the lookup | a visible parent without a self edge, href naming the parent | answer 409 conflict, as adding a subcategory does | not executed | CategoryController.RemoveSelfSubcategoryAnswersNotFound | CategoryController.RemoveSubcategory |

=== FILE: anonymous_user.dfy ===
/** The user details handed to an anonymous visitor: a freshly created
    customer, named "anonymous", with its credentials erased and with the
    customer's roles as authorities, always including ROLE_USER. */
module AnonymousUser {
  import opened Base

  const ROLE_USER: string := "ROLE_USER"
  const ANONYMOUS: string := "anonymous"

  /** What the details read of the customer `createNewCustomer` returns. */
  datatype NewCustomer = NewCustomer(id: Id, deactivated: bool, passwordChangeRequired: bool)

  /** Spring's user details as built for a customer; the password is null
      once the credentials are erased. `User` keeps the authorities as a
      sorted set, so neither their order nor repetitions survive. */
  datatype CustomerUserDetails = CustomerUserDetails(
    id: Id,
    username: string,
    password: Option<string>,
    enabled: bool,
    accountNonExpired: bool,
    credentialsNonExpired: bool,
    accountNonLocked: bool,
    authorities: set<string>)

  /** The authorities for the given role names: the roles in their order,
      followed by ROLE_USER when no role carries that name. */
  function Authorities(roles: seq<string>): (r: seq<string>)
    ensures ROLE_USER in r
    ensures |r| == (if ROLE_USER in roles then |roles| else |roles| + 1)
    ensures r[..|roles|] == roles
    ensures ROLE_USER !in roles ==> r[|roles|] == ROLE_USER
    ensures forall a :: a in r <==> a in roles || a == ROLE_USER
  {
    if ROLE_USER in roles then roles else roles + [ROLE_USER]
  }

  /** Granting twice adds nothing the first grant did not. */
  lemma AuthoritiesIdempotent(roles: seq<string>)
    ensures Authorities(Authorities(roles)) == Authorities(roles)
  {
  }

  /** `createGrantedAuthorities`: copies the role names one by one,
      remembering whether ROLE_USER was among them, and appends it when
      it was not. */
  method CreateGrantedAuthorities(customerRoles: seq<string>) returns (grantedAuthorities: seq<string>)
    ensures grantedAuthorities == Authorities(customerRoles)
  {
    var roleUserFound := false;
    grantedAuthorities := [];
    var i := 0;
    while i < |customerRoles|
      invariant 0 <= i <= |customerRoles|
      invariant grantedAuthorities == customerRoles[..i]
      invariant roleUserFound <==> ROLE_USER in customerRoles[..i]
    {
      grantedAuthorities := grantedAuthorities + [customerRoles[i]];
      if customerRoles[i] == ROLE_USER {
        roleUserFound := true;
      }
      assert customerRoles[..i + 1] == customerRoles[..i] + [customerRoles[i]];
      i := i + 1;
    }
    assert customerRoles[..i] == customerRoles;
    if !roleUserFound {
      grantedAuthorities := grantedAuthorities + [ROLE_USER];
    }
  }

  /** `createAnonymousUser`: the new customer's id under the name
      "anonymous", enabled unless deactivated, with credentials expired
      when a password change is required, never expired or locked
      otherwise, with the password erased. */
  method CreateAnonymousUser(customer: NewCustomer, customerRoles: seq<string>) returns (anonymous: CustomerUserDetails)
    ensures anonymous.id == customer.id && anonymous.username == ANONYMOUS
    ensures anonymous.password == None
    ensures anonymous.enabled <==> !customer.deactivated
    ensures anonymous.credentialsNonExpired <==> !customer.passwordChangeRequired
    ensures anonymous.accountNonExpired && anonymous.accountNonLocked
    ensures ROLE_USER in anonymous.authorities
    ensures anonymous.authorities == set a | a in Authorities(customerRoles)
    ensures forall a :: a in anonymous.authorities <==> a in customerRoles || a == ROLE_USER
  {
    var grantedAuthorities := CreateGrantedAuthorities(customerRoles);
    anonymous := CustomerUserDetails(customer.id, ANONYMOUS, Some(""), !customer.deactivated, true,
                                     !customer.passwordChangeRequired, true, set a | a in grantedAuthorities);
    anonymous := anonymous.(password := None);
  }
}

=== FILE: base.dfy ===
/** Shared vocabulary of the model: optional values, results, Java integer
    ranges and the few sequence helpers every component uses. */
module Base {

  /** A value that may be absent; stands for a Java reference that may be null. */
  datatype Option<+T> = None | Some(value: T)

  /** The outcome of a computation that may fail with an error of type `E`. */
  datatype Result<+T, +E> = Success(value: T) | Failure(error: E)

  /** The authenticated principal as the services dispatch on it: an
      administrator, a (possibly anonymous) customer with its id, or any
      other kind of user details. */
  datatype Principal = AdminPrincipal | CustomerPrincipal(id: int) | OtherPrincipal

  /** The HTTP status codes the controllers answer with. */
  datatype HttpStatus = Ok | Created | NoContent | BadRequest | NotFound | Conflict | ServerError

  /** Java `long` identifiers of persistent entities. */
  type Id = int

  const LONG_MIN: int := -0x8000_0000_0000_0000
  const LONG_MAX: int := 0x7fff_ffff_ffff_ffff
  const INT_MIN: int := -0x8000_0000
  const INT_MAX: int := 0x7fff_ffff

  predicate InLongRange(n: int) { LONG_MIN <= n <= LONG_MAX }
  predicate InIntRange(n: int) { INT_MIN <= n <= INT_MAX }

  /** Java 32-bit `int` addition, which wraps around on overflow. */
  function IntAdd(a: int, b: int): (r: int)
    requires InIntRange(a) && InIntRange(b)
    ensures InIntRange(r)
    ensures InIntRange(a + b) ==> r == a + b
    ensures a + b > INT_MAX ==> r == a + b - 0x1_0000_0000
  {
    var s := a + b;
    if s > INT_MAX then s - 0x1_0000_0000
    else if s < INT_MIN then s + 0x1_0000_0000
    else s
  }

  function Min(a: int, b: int): int { if a <= b then a else b }
  function Max(a: int, b: int): int { if a >= b then a else b }

  /** Java `String.isEmpty` guarded by a null test: absent or "". */
  predicate NullOrEmpty(s: Option<string>) { s.None? || |s.value| == 0 }

  /** Number of occurrences of `x` in `xs`. */
  function Count<T(==)>(xs: seq<T>, x: T): nat
  {
    if |xs| == 0 then 0 else (if xs[0] == x then 1 else 0) + Count(xs[1..], x)
  }

  /** Java `List.remove(Object)`: drops the first element equal to `x`, if any. */
  function RemoveFirst<T(==)>(xs: seq<T>, x: T): (r: seq<T>)
    ensures x in xs ==> |r| == |xs| - 1
    ensures x !in xs ==> r == xs
  {
    if |xs| == 0 then []
    else if xs[0] == x then xs[1..]
    else [xs[0]] + RemoveFirst(xs[1..], x)
  }

  lemma {:induction false} CountAppend<T>(xs: seq<T>, ys: seq<T>, x: T)
    ensures Count(xs + ys, x) == Count(xs, x) + Count(ys, x)
  {
    if |xs| == 0 {
      assert xs + ys == ys;
    } else {
      assert (xs + ys)[1..] == xs[1..] + ys;
      CountAppend(xs[1..], ys, x);
    }
  }

  lemma {:induction false} CountPositive<T>(xs: seq<T>, x: T)
    ensures x in xs <==> Count(xs, x) > 0
  {
    if |xs| > 0 {
      CountPositive(xs[1..], x);
      assert x in xs <==> xs[0] == x || x in xs[1..];
    }
  }

  /** Removing the first occurrence lowers the count of that element by one
      and leaves the count of every other element alone. */
  lemma {:induction false} CountRemoveFirst<T>(xs: seq<T>, x: T, y: T)
    requires x in xs
    ensures Count(RemoveFirst(xs, x), y) == Count(xs, y) - (if x == y then 1 else 0)
  {
    if xs[0] != x {
      CountRemoveFirst(xs[1..], x, y);
      assert ([xs[0]] + RemoveFirst(xs[1..], x))[1..] == RemoveFirst(xs[1..], x);
    }
  }

  /** A sequence without repeated elements. */
  predicate NoDuplicates<T(==)>(xs: seq<T>)
  {
    forall i, j :: 0 <= i < j < |xs| ==> xs[i] != xs[j]
  }

  lemma {:induction false} NoDuplicatesCount<T>(xs: seq<T>, x: T)
    requires NoDuplicates(xs)
    ensures Count(xs, x) <= 1
  {
    if |xs| > 0 {
      assert NoDuplicates(xs[1..]) by {
        forall i, j | 0 <= i < j < |xs[1..]| ensures xs[1..][i] != xs[1..][j] {
          assert xs[1..][i] == xs[i + 1] && xs[1..][j] == xs[j + 1];
        }
      }
      NoDuplicatesCount(xs[1..], x);
      if xs[0] == x {
        assert x !in xs[1..] by {
          forall k | 0 <= k < |xs[1..]| ensures xs[1..][k] != x {
            assert xs[1..][k] == xs[k + 1];
          }
        }
        CountPositive(xs[1..], x);
      }
    }
  }
}

=== FILE: cart_order_service.dfy ===
/** The cart-side order service proxy: item quantity updates and the choice
    of a fulfillment option, each on the caller's proper cart. */
module CartOrderService {
  import opened Base
  import opened OrderAccess

  /** The outcome of a quantity update: the response status and, when the
      update goes ahead, the request handed on to the order service. */
  datatype QuantityReply = QuantityReply(status: HttpStatus, request: Option<QuantityRequest>)

  /** The fulfillment option update handed on to the fulfillment service. */
  datatype FulfillmentRequest = FulfillmentRequest(orderId: Id, fulfillmentOptionId: Id)

  /** `updateItemQuantityInOrder` with the item ids compared by `same`: a
      quantity of zero or less is a conflict before any lookup; then the
      proper cart must exist and exactly one of its items must match. */
  function UpdateItemQuantityWith(st: OrderStore, quantity: int, p: Principal, orderId: Id, itemId: Id, same: (Id, Id) -> bool): (r: Result<QuantityReply, OrderError>)
    ensures quantity <= 0 ==> r == Success(QuantityReply(Conflict, None))
    ensures quantity > 0 && GetProperCart(st, p, orderId).Failure? ==> r == Failure(GetProperCart(st, p, orderId).error)
    ensures quantity > 0 && GetProperCart(st, p, orderId) == Success(None) ==> r == Failure(ResourceNotFound)
    ensures r.Success? && quantity > 0 <==>
      GetProperCart(st, p, orderId).Success? && GetProperCart(st, p, orderId).value.Some? && quantity > 0 &&
      CountMatching(GetProperCart(st, p, orderId).value.value.items, itemId, same) == 1
    ensures r.Success? && quantity > 0 ==> r.value == QuantityReply(Ok, Some(QuantityRequest(orderId, itemId, quantity)))
    ensures r.Failure? ==> r.error != FulfillmentOptionNotAllowed
  {
    if quantity <= 0 then Success(QuantityReply(Conflict, None))
    else match GetProperCart(st, p, orderId)
      case Failure(e) => Failure(e)
      case Success(None) => Failure(ResourceNotFound)
      case Success(Some(cart)) =>
        if CountMatching(cart.items, itemId, same) != 1 then Failure(ResourceNotFound)
        else Success(QuantityReply(Ok, Some(QuantityRequest(orderId, itemId, quantity))))
  }

  /** As written: the item ids are compared with `==` on boxed `Long`s, so
      only ids from -128 to 127 can ever match. */
  function UpdateItemQuantityAsWritten(st: OrderStore, quantity: int, p: Principal, orderId: Id, itemId: Id): (r: Result<QuantityReply, OrderError>)
    ensures quantity <= 0 ==> r == Success(QuantityReply(Conflict, None))
    ensures quantity > 0 && !(-128 <= itemId <= 127) ==> r.Failure?
    ensures r == UpdateItemQuantityWith(st, quantity, p, orderId, itemId, LongIdentical)
  {
    var cart := GetProperCart(st, p, orderId);
    if quantity > 0 && cart.Success? && cart.value.Some? then
      CountMatchingIdentity(cart.value.value.items, itemId);
      UpdateItemQuantityWith(st, quantity, p, orderId, itemId, LongIdentical)
    else
      UpdateItemQuantityWith(st, quantity, p, orderId, itemId, LongIdentical)
  }

  /** With the ids compared by value, as the code evidently intends: for a
      positive quantity the update goes ahead exactly when the proper cart
      exists and exactly one of its items carries the id. */
  function UpdateItemQuantity(st: OrderStore, quantity: int, p: Principal, orderId: Id, itemId: Id): (r: Result<QuantityReply, OrderError>)
    ensures quantity <= 0 ==> r == Success(QuantityReply(Conflict, None))
    ensures quantity > 0 && GetProperCart(st, p, orderId).Failure? ==> r == Failure(GetProperCart(st, p, orderId).error)
    ensures quantity > 0 && GetProperCart(st, p, orderId) == Success(None) ==> r == Failure(ResourceNotFound)
    ensures quantity > 0 && GetProperCart(st, p, orderId).Success? && GetProperCart(st, p, orderId).value.Some? ==>
      var cart := GetProperCart(st, p, orderId).value.value;
      (r.Success? <==> UniqueItem(cart.items, itemId)) &&
      (r.Success? ==> r.value == QuantityReply(Ok, Some(QuantityRequest(orderId, itemId, quantity)))) &&
      (r.Failure? ==> r.error == ResourceNotFound)
  {
    var cart := GetProperCart(st, p, orderId);
    if quantity > 0 && cart.Success? && cart.value.Some? then
      CountMatchingOne(cart.value.value.items, itemId);
      UpdateItemQuantityWith(st, quantity, p, orderId, itemId, ObjectsEquals)
    else
      UpdateItemQuantityWith(st, quantity, p, orderId, itemId, ObjectsEquals)
  }

  /** The two readings agree on item ids from -128 to 127. */
  lemma UpdateItemQuantityAgreesOnSmallIds(st: OrderStore, quantity: int, p: Principal, orderId: Id, itemId: Id)
    requires -128 <= itemId <= 127
    ensures UpdateItemQuantityAsWritten(st, quantity, p, orderId, itemId) == UpdateItemQuantity(st, quantity, p, orderId, itemId)
  {
    if quantity > 0 && GetProperCart(st, p, orderId).Success? && GetProperCart(st, p, orderId).value.Some? {
      CountMatchingIdentity(GetProperCart(st, p, orderId).value.value.items, itemId);
    }
  }

  /** Customer 7 owns order 1 holding one item with id 1000: the update of
      that item's quantity is refused as written and goes ahead once ids
      are compared by value. */
  lemma UpdateItemQuantityLargeId()
    ensures UpdateItemQuantityAsWritten(OrderStore({7}, [Order(1, 7, 1, [OrderItem(1000, 1)], None)]), 2, CustomerPrincipal(7), 1, 1000)
         == Failure(ResourceNotFound)
    ensures UpdateItemQuantity(OrderStore({7}, [Order(1, 7, 1, [OrderItem(1000, 1)], None)]), 2, CustomerPrincipal(7), 1, 1000)
         == Success(QuantityReply(Ok, Some(QuantityRequest(1, 1000, 2))))
  {
    var st := OrderStore({7}, [Order(1, 7, 1, [OrderItem(1000, 1)], None)]);
    var o := Order(1, 7, 1, [OrderItem(1000, 1)], None);
    assert GetOrderForCustomerById(st, 7, 1).Success? by {
      assert st.orders[0].id == 1 && st.orders[0].customer == 7;
    }
    assert GetProperCart(st, CustomerPrincipal(7), 1) == Success(Some(o));
    assert CountMatching(o.items, 1000, ObjectsEquals) == 1 by {
      assert o.items[1..] == [];
    }
  }

  /** An update that goes ahead names an item of a cart the caller may see:
      for a customer, one of its own orders. */
  lemma ForwardedQuantityIsAuthorised(st: OrderStore, quantity: int, p: Principal, orderId: Id, itemId: Id)
    requires UpdateItemQuantity(st, quantity, p, orderId, itemId).Success? && quantity > 0
    ensures exists o :: (o in st.orders && o.id == orderId && (p.CustomerPrincipal? ==> o.customer == p.id) &&
                         exists k :: 0 <= k < |o.items| && o.items[k].id == itemId)
    ensures !p.OtherPrincipal?
  {
    var o := GetProperCart(st, p, orderId).value.value;
    var k :| 0 <= k < |o.items| && o.items[k].id == itemId
      && forall j :: 0 <= j < |o.items| && j != k ==> o.items[j].id != itemId;
  }

  /** `updateSelectedFulfillmentOption`: the proper cart must exist; an
      order without items may not get a fulfillment option. */
  function UpdateSelectedFulfillmentOption(st: OrderStore, p: Principal, orderId: Id, optionId: Id): (r: Result<FulfillmentRequest, OrderError>)
    ensures GetProperCart(st, p, orderId).Failure? ==> r == Failure(GetProperCart(st, p, orderId).error)
    ensures GetProperCart(st, p, orderId) == Success(None) ==> r == Failure(ResourceNotFound)
    ensures GetProperCart(st, p, orderId).Success? && GetProperCart(st, p, orderId).value.Some? ==>
      var o := GetProperCart(st, p, orderId).value.value;
      (o.itemCount <= 0 ==> r == Failure(FulfillmentOptionNotAllowed)) &&
      (o.itemCount > 0 ==> r == Success(FulfillmentRequest(o.id, optionId)))
    ensures r.Success? ==> r.value.orderId == orderId
  {
    match GetProperCart(st, p, orderId)
    case Failure(e) => Failure(e)
    case Success(None) => Failure(ResourceNotFound)
    case Success(Some(o)) =>
      if o.itemCount <= 0 then Failure(FulfillmentOptionNotAllowed)
      else Success(FulfillmentRequest(o.id, optionId))
  }

  /** A fulfillment option is forwarded only for a stored order with the
      requested id that holds items and that the caller may see. */
  lemma ForwardedFulfillmentIsAuthorised(st: OrderStore, p: Principal, orderId: Id, optionId: Id)
    requires UpdateSelectedFulfillmentOption(st, p, orderId, optionId).Success?
    ensures !p.OtherPrincipal?
    ensures exists o :: (o in st.orders && o.id == orderId && o.itemCount > 0 && (p.CustomerPrincipal? ==> o.customer == p.id))
  {
    var o := GetProperCart(st, p, orderId).value.value;
    ProperCartIsOwned(st, p, orderId);
    assert o in st.orders;
  }
}

=== FILE: catalog.dfy ===
/** The catalog as the controllers see it: categories and products keyed by
    id, and the two ordered join tables that link them. */
module Catalog {
  import opened Base
  import opened CatalogUtils

  /** A Broadleaf media record; every field may be null. */
  datatype Media = Media(title: Option<string>, tags: Option<string>, altText: Option<string>, url: Option<string>)

  /** A media record attached to a category under `key`. */
  datatype CategoryMediaXref = CategoryMediaXref(key: string, media: Media)

  datatype CategoryAttribute = CategoryAttribute(name: string, value: string)

  /** A category entity. Whether it is active is not stored: it follows from
      the dates, the archived flag and the clock (`CategoryActive`). */
  datatype Category = Category(
    name: Option<string>,
    description: Option<string>,
    longDescription: Option<string>,
    url: Option<string>,
    activeStartDate: Option<int>,
    activeEndDate: Option<int>,
    inventoryType: Option<InventoryType>,
    attributes: map<string, CategoryAttribute>,
    media: map<string, CategoryMediaXref>,
    archived: char)

  /** Broadleaf's `Category.isActive` at time `now`: the start date is set and
      not after `now`, the end date is unset or not before `now`, and the
      category is not archived. */
  predicate CategoryActive(c: Category, now: int)
  {
    c.activeStartDate.Some? && c.activeStartDate.value <= now
    && (c.activeEndDate.None? || now <= c.activeEndDate.value)
    && c.archived != 'Y'
  }

  datatype Sku = Sku(id: Id, name: Option<string>, quantityAvailable: Option<int>, inventoryType: Option<InventoryType>)

  /** A product entity: a default SKU, the additional SKUs, the attribute
      map, the number of product options and, for a bundle, the SKU ids of
      its items. */
  datatype Product = Product(
    name: string,
    archived: char,
    active: bool,
    defaultSku: Sku,
    additionalSkus: seq<Sku>,
    attributes: map<string, string>,
    optionCount: nat,
    bundleItems: seq<Id>)

  /** A row of a join table. In the category table `owner` is the parent and
      `target` the subcategory; in the product table `owner` is the category
      and `target` the product. Two rows are equal when both ids are. */
  datatype Xref = Xref(owner: Id, target: Id)

  /** The persistent state: entities by id and the two join tables in the
      order their rows were added. */
  datatype Store = Store(
    categories: map<Id, Category>,
    products: map<Id, Product>,
    categoryXrefs: seq<Xref>,
    productXrefs: seq<Xref>)

  /** The status of a mutating request and the store it leaves behind. */
  datatype Reply = Reply(status: HttpStatus, store: Store)

  /** Found by id and not archived: what the archived filters let through. */
  predicate CategoryVisible(s: Store, id: Id)
  {
    id in s.categories && IsNotArchived(Status(s.categories[id].archived))
  }

  predicate ProductVisible(s: Store, id: Id)
  {
    id in s.products && IsNotArchived(Status(s.products[id].archived))
  }

  /** Targets of the rows owned by `owner`, in table order. */
  function Targets(xs: seq<Xref>, owner: Id): (r: seq<Id>)
    ensures |r| <= |xs|
  {
    if |xs| == 0 then []
    else (if xs[0].owner == owner then [xs[0].target] else []) + Targets(xs[1..], owner)
  }

  /** Owners of the rows pointing at `target`, in table order. */
  function Owners(xs: seq<Xref>, target: Id): (r: seq<Id>)
    ensures |r| <= |xs|
  {
    if |xs| == 0 then []
    else (if xs[0].target == target then [xs[0].owner] else []) + Owners(xs[1..], target)
  }

  /** The subcategory ids of a category's child edges, in edge order. */
  function ChildIds(s: Store, parent: Id): seq<Id> { Targets(s.categoryXrefs, parent) }

  /** The parent ids of a category's parent edges. */
  function ParentIds(s: Store, child: Id): seq<Id> { Owners(s.categoryXrefs, child) }

  /** The product ids of a category's product references. */
  function ProductIds(s: Store, category: Id): seq<Id> { Targets(s.productXrefs, category) }

  /** The category ids of a product's parent references. */
  function CategoryIdsOf(s: Store, product: Id): seq<Id> { Owners(s.productXrefs, product) }

  /** The ids among `ids` that are visible products, in order. */
  function VisibleProducts(s: Store, ids: seq<Id>): (r: seq<Id>)
    ensures |r| <= |ids|
    ensures forall k :: 0 <= k < |r| ==> ProductVisible(s, r[k])
  {
    if |ids| == 0 then []
    else (if ProductVisible(s, ids[0]) then [ids[0]] else []) + VisibleProducts(s, ids[1..])
  }

  /** The ids among `ids` that are visible categories, in order. */
  function VisibleCategories(s: Store, ids: seq<Id>): (r: seq<Id>)
    ensures |r| <= |ids|
    ensures forall k :: 0 <= k < |r| ==> CategoryVisible(s, r[k])
  {
    if |ids| == 0 then []
    else (if CategoryVisible(s, ids[0]) then [ids[0]] else []) + VisibleCategories(s, ids[1..])
  }

  /** Neither join table holds the same row twice. Every operation of the
      controllers keeps this, because they refuse to add a row that is there. */
  predicate WellFormed(s: Store)
  {
    NoDuplicates(s.categoryXrefs) && NoDuplicates(s.productXrefs)
  }

  // ---------------------------------------------------------------------------
  // Facts about the join tables

  lemma {:induction false} TargetsMember(xs: seq<Xref>, owner: Id, target: Id)
    ensures target in Targets(xs, owner) <==> Xref(owner, target) in xs
  {
    if |xs| > 0 {
      TargetsMember(xs[1..], owner, target);
      assert Xref(owner, target) in xs <==> xs[0] == Xref(owner, target) || Xref(owner, target) in xs[1..];
    }
  }

  lemma {:induction false} OwnersMember(xs: seq<Xref>, owner: Id, target: Id)
    ensures owner in Owners(xs, target) <==> Xref(owner, target) in xs
  {
    if |xs| > 0 {
      OwnersMember(xs[1..], owner, target);
      assert Xref(owner, target) in xs <==> xs[0] == Xref(owner, target) || Xref(owner, target) in xs[1..];
    }
  }

  lemma {:induction false} TargetsCount(xs: seq<Xref>, owner: Id, target: Id)
    ensures Count(Targets(xs, owner), target) == Count(xs, Xref(owner, target))
  {
    if |xs| > 0 {
      TargetsCount(xs[1..], owner, target);
      var head := if xs[0].owner == owner then [xs[0].target] else [];
      CountAppend(head, Targets(xs[1..], owner), target);
    }
  }

  lemma {:induction false} OwnersCount(xs: seq<Xref>, owner: Id, target: Id)
    ensures Count(Owners(xs, target), owner) == Count(xs, Xref(owner, target))
  {
    if |xs| > 0 {
      OwnersCount(xs[1..], owner, target);
      var head := if xs[0].target == target then [xs[0].owner] else [];
      CountAppend(head, Owners(xs[1..], target), owner);
    }
  }

  /** Appending a row adds its target to its owner's list and nowhere else. */
  lemma {:induction false} TargetsAppend(xs: seq<Xref>, x: Xref, owner: Id)
    ensures Targets(xs + [x], owner) == Targets(xs, owner) + (if x.owner == owner then [x.target] else [])
  {
    var tail := if x.owner == owner then [x.target] else [];
    if |xs| == 0 {
      assert xs + [x] == [x];
      assert [x][1..] == [];
    } else {
      var head := if xs[0].owner == owner then [xs[0].target] else [];
      assert (xs + [x])[0] == xs[0];
      assert (xs + [x])[1..] == xs[1..] + [x];
      TargetsAppend(xs[1..], x, owner);
      assert Targets(xs + [x], owner) == head + (Targets(xs[1..], owner) + tail);
      assert head + (Targets(xs[1..], owner) + tail) == (head + Targets(xs[1..], owner)) + tail;
    }
  }

  lemma {:induction false} OwnersAppend(xs: seq<Xref>, x: Xref, target: Id)
    ensures Owners(xs + [x], target) == Owners(xs, target) + (if x.target == target then [x.owner] else [])
  {
    var tail := if x.target == target then [x.owner] else [];
    if |xs| == 0 {
      assert xs + [x] == [x];
      assert [x][1..] == [];
    } else {
      var head := if xs[0].target == target then [xs[0].owner] else [];
      assert (xs + [x])[0] == xs[0];
      assert (xs + [x])[1..] == xs[1..] + [x];
      OwnersAppend(xs[1..], x, target);
      assert Owners(xs + [x], target) == head + (Owners(xs[1..], target) + tail);
      assert head + (Owners(xs[1..], target) + tail) == (head + Owners(xs[1..], target)) + tail;
    }
  }

  /** Removing the first copy of a row removes the first copy of its target
      from its owner's list and leaves every other owner's list alone. */
  lemma {:induction false} TargetsRemoveFirst(xs: seq<Xref>, x: Xref, owner: Id)
    requires x in xs
    ensures Targets(RemoveFirst(xs, x), owner)
         == if x.owner == owner then RemoveFirst(Targets(xs, owner), x.target) else Targets(xs, owner)
  {
    if xs[0] != x {
      TargetsRemoveFirst(xs[1..], x, owner);
      var ys := [xs[0]] + RemoveFirst(xs[1..], x);
      assert ys[0] == xs[0] && ys[1..] == RemoveFirst(xs[1..], x);
      var t1 := Targets(xs[1..], owner);
      if xs[0].owner == owner {
        var t := [xs[0].target] + t1;
        assert Targets(xs, owner) == t;
        assert t[0] == xs[0].target && t[1..] == t1;
        if x.owner == owner {
          assert xs[0].target != x.target;
          assert RemoveFirst(t, x.target) == [xs[0].target] + RemoveFirst(t1, x.target);
        }
      } else {
        assert Targets(xs, owner) == t1;
      }
    }
  }

  lemma {:induction false} OwnersRemoveFirst(xs: seq<Xref>, x: Xref, target: Id)
    requires x in xs
    ensures Owners(RemoveFirst(xs, x), target)
         == if x.target == target then RemoveFirst(Owners(xs, target), x.owner) else Owners(xs, target)
  {
    if xs[0] != x {
      OwnersRemoveFirst(xs[1..], x, target);
      var ys := [xs[0]] + RemoveFirst(xs[1..], x);
      assert ys[0] == xs[0] && ys[1..] == RemoveFirst(xs[1..], x);
      var o1 := Owners(xs[1..], target);
      if xs[0].target == target {
        var o := [xs[0].owner] + o1;
        assert Owners(xs, target) == o;
        assert o[0] == xs[0].owner && o[1..] == o1;
        if x.target == target {
          assert xs[0].owner != x.owner;
          assert RemoveFirst(o, x.owner) == [xs[0].owner] + RemoveFirst(o1, x.owner);
        }
      } else {
        assert Owners(xs, target) == o1;
      }
    }
  }

  lemma {:induction false} NoDuplicatesAppend<T>(xs: seq<T>, x: T)
    requires NoDuplicates(xs) && x !in xs
    ensures NoDuplicates(xs + [x])
  {
    var ys := xs + [x];
    forall i, j | 0 <= i < j < |ys| ensures ys[i] != ys[j] {
      if j == |xs| {
        assert ys[i] == xs[i];
      } else {
        assert ys[i] == xs[i] && ys[j] == xs[j];
      }
    }
  }

  lemma {:induction false} NoDuplicatesRemoveFirst<T>(xs: seq<T>, x: T)
    requires NoDuplicates(xs)
    ensures NoDuplicates(RemoveFirst(xs, x))
    ensures x !in RemoveFirst(xs, x)
  {
    if |xs| > 0 {
      var tail := xs[1..];
      assert NoDuplicates(tail) by {
        forall i, j | 0 <= i < j < |tail| ensures tail[i] != tail[j] {
          assert tail[i] == xs[i + 1] && tail[j] == xs[j + 1];
        }
      }
      assert xs[0] !in tail by {
        forall k | 0 <= k < |tail| ensures tail[k] != xs[0] {
          assert tail[k] == xs[k + 1];
        }
      }
      if xs[0] != x {
        NoDuplicatesRemoveFirst(tail, x);
        var r := RemoveFirst(tail, x);
        assert xs[0] !in r by {
          if xs[0] in r {
            CountPositive(r, xs[0]);
            if x in tail {
              CountRemoveFirst(tail, x, xs[0]);
            }
            CountPositive(tail, xs[0]);
          }
        }
        assert RemoveFirst(xs, x) == [xs[0]] + r;
        var ys := [xs[0]] + r;
        forall i, j | 0 <= i < j < |ys| ensures ys[i] != ys[j] {
          if i == 0 {
            assert ys[j] == r[j - 1];
          } else {
            assert ys[i] == r[i - 1] && ys[j] == r[j - 1];
          }
        }
      }
    }
  }

  lemma {:induction false} VisibleProductsMember(s: Store, ids: seq<Id>, id: Id)
    ensures id in VisibleProducts(s, ids) <==> id in ids && ProductVisible(s, id)
  {
    if |ids| > 0 {
      VisibleProductsMember(s, ids[1..], id);
      assert id in ids <==> ids[0] == id || id in ids[1..];
    }
  }

  lemma {:induction false} VisibleCategoriesMember(s: Store, ids: seq<Id>, id: Id)
    ensures id in VisibleCategories(s, ids) <==> id in ids && CategoryVisible(s, id)
  {
    if |ids| > 0 {
      VisibleCategoriesMember(s, ids[1..], id);
      assert id in ids <==> ids[0] == id || id in ids[1..];
    }
  }

  // ---------------------------------------------------------------------------
  // A product's SKUs

  /** The SKUs of `xs` whose id differs from `id`, in order. */
  function WithoutId(xs: seq<Sku>, id: Id): (r: seq<Sku>)
    ensures |r| <= |xs|
    ensures forall k :: 0 <= k < |r| ==> r[k].id != id
  {
    if |xs| == 0 then []
    else (if xs[0].id != id then [xs[0]] else []) + WithoutId(xs[1..], id)
  }

  lemma {:induction false} WithoutIdMember(xs: seq<Sku>, id: Id, x: Sku)
    ensures x in WithoutId(xs, id) <==> x in xs && x.id != id
  {
    if |xs| > 0 {
      WithoutIdMember(xs[1..], id, x);
      assert x in xs <==> xs[0] == x || x in xs[1..];
    }
  }

  lemma {:induction false} WithoutIdAppend(xs: seq<Sku>, ys: seq<Sku>, id: Id)
    ensures WithoutId(xs + ys, id) == WithoutId(xs, id) + WithoutId(ys, id)
  {
    if |xs| == 0 {
      assert xs + ys == ys;
    } else {
      assert (xs + ys)[1..] == xs[1..] + ys;
      WithoutIdAppend(xs[1..], ys, id);
    }
  }

  /** Filtering by an id no element carries changes nothing. */
  lemma {:induction false} WithoutIdAbsent(xs: seq<Sku>, id: Id)
    requires forall k :: 0 <= k < |xs| ==> xs[k].id != id
    ensures WithoutId(xs, id) == xs
  {
    if |xs| > 0 {
      WithoutIdAbsent(xs[1..], id);
      assert [xs[0]] + xs[1..] == xs;
    }
  }

  /** Filtering by two ids in either order gives the same list; filtering
      twice by one id is filtering once. */
  lemma {:induction false} WithoutIdCommute(xs: seq<Sku>, a: Id, b: Id)
    ensures WithoutId(WithoutId(xs, a), b) == WithoutId(WithoutId(xs, b), a)
    ensures WithoutId(WithoutId(xs, a), a) == WithoutId(xs, a)
  {
    if |xs| > 0 {
      WithoutIdCommute(xs[1..], a, b);
      var h := xs[0];
      assert WithoutId(xs, a) == (if h.id != a then [h] else []) + WithoutId(xs[1..], a);
      assert WithoutId(xs, b) == (if h.id != b then [h] else []) + WithoutId(xs[1..], b);
      WithoutIdAppend(if h.id != a then [h] else [], WithoutId(xs[1..], a), b);
      WithoutIdAppend(if h.id != b then [h] else [], WithoutId(xs[1..], b), a);
      WithoutIdAppend(if h.id != a then [h] else [], WithoutId(xs[1..], a), a);
      assert WithoutId([h], a) == (if h.id != a then [h] else []) by {
        assert [h][1..] == [];
      }
      assert WithoutId([h], b) == (if h.id != b then [h] else []) by {
        assert [h][1..] == [];
      }
    }
  }

  /** Broadleaf's `getAllSkus`: the default SKU first, then the additional
      SKUs that do not share its id. */
  function AllSkus(p: Product): (r: seq<Sku>)
    ensures |r| > 0 && r[0] == p.defaultSku
    ensures forall k :: 1 <= k < |r| ==> r[k].id != p.defaultSku.id
    ensures forall x :: x in r <==> x == p.defaultSku || (x in p.additionalSkus && x.id != p.defaultSku.id)
  {
    var rest := WithoutId(p.additionalSkus, p.defaultSku.id);
    forall x ensures x in rest <==> x in p.additionalSkus && x.id != p.defaultSku.id {
      WithoutIdMember(p.additionalSkus, p.defaultSku.id, x);
    }
    [p.defaultSku] + rest
  }

  /** The ids of a product's SKUs. */
  function SkuIds(p: Product): (r: set<Id>)
    ensures forall id :: id in r <==> exists k :: 0 <= k < |AllSkus(p)| && AllSkus(p)[k].id == id
  {
    set k | 0 <= k < |AllSkus(p)| :: AllSkus(p)[k].id
  }
}

=== FILE: catalog_utils.dfy ===
/** The small pure rules shared by the catalog controllers: archived and
    visible tests, availability strings, id extraction from an href and
    offset/limit paging. */
module CatalogUtils {
  import opened Base

  /** The archived flag Broadleaf stores on entities that implement `Status`;
      entities without the flag are `Plain`. */
  datatype Archivable = Status(archived: char) | Plain

  /** Only a `Status` entity whose flag is 'Y' counts as archived. */
  predicate IsNotArchived(a: Archivable)
  {
    a.Plain? || a.archived != 'Y'
  }

  /** Visibility of a product or category: active, or not archived and the
      caller holds the read permission (passed in as `authorized`). */
  predicate ShouldBeVisible(active: bool, a: Archivable, authorized: bool)
  {
    active || (IsNotArchived(a) && authorized)
  }

  /** The read permission can only reveal an entity, never hide one: without
      it exactly the active entities are visible, and an archived entity is
      visible only while it is active, whoever asks. */
  lemma VisibilityMonotone(active: bool, a: Archivable, authorized: bool)
    ensures ShouldBeVisible(active, a, false) ==> ShouldBeVisible(active, a, authorized)
    ensures ShouldBeVisible(active, a, false) <==> active
    ensures !IsNotArchived(a) ==> (ShouldBeVisible(active, a, authorized) <==> active)
  {
  }

  /** Broadleaf's inventory type enumeration. */
  datatype InventoryType = AlwaysAvailable | Unavailable | CheckQuantity

  /** The type string under which each inventory type is registered. */
  function TypeName(t: InventoryType): string
  {
    match t
    case AlwaysAvailable => "ALWAYS_AVAILABLE"
    case Unavailable => "UNAVAILABLE"
    case CheckQuantity => "CHECK_QUANTITY"
  }

  /** `InventoryType.getInstance`: the type registered under `s`, or null. */
  function GetInstance(s: string): (r: Option<InventoryType>)
    ensures r.Some? ==> TypeName(r.value) == s
    ensures r.None? ==> forall t: InventoryType :: TypeName(t) != s
  {
    if s == "ALWAYS_AVAILABLE" then Some(AlwaysAvailable)
    else if s == "UNAVAILABLE" then Some(Unavailable)
    else if s == "CHECK_QUANTITY" then Some(CheckQuantity)
    else None
  }

  /** Availability string to inventory type; a missing or unknown string means
      always available. */
  function ToInventoryTypeByAvailability(availability: Option<string>): (r: InventoryType)
    ensures availability.None? ==> r == AlwaysAvailable
    ensures availability.Some? && GetInstance(availability.value).None? ==> r == AlwaysAvailable
    ensures availability.Some? && GetInstance(availability.value).Some? ==> TypeName(r) == availability.value
  {
    if availability.None? then AlwaysAvailable
    else match GetInstance(availability.value)
      case Some(t) => t
      case None => AlwaysAvailable
  }

  /** Writing an inventory type's name and mapping it back is the identity. */
  lemma AvailabilityRoundTrip(t: InventoryType)
    ensures ToInventoryTypeByAvailability(Some(TypeName(t))) == t
  {
  }

  // ---------------------------------------------------------------------------
  // Long.parseLong and Long.toString

  predicate IsDigit(c: char) { '0' <= c <= '9' }

  predicate AllDigits(s: string)
  {
    forall i :: 0 <= i < |s| ==> IsDigit(s[i])
  }

  function DigitValue(c: char): nat
    requires IsDigit(c)
  {
    (c as int) - ('0' as int)
  }

  function DigitChar(d: nat): (c: char)
    requires d < 10
    ensures IsDigit(c) && DigitValue(c) == d
  {
    ('0' as int + d) as char
  }

  /** The value of a string of decimal digits, most significant first. */
  function DigitsValue(s: string): nat
    requires AllDigits(s)
  {
    if |s| == 0 then 0 else 10 * DigitsValue(s[..|s| - 1]) + DigitValue(s[|s| - 1])
  }

  /** `Long.parseLong`: an optional '+' or '-' followed by at least one ASCII
      digit, whose value must fit in a signed 64-bit long. */
  function ParseLong(s: string): (r: Option<int>)
    ensures r.Some? ==> InLongRange(r.value)
    ensures |s| == 0 ==> r.None?
    ensures r.Some? ==> IsDigit(s[|s| - 1])
    ensures (exists i :: 0 <= i < |s| && s[i] == '/') ==> r.None?
  {
    if |s| == 0 then None
    else
      var body := if s[0] == '-' || s[0] == '+' then s[1..] else s;
      if |body| == 0 || !AllDigits(body) then None
      else
        var v: int := if s[0] == '-' then -(DigitsValue(body) as int) else DigitsValue(body);
        if InLongRange(v) then Some(v) else None
  }

  /** A leading zero does not change the value of a digit string. */
  lemma {:induction false} DigitsValueLeadingZero(s: string)
    requires AllDigits(s)
    ensures AllDigits("0" + s) && DigitsValue("0" + s) == DigitsValue(s)
  {
    var z := "0" + s;
    assert forall i :: 0 <= i < |z| ==> IsDigit(z[i]) by {
      forall i | 0 <= i < |z| ensures IsDigit(z[i]) {
        if i > 0 { assert z[i] == s[i - 1]; }
      }
    }
    if |s| > 0 {
      var init := s[..|s| - 1];
      assert AllDigits(init) by {
        forall i | 0 <= i < |init| ensures IsDigit(init[i]) { assert init[i] == s[i]; }
      }
      DigitsValueLeadingZero(init);
      assert z[..|z| - 1] == "0" + init;
      assert z[|z| - 1] == s[|s| - 1];
    }
  }

  /** The forms `Long.parseLong` accepts besides the canonical one: a '+'
      sign, a leading zero, and a '-' before a value in range, so "-0" is 0. */
  lemma ParseLongNonCanonical(s: string)
    requires |s| > 0 && AllDigits(s)
    ensures ParseLong("+" + s) == ParseLong(s)
    ensures ParseLong("0" + s) == ParseLong(s)
    ensures ParseLong(s).Some? <==> InLongRange(DigitsValue(s))
    ensures ParseLong(s).Some? ==> ParseLong(s).value == DigitsValue(s)
    ensures InLongRange(-(DigitsValue(s) as int)) ==> ParseLong("-" + s) == Some(-(DigitsValue(s) as int))
  {
    ParseLongDigits(s);
    ParseLongSigned(s);
    DigitsValueLeadingZero(s);
    ParseLongDigits("0" + s);
  }

  /** An unsigned digit string parses to its value when that fits. */
  lemma ParseLongDigits(s: string)
    requires |s| > 0 && AllDigits(s)
    ensures ParseLong(s) == if InLongRange(DigitsValue(s)) then Some(DigitsValue(s) as int) else None
  {
    assert IsDigit(s[0]);
  }

  /** A sign in front of a digit string. */
  lemma ParseLongSigned(s: string)
    requires |s| > 0 && AllDigits(s)
    ensures ParseLong("+" + s) == if InLongRange(DigitsValue(s)) then Some(DigitsValue(s) as int) else None
    ensures ParseLong("-" + s) == if InLongRange(-(DigitsValue(s) as int)) then Some(-(DigitsValue(s) as int)) else None
  {
    assert ("+" + s)[1..] == s;
    assert ("-" + s)[1..] == s;
  }

  /** Decimal digits of a natural number, without leading zeros. */
  function NatToDigits(n: nat): (s: string)
    ensures |s| > 0
  {
    if n < 10 then [DigitChar(n)] else NatToDigits(n / 10) + [DigitChar(n % 10)]
  }

  /** `Long.toString`. */
  function LongToString(n: int): string
  {
    if n < 0 then "-" + NatToDigits(-n) else NatToDigits(n)
  }

  lemma {:induction false} NatToDigitsValue(n: nat)
    ensures AllDigits(NatToDigits(n))
    ensures DigitsValue(NatToDigits(n)) == n
  {
    var s := NatToDigits(n);
    if n >= 10 {
      NatToDigitsValue(n / 10);
      assert s[..|s| - 1] == NatToDigits(n / 10);
      assert s[|s| - 1] == DigitChar(n % 10);
    }
  }

  /** Parsing the decimal form of any long gives the long back. */
  lemma ParseLongRoundTrip(n: int)
    requires InLongRange(n)
    ensures ParseLong(LongToString(n)) == Some(n)
  {
    if n < 0 {
      NatToDigitsValue(-n);
      assert LongToString(n)[1..] == NatToDigits(-n);
    } else {
      NatToDigitsValue(n);
    }
  }

  // ---------------------------------------------------------------------------
  // Path segments of an href (Spring's UriComponentsBuilder.fromUriString)

  predicate IsWhitespace(c: char) { c <= ' ' }

  /** `String.trim`: drops leading and trailing characters up to ' '. */
  function TrimStart(s: string): (r: string)
    ensures |r| <= |s| && r == s[|s| - |r|..]
    ensures |r| > 0 ==> !IsWhitespace(r[0])
  {
    if |s| > 0 && IsWhitespace(s[0]) then TrimStart(s[1..]) else s
  }

  function TrimEnd(s: string): (r: string)
    ensures |r| <= |s| && r == s[..|r|]
    ensures |r| > 0 ==> !IsWhitespace(r[|r| - 1])
  {
    if |s| > 0 && IsWhitespace(s[|s| - 1]) then TrimEnd(s[..|s| - 1]) else s
  }

  function Trim(s: string): string
  {
    TrimEnd(TrimStart(s))
  }

  /** Length of the longest prefix of `s` without the character `c`. */
  function PrefixWithout(s: string, c: char): (n: nat)
    ensures n <= |s|
    ensures forall i :: 0 <= i < n ==> s[i] != c
    ensures n < |s| ==> s[n] == c
  {
    if |s| == 0 || s[0] == c then 0 else 1 + PrefixWithout(s[1..], c)
  }

  /** The non-blank '/'-separated tokens of a path, each trimmed. */
  function Tokens(path: string): (r: seq<string>)
    ensures forall k :: 0 <= k < |r| ==> |r[k]| > 0
    decreases |path|
  {
    if |path| == 0 then []
    else if path[0] == '/' then Tokens(path[1..])
    else
      var n := PrefixWithout(path, '/');
      var t := Trim(path[..n]);
      (if |t| == 0 then [] else [t]) + Tokens(path[n..])
  }

  predicate Excludes(s: string, cs: set<char>)
  {
    forall i :: 0 <= i < |s| ==> s[i] !in cs
  }

  /** Index where the hierarchical part ends: the first '?' or '#'. */
  function HierEnd(u: string): (k: nat)
    ensures k <= |u|
  {
    if |u| == 0 || u[0] == '?' || u[0] == '#' then 0 else 1 + HierEnd(u[1..])
  }

  /** Index of the first ':', '/', '?' or '#', or the length. */
  function FirstDelimiter(h: string): (k: nat)
    ensures k <= |h|
    ensures forall i :: 0 <= i < k ==> h[i] !in {':', '/', '?', '#'}
  {
    if |h| == 0 || h[0] in {':', '/', '?', '#'} then 0 else 1 + FirstDelimiter(h[1..])
  }

  /** Position of the ':' that ends a scheme `[^:/?#]+` at the start of `h`. */
  function SchemeEnd(h: string): (r: Option<nat>)
    ensures r.Some? ==> 0 < r.value < |h| && h[r.value] == ':'
  {
    var k := FirstDelimiter(h);
    if 0 < k < |h| && h[k] == ':' then Some(k) else None
  }

  /** Drops a leading "//authority" up to the next '/'. */
  function AfterAuthority(p: string): string
  {
    if |p| >= 2 && p[0] == '/' && p[1] == '/' then
      var rest := p[2..];
      rest[PrefixWithout(rest, '/')..]
    else p
  }

  /** The path segments Spring reports for a URI string: an opaque URI (a
      scheme not followed by '/') has none. */
  function UriPathSegments(uri: string): seq<string>
  {
    var h := uri[..HierEnd(uri)];
    match SchemeEnd(h)
    case Some(k) =>
      var rest := h[k + 1..];
      if |rest| == 0 || rest[0] != '/' then [] else Tokens(AfterAuthority(rest))
    case None => Tokens(AfterAuthority(h))
  }

  /** Ways `getIdFromUrl` throws: no path segment at all
      (IndexOutOfBoundsException), or a last segment that is no long
      (NumberFormatException). */
  datatype UrlError = NoPathSegment | NotANumber

  /** `getIdFromUrl`: the last path segment, parsed as a long. */
  function GetIdFromUrl(href: string): (r: Result<int, UrlError>)
    ensures r.Failure? && r.error == NoPathSegment <==> |UriPathSegments(href)| == 0
    ensures r.Success? <==> |UriPathSegments(href)| > 0 && ParseLong(UriPathSegments(href)[|UriPathSegments(href)| - 1]).Some?
    ensures r.Success? ==> InLongRange(r.value)
  {
    var segs := UriPathSegments(href);
    if |segs| == 0 then Failure(NoPathSegment)
    else match ParseLong(segs[|segs| - 1])
      case Some(n) => Success(n)
      case None => Failure(NotANumber)
  }

  /** A path segment that survives tokenising unchanged. */
  predicate PlainSegment(s: string)
  {
    |s| > 0 && Excludes(s, {'/', '?', '#'}) && !IsWhitespace(s[0]) && !IsWhitespace(s[|s| - 1])
  }

  /** "/a/b/c" for the segments a, b, c. */
  function JoinPath(segs: seq<string>): (p: string)
  {
    if |segs| == 0 then [] else "/" + segs[0] + JoinPath(segs[1..])
  }

  lemma TrimPlain(s: string)
    requires |s| > 0 && !IsWhitespace(s[0]) && !IsWhitespace(s[|s| - 1])
    ensures Trim(s) == s
  {
  }

  lemma {:induction false} PrefixWithoutAppend(s: string, t: string, c: char)
    requires forall i :: 0 <= i < |s| ==> s[i] != c
    requires |t| == 0 || t[0] == c
    ensures PrefixWithout(s + t, c) == |s|
  {
    if |s| > 0 {
      assert (s + t)[1..] == s[1..] + t;
      PrefixWithoutAppend(s[1..], t, c);
    } else {
      assert s + t == t;
    }
  }

  /** Tokenising a joined path gives back the segments. */
  lemma {:induction false} TokensJoinPath(segs: seq<string>)
    requires forall k :: 0 <= k < |segs| ==> PlainSegment(segs[k])
    ensures Tokens(JoinPath(segs)) == segs
  {
    if |segs| > 0 {
      var p := JoinPath(segs);
      var s0 := segs[0];
      var tail := JoinPath(segs[1..]);
      assert p == "/" + (s0 + tail);
      assert p[1..] == s0 + tail;
      TokensJoinPath(segs[1..]);
      assert |tail| == 0 || tail[0] == '/';
      assert forall i :: 0 <= i < |s0| ==> s0[i] != '/' by {
        assert Excludes(s0, {'/', '?', '#'});
      }
      PrefixWithoutAppend(s0, tail, '/');
      assert (s0 + tail)[..|s0|] == s0;
      assert (s0 + tail)[|s0|..] == tail;
      TrimPlain(s0);
    }
  }

  lemma {:induction false} JoinPathExcludes(segs: seq<string>)
    requires forall k :: 0 <= k < |segs| ==> PlainSegment(segs[k])
    ensures Excludes(JoinPath(segs), {'?', '#'})
    ensures |JoinPath(segs)| == 0 || JoinPath(segs)[0] == '/'
  {
    if |segs| > 0 {
      JoinPathExcludes(segs[1..]);
      var s0 := segs[0];
      assert Excludes(s0, {'/', '?', '#'});
      var p := JoinPath(segs);
      assert p == "/" + s0 + JoinPath(segs[1..]);
      forall i | 0 <= i < |p| ensures p[i] !in {'?', '#'} {
        if i == 0 {
        } else if i <= |s0| {
          assert p[i] == s0[i - 1];
        } else {
          assert p[i] == JoinPath(segs[1..])[i - 1 - |s0|];
        }
      }
    }
  }

  lemma {:induction false} HierEndAll(u: string)
    requires Excludes(u, {'?', '#'})
    ensures HierEnd(u) == |u|
  {
    if |u| > 0 {
      assert Excludes(u[1..], {'?', '#'}) by {
        forall i | 0 <= i < |u[1..]| ensures u[1..][i] !in {'?', '#'} {
          assert u[1..][i] == u[i + 1];
        }
      }
      HierEndAll(u[1..]);
    }
  }

  lemma {:induction false} FirstDelimiterAt(s: string, t: string)
    requires Excludes(s, {':', '/', '?', '#'})
    requires |t| > 0 && t[0] in {':', '/', '?', '#'}
    ensures FirstDelimiter(s + t) == |s|
  {
    if |s| > 0 {
      assert (s + t)[1..] == s[1..] + t;
      assert Excludes(s[1..], {':', '/', '?', '#'}) by {
        forall i | 0 <= i < |s[1..]| ensures s[1..][i] !in {':', '/', '?', '#'} {
          assert s[1..][i] == s[i + 1];
        }
      }
      FirstDelimiterAt(s[1..], t);
    } else {
      assert s + t == t;
    }
  }

  lemma ExcludesAppend(s: string, t: string, cs: set<char>)
    requires Excludes(s, cs) && Excludes(t, cs)
    ensures Excludes(s + t, cs)
  {
    forall i | 0 <= i < |s + t| ensures (s + t)[i] !in cs {
      if i < |s| { assert (s + t)[i] == s[i]; } else { assert (s + t)[i] == t[i - |s|]; }
    }
  }

  lemma ExcludesSubset(s: string, cs: set<char>, ds: set<char>)
    requires Excludes(s, cs) && ds <= cs
    ensures Excludes(s, ds)
  {
  }

  /** The decimal form of a long is a plain segment. */
  lemma LongToStringPlain(n: int)
    ensures PlainSegment(LongToString(n))
  {
    var d := if n < 0 then -n else n;
    NatToDigitsValue(d);
    var s := LongToString(n);
    forall i | 0 <= i < |s| ensures s[i] !in {'/', '?', '#'} && !IsWhitespace(s[i]) {
      if n < 0 && i > 0 {
        assert s[i] == NatToDigits(d)[i - 1];
      }
    }
  }

  /** The authority of "//host/path" is dropped, leaving the path. */
  lemma AfterAuthorityHost(host: string, path: string)
    requires Excludes(host, {'/', '?', '#'})
    requires |path| == 0 || path[0] == '/'
    ensures AfterAuthority("//" + host + path) == path
  {
    var rest := "//" + host + path;
    assert rest[2..] == host + path;
    assert forall i :: 0 <= i < |host| ==> host[i] != '/' by {
      assert Excludes(host, {'/', '?', '#'});
    }
    PrefixWithoutAppend(host, path, '/');
    assert (host + path)[|host|..] == path;
  }

  /** A URI without '?' or '#' that starts with a scheme: its segments are
      those of the part after the ':' when that part starts with '/'. */
  lemma UriPathSegmentsScheme(scheme: string, rest: string)
    requires |scheme| > 0 && Excludes(scheme, {':', '/', '?', '#'})
    requires Excludes(scheme + ":" + rest, {'?', '#'})
    requires |rest| > 0 && rest[0] == '/'
    ensures UriPathSegments(scheme + ":" + rest) == Tokens(AfterAuthority(rest))
  {
    var u := scheme + ":" + rest;
    HierEndAll(u);
    assert u[..HierEnd(u)] == u;
    assert u == scheme + (":" + rest);
    FirstDelimiterAt(scheme, ":" + rest);
    assert SchemeEnd(u) == Some(|scheme|);
    assert u[|scheme| + 1..] == rest;
  }

  lemma HrefShape(scheme: string, host: string, path: string)
    ensures scheme + "://" + host + path == scheme + ":" + ("//" + host + path)
  {
    assert "://" == ":" + "//";
  }

  lemma HrefExcludes(scheme: string, host: string, path: string)
    requires Excludes(scheme, {':', '/', '?', '#'})
    requires Excludes(host, {'/', '?', '#'})
    requires Excludes(path, {'?', '#'})
    ensures Excludes(scheme + "://" + host + path, {'?', '#'})
  {
    ExcludesSubset(scheme, {':', '/', '?', '#'}, {'?', '#'});
    ExcludesSubset(host, {'/', '?', '#'}, {'?', '#'});
    assert Excludes("://", {'?', '#'});
    ExcludesAppend(scheme, "://", {'?', '#'});
    ExcludesAppend(scheme + "://", host, {'?', '#'});
    ExcludesAppend(scheme + "://" + host, path, {'?', '#'});
  }

  /** The path segments of "scheme://host/path" are the tokens of the path. */
  lemma UriPathSegmentsAbsolute(scheme: string, host: string, path: string)
    requires |scheme| > 0 && Excludes(scheme, {':', '/', '?', '#'})
    requires Excludes(host, {'/', '?', '#'})
    requires Excludes(path, {'?', '#'}) && (|path| == 0 || path[0] == '/')
    ensures UriPathSegments(scheme + "://" + host + path) == Tokens(path)
  {
    var rest := "//" + host + path;
    HrefShape(scheme, host, path);
    HrefExcludes(scheme, host, path);
    UriPathSegmentsScheme(scheme, rest);
    AfterAuthorityHost(host, path);
  }

  /** For an absolute href "scheme://host/seg/…/seg/<n>", `getIdFromUrl`
      returns n. */
  lemma GetIdFromAbsoluteHref(scheme: string, host: string, segs: seq<string>, n: int)
    requires |scheme| > 0 && Excludes(scheme, {':', '/', '?', '#'})
    requires Excludes(host, {'/', '?', '#'})
    requires forall k :: 0 <= k < |segs| ==> PlainSegment(segs[k])
    requires InLongRange(n)
    ensures GetIdFromUrl(scheme + "://" + host + JoinPath(segs + [LongToString(n)])) == Success(n)
  {
    var all := segs + [LongToString(n)];
    LongToStringPlain(n);
    assert forall k :: 0 <= k < |all| ==> PlainSegment(all[k]);
    JoinPathExcludes(all);
    TokensJoinPath(all);
    UriPathSegmentsAbsolute(scheme, host, JoinPath(all));
    ParseLongRoundTrip(n);
  }

  // ---------------------------------------------------------------------------
  // Offset/limit paging

  /** How `List.subList` throws. */
  datatype ListFailure = IndexOutOfBounds | IllegalArgument

  /** `List.subList(from, to)` with its range checks. */
  function SubList<T>(xs: seq<T>, from: int, to: int): (r: Result<seq<T>, ListFailure>)
    ensures r.Success? <==> 0 <= from <= to <= |xs|
    ensures r.Success? ==> r.value == xs[from..to]
    ensures from > to && from >= 0 && to <= |xs| ==> r == Failure(IllegalArgument)
  {
    if from < 0 || to > |xs| then Failure(IndexOutOfBounds)
    else if from > to then Failure(IllegalArgument)
    else Success(xs[from..to])
  }

  /** `getSublistForOffset` as written: `offsetParam + limitParam` is a Java
      int sum and wraps around for a large limit. */
  function SublistForOffsetAsWritten<T>(list: seq<T>, offset: int, limit: int): (r: Result<seq<T>, ListFailure>)
    requires |list| <= INT_MAX && InIntRange(offset) && InIntRange(limit)
    ensures r.Success? ==> r.value == SublistForOffset(list, offset, limit)
    ensures r.Failure? <==> 0 < offset < |list| && limit > 0 && offset + limit > INT_MAX
    ensures r.Failure? ==> r.error == IllegalArgument
  {
    var size := |list|;
    if size == 0 then Success(list)
    else
      var o := if offset < 0 then 0 else offset;
      var l := if limit < 0 then 0 else limit;
      if o > 0 then
        if o >= size then SubList(list, 0, 0)
        else if l > 0 then SubList(list, o, Min(IntAdd(o, l), size))
        else SubList(list, o, |list|)
      else if l > 0 then SubList(list, 0, Min(l, size))
      else SubList(list, 0, size)
  }

  /** A list of ten elements, offset 1 and limit `Integer.MAX_VALUE`: the sum
      wraps to a negative end index and `subList` throws instead of returning
      the nine trailing elements. */
  lemma SublistForOffsetOverflow()
    ensures SublistForOffsetAsWritten([0, 1, 2, 3, 4, 5, 6, 7, 8, 9], 1, INT_MAX) == Failure(IllegalArgument)
    ensures SublistForOffset([0, 1, 2, 3, 4, 5, 6, 7, 8, 9], 1, INT_MAX) == [1, 2, 3, 4, 5, 6, 7, 8, 9]
  {
    var xs := [0, 1, 2, 3, 4, 5, 6, 7, 8, 9];
    assert SublistForOffset(xs, 1, INT_MAX) == xs[1..];
  }

  /** `getSublistForOffset` with the end index computed without overflow.
      Limit 0 (or negative) means unlimited; a negative offset means 0. */
  function SublistForOffset<T>(list: seq<T>, offset: int, limit: int): (r: seq<T>)
    ensures |list| == 0 ==> r == list
    ensures var o := Max(offset, 0);
      (o >= |list| ==> r == []) &&
      (o < |list| ==> |r| == (if limit > 0 then Min(limit, |list| - o) else |list| - o)) &&
      (o < |list| ==> r == list[o .. o + |r|])
  {
    var size := |list|;
    if size == 0 then list
    else
      var o := if offset < 0 then 0 else offset;
      var l := if limit < 0 then 0 else limit;
      if o > 0 then
        if o >= size then []
        else if l > 0 then list[o .. Min(o + l, size)]
        else list[o..]
      else if l > 0 then list[..Min(l, size)]
      else list
  }

  /** Whenever the end index does not overflow, the code as written agrees
      with the corrected definition and never throws. */
  lemma SublistForOffsetAgrees<T>(list: seq<T>, offset: int, limit: int)
    requires |list| <= INT_MAX && InIntRange(offset) && InIntRange(limit)
    requires offset + limit <= INT_MAX
    ensures SublistForOffsetAsWritten(list, offset, limit) == Success(SublistForOffset(list, offset, limit))
  {
  }

  /** A first page of `k` elements followed by everything from offset `k` is
      the whole list. */
  lemma SublistForOffsetSplit<T>(list: seq<T>, k: int)
    requires k > 0
    ensures SublistForOffset(list, 0, k) + SublistForOffset(list, k, 0) == list
  {
    if |list| > 0 && k < |list| {
      assert list[..k] + list[k..] == list;
    }
  }

  /** Consecutive pages of size `limit` tile the list: the first p pages
      followed by page p + 1 are the first p + 1 pages. */
  lemma SublistForOffsetPages<T>(list: seq<T>, p: nat, limit: int)
    requires p > 0 && limit > 0
    ensures SublistForOffset(list, 0, (p + 1) * limit)
         == SublistForOffset(list, 0, p * limit) + SublistForOffset(list, p * limit, limit)
  {
    if |list| > 0 {
      var a := Min(p * limit, |list|);
      var b := Min((p + 1) * limit, |list|);
      assert (p + 1) * limit == p * limit + limit;
      assert list[..a] + list[a..b] == list[..b];
    }
  }
}

=== FILE: category_controller.dfy ===
/** The category endpoints: listing, creating and archiving categories,
    linking subcategories, referencing products and attaching media. Every
    mutation answers with a status and the resulting store; a failure leaves
    the store as it was. */
module CategoryController {
  import opened Base
  import opened CatalogUtils
  import opened Catalog
  import MediaConverter

  /** Reading the `href` request parameter: null or empty is a bad request,
      a last path segment that is no number is a bad request, and an href
      without any path segment escapes as an uncaught index error (500). */
  function HrefId(href: Option<string>): (r: Result<Id, HttpStatus>)
    ensures r.Success? <==> !NullOrEmpty(href) && GetIdFromUrl(href.value).Success?
    ensures r.Success? ==> r.value == GetIdFromUrl(href.value).value
    ensures r.Failure? ==> r.error == BadRequest || r.error == ServerError
    ensures r.Failure? && r.error == ServerError <==> !NullOrEmpty(href) && GetIdFromUrl(href.value) == Failure(NoPathSegment)
  {
    if NullOrEmpty(href) then Failure(BadRequest)
    else match GetIdFromUrl(href.value)
      case Success(id) => Success(id)
      case Failure(NoPathSegment) => Failure(ServerError)
      case Failure(NotANumber) => Failure(BadRequest)
  }

  /** `readAllCategories`: the categories the catalog service lists
      (`listed`, in its order) that are not archived; unless `flat`, only
      those without any parent edge. */
  function ReadAllCategories(s: Store, listed: seq<Id>, flat: bool): (r: seq<Id>)
    ensures |r| <= |listed|
    ensures forall id :: id in r <==> id in listed && Listable(s, id, flat)
    ensures forall id :: Count(r, id) == if Listable(s, id, flat) then Count(listed, id) else 0
  {
    if |listed| == 0 then []
    else
      var id := listed[0];
      var rest := ReadAllCategories(s, listed[1..], flat);
      var r := (if Listable(s, id, flat) then [id] else []) + rest;
      forall x ensures Count(r, x) == if Listable(s, x, flat) then Count(listed, x) else 0 {
        CountAppend(if Listable(s, id, flat) then [id] else [], rest, x);
      }
      r
  }

  /** A category `readAllCategories` keeps: not archived and, unless the
      listing is flat, without a parent. */
  predicate Listable(s: Store, id: Id, flat: bool)
  {
    CategoryVisible(s, id) && (flat || |ParentIds(s, id)| == 0)
  }

  /** Listing keeps the service's order: the listing of two runs placed one
      after the other is the two listings placed one after the other. */
  lemma {:induction false} ReadAllCategoriesAppend(s: Store, a: seq<Id>, b: seq<Id>, flat: bool)
    ensures ReadAllCategories(s, a + b, flat) == ReadAllCategories(s, a, flat) + ReadAllCategories(s, b, flat)
  {
    if |a| == 0 {
      assert a + b == b;
    } else {
      assert (a + b)[0] == a[0];
      assert (a + b)[1..] == a[1..] + b;
      ReadAllCategoriesAppend(s, a[1..], b, flat);
    }
  }

  /** `addOneCategory`: a transfer object without a name is refused; otherwise
      `created` (the entity built from the transfer object) is stored under a
      fresh id. */
  function AddOneCategory(s: Store, name: Option<string>, created: Category, freshId: Id): (r: Reply)
    requires freshId !in s.categories
    ensures r.status == Created || r.status == BadRequest
    ensures r.status == BadRequest <==> NullOrEmpty(name)
    ensures r.status == BadRequest ==> r.store == s
    ensures r.status == Created ==> r.store.categories == s.categories[freshId := created]
    ensures r.store.products == s.products
    ensures r.store.categoryXrefs == s.categoryXrefs && r.store.productXrefs == s.productXrefs
  {
    if NullOrEmpty(name) then Reply(BadRequest, s)
    else Reply(Created, s.(categories := s.categories[freshId := created]))
  }

  /** A category just added is visible exactly when it was not created
      archived, and then it can be removed. */
  lemma AddedCategoryVisible(s: Store, name: Option<string>, created: Category, freshId: Id)
    requires freshId !in s.categories
    requires AddOneCategory(s, name, created, freshId).status == Created
    ensures CategoryVisible(AddOneCategory(s, name, created, freshId).store, freshId) <==> created.archived != 'Y'
    ensures created.archived != 'Y' ==> RemoveOneCategory(AddOneCategory(s, name, created, freshId).store, freshId).status == NoContent
  {
  }

  /** `removeOneCategoryById`: a visible category is archived (Broadleaf's
      `removeCategory` sets the flag), which also makes it inactive. */
  function RemoveOneCategory(s: Store, id: Id): (r: Reply)
    ensures r.status == NoContent <==> CategoryVisible(s, id)
    ensures r.status != NoContent ==> r.status == NotFound && r.store == s
    ensures r.status == NoContent ==> !CategoryVisible(r.store, id)
    ensures r.status == NoContent ==> id in r.store.categories && forall now :: !CategoryActive(r.store.categories[id], now)
    ensures r.status == NoContent ==> r.store.categories.Keys == s.categories.Keys
    ensures forall c :: c != id ==> (CategoryVisible(r.store, c) <==> CategoryVisible(s, c))
    ensures r.store.products == s.products
    ensures r.store.categoryXrefs == s.categoryXrefs && r.store.productXrefs == s.productXrefs
  {
    if !CategoryVisible(s, id) then Reply(NotFound, s)
    else Reply(NoContent, s.(categories := s.categories[id := s.categories[id].(archived := 'Y')]))
  }

  /** `addSubcategoryToParent`: after the href is read, linking a category to
      itself is a conflict before any lookup; then the child, then the parent
      must be visible; an existing edge is a conflict; otherwise the edge is
      appended to the parent's child list. */
  function AddSubcategory(s: Store, parent: Id, href: Option<string>): (r: Reply)
    ensures HrefId(href).Failure? ==> r == Reply(HrefId(href).error, s)
    ensures HrefId(href).Success? && HrefId(href).value == parent ==> r == Reply(Conflict, s)
    ensures HrefId(href).Success? && HrefId(href).value != parent ==>
      var child := HrefId(href).value;
      (!CategoryVisible(s, child) ==> r == Reply(NotFound, s)) &&
      (CategoryVisible(s, child) && !CategoryVisible(s, parent) ==> r == Reply(NotFound, s)) &&
      (CategoryVisible(s, child) && CategoryVisible(s, parent) && child in ChildIds(s, parent) ==> r == Reply(Conflict, s)) &&
      (CategoryVisible(s, child) && CategoryVisible(s, parent) && child !in ChildIds(s, parent) ==>
        r.status == Created && ChildIds(r.store, parent) == ChildIds(s, parent) + [child])
    ensures r.status != Created ==> r.store == s
    ensures r.store.categories == s.categories && r.store.products == s.products
    ensures r.store.productXrefs == s.productXrefs
    ensures r.status == Created ==> exists child :: r.store.categoryXrefs == s.categoryXrefs + [Xref(parent, child)]
  {
    match HrefId(href)
    case Failure(e) => Reply(e, s)
    case Success(child) =>
      if child == parent then Reply(Conflict, s)
      else if !CategoryVisible(s, child) then Reply(NotFound, s)
      else if !CategoryVisible(s, parent) then Reply(NotFound, s)
      else if Xref(parent, child) in s.categoryXrefs then
        TargetsMember(s.categoryXrefs, parent, child);
        Reply(Conflict, s)
      else
        TargetsMember(s.categoryXrefs, parent, child);
        TargetsAppend(s.categoryXrefs, Xref(parent, child), parent);
        Reply(Created, s.(categoryXrefs := s.categoryXrefs + [Xref(parent, child)]))
  }

  /** A new edge shows up only in its parent's child list and its child's
      parent list. */
  lemma AddSubcategoryFrame(s: Store, parent: Id, href: Option<string>, other: Id)
    requires AddSubcategory(s, parent, href).status == Created
    ensures other != parent ==> ChildIds(AddSubcategory(s, parent, href).store, other) == ChildIds(s, other)
    ensures other != HrefId(href).value ==> ParentIds(AddSubcategory(s, parent, href).store, other) == ParentIds(s, other)
  {
    var child := HrefId(href).value;
    TargetsAppend(s.categoryXrefs, Xref(parent, child), other);
    OwnersAppend(s.categoryXrefs, Xref(parent, child), other);
  }

  /** Linking the same subcategory twice: the second request is a conflict
      and changes nothing. */
  lemma AddSubcategoryTwice(s: Store, parent: Id, href: Option<string>)
    requires AddSubcategory(s, parent, href).status == Created
    ensures AddSubcategory(AddSubcategory(s, parent, href).store, parent, href) == Reply(Conflict, AddSubcategory(s, parent, href).store)
  {
  }

  /** The request-parameter and lookup part shared by both readings of
      `removeSubcategoryFromParent`, after the self test. */
  function RemoveSubcategoryLookup(s: Store, parent: Id, child: Id): (r: Reply)
    ensures !CategoryVisible(s, parent) ==> r == Reply(NotFound, s)
    ensures CategoryVisible(s, parent) && child !in ChildIds(s, parent) ==> r == Reply(NotFound, s)
    ensures CategoryVisible(s, parent) && child in ChildIds(s, parent) ==>
      r.status == NoContent && ChildIds(r.store, parent) == RemoveFirst(ChildIds(s, parent), child)
    ensures r.status != NoContent ==> r.status == NotFound && r.store == s
    ensures r.status == NoContent ==> r.store.categoryXrefs == RemoveFirst(s.categoryXrefs, Xref(parent, child))
    ensures r.store.categories == s.categories && r.store.products == s.products
    ensures r.store.productXrefs == s.productXrefs
  {
    if !CategoryVisible(s, parent) then Reply(NotFound, s)
    else if child !in ChildIds(s, parent) then Reply(NotFound, s)
    else
      TargetsMember(s.categoryXrefs, parent, child);
      TargetsRemoveFirst(s.categoryXrefs, Xref(parent, child), parent);
      Reply(NoContent, s.(categoryXrefs := RemoveFirst(s.categoryXrefs, Xref(parent, child))))
  }

  /** `removeSubcategoryFromParent` as written: the conflict response built
      for an href naming the parent itself is never returned, so the request
      goes on to the lookups. */
  function RemoveSubcategoryAsWritten(s: Store, parent: Id, href: Option<string>): (r: Reply)
    ensures HrefId(href).Failure? ==> r == Reply(HrefId(href).error, s)
    ensures HrefId(href).Success? ==> r == RemoveSubcategoryLookup(s, parent, HrefId(href).value)
  {
    match HrefId(href)
    case Failure(e) => Reply(e, s)
    case Success(child) => RemoveSubcategoryLookup(s, parent, child)
  }

  /** `removeSubcategoryFromParent` with the self test returning its
      conflict, as the code evidently intends. */
  function RemoveSubcategory(s: Store, parent: Id, href: Option<string>): (r: Reply)
    ensures HrefId(href).Failure? ==> r == Reply(HrefId(href).error, s)
    ensures HrefId(href).Success? && HrefId(href).value == parent ==> r == Reply(Conflict, s)
    ensures HrefId(href).Success? && HrefId(href).value != parent ==> r == RemoveSubcategoryLookup(s, parent, HrefId(href).value)
    ensures r.status != NoContent ==> r.store == s
  {
    match HrefId(href)
    case Failure(e) => Reply(e, s)
    case Success(child) => if child == parent then Reply(Conflict, s) else RemoveSubcategoryLookup(s, parent, child)
  }

  /** An href naming the parent itself, when no self edge is stored: the
      code as written answers "not found" where the discarded check meant
      "conflict". Such hrefs exist for every id (`HrefIdOfAbsoluteHref`). */
  lemma RemoveSelfSubcategoryAnswersNotFound(s: Store, parent: Id, href: Option<string>)
    requires HrefId(href) == Success(parent)
    requires CategoryVisible(s, parent) && Xref(parent, parent) !in s.categoryXrefs
    ensures RemoveSubcategoryAsWritten(s, parent, href) == Reply(NotFound, s)
    ensures RemoveSubcategory(s, parent, href) == Reply(Conflict, s)
  {
    TargetsMember(s.categoryXrefs, parent, parent);
  }

  /** Every id in the 64-bit range is read back from an absolute href ending
      in its decimal form. */
  lemma HrefIdOfAbsoluteHref(scheme: string, host: string, segs: seq<string>, n: int)
    requires |scheme| > 0 && Excludes(scheme, {':', '/', '?', '#'})
    requires Excludes(host, {'/', '?', '#'})
    requires forall k :: 0 <= k < |segs| ==> PlainSegment(segs[k])
    requires InLongRange(n)
    ensures HrefId(Some(scheme + "://" + host + JoinPath(segs + [LongToString(n)]))) == Success(n)
  {
    GetIdFromAbsoluteHref(scheme, host, segs, n);
  }

  /** With the tables free of duplicate rows, a successful removal deletes
      the edge, so repeating it is "not found" and changes nothing. */
  lemma RemoveSubcategoryTwice(s: Store, parent: Id, href: Option<string>)
    requires WellFormed(s)
    requires RemoveSubcategory(s, parent, href).status == NoContent
    ensures WellFormed(RemoveSubcategory(s, parent, href).store)
    ensures RemoveSubcategory(RemoveSubcategory(s, parent, href).store, parent, href)
         == Reply(NotFound, RemoveSubcategory(s, parent, href).store)
  {
    var child := HrefId(href).value;
    var s1 := RemoveSubcategory(s, parent, href).store;
    NoDuplicatesRemoveFirst(s.categoryXrefs, Xref(parent, child));
    TargetsMember(s1.categoryXrefs, parent, child);
  }

  /** The products listed for a category: its visible products in reference
      order (`getProductsFromCategoryId` followed by the archived filter). */
  function ReadProductsFromCategory(s: Store, category: Id): (r: Result<seq<Id>, HttpStatus>)
    ensures r.Failure? <==> !CategoryVisible(s, category)
    ensures r.Failure? ==> r.error == NotFound
    ensures r.Success? ==> r.value == VisibleProducts(s, ProductIds(s, category))
  {
    if !CategoryVisible(s, category) then Failure(NotFound)
    else Success(VisibleProducts(s, ProductIds(s, category)))
  }

  /** A product is listed exactly when it is referenced and not archived. */
  lemma ReadProductsFromCategoryMember(s: Store, category: Id, p: Id)
    requires CategoryVisible(s, category)
    ensures p in ReadProductsFromCategory(s, category).value
        <==> Xref(category, p) in s.productXrefs && ProductVisible(s, p)
  {
    VisibleProductsMember(s, ProductIds(s, category), p);
    TargetsMember(s.productXrefs, category, p);
  }

  /** `insertOneProductIntoCategory`: the category, then the product must be
      visible; an existing reference is a conflict; otherwise a reference is
      appended. */
  function InsertProduct(s: Store, category: Id, href: Option<string>): (r: Reply)
    ensures HrefId(href).Failure? ==> r == Reply(HrefId(href).error, s)
    ensures HrefId(href).Success? ==>
      var p := HrefId(href).value;
      (!CategoryVisible(s, category) ==> r == Reply(NotFound, s)) &&
      (CategoryVisible(s, category) && !ProductVisible(s, p) ==> r == Reply(NotFound, s)) &&
      (CategoryVisible(s, category) && ProductVisible(s, p) && p in ProductIds(s, category) ==> r == Reply(Conflict, s)) &&
      (CategoryVisible(s, category) && ProductVisible(s, p) && p !in ProductIds(s, category) ==>
        r.status == Created &&
        ProductIds(r.store, category) == ProductIds(s, category) + [p] &&
        CategoryIdsOf(r.store, p) == CategoryIdsOf(s, p) + [category])
    ensures r.status != Created ==> r.store == s
    ensures r.store.categories == s.categories && r.store.products == s.products
    ensures r.store.categoryXrefs == s.categoryXrefs
  {
    match HrefId(href)
    case Failure(e) => Reply(e, s)
    case Success(p) =>
      if !CategoryVisible(s, category) then Reply(NotFound, s)
      else if !ProductVisible(s, p) then Reply(NotFound, s)
      else if Xref(category, p) in s.productXrefs then
        TargetsMember(s.productXrefs, category, p);
        Reply(Conflict, s)
      else
        TargetsMember(s.productXrefs, category, p);
        TargetsAppend(s.productXrefs, Xref(category, p), category);
        OwnersAppend(s.productXrefs, Xref(category, p), p);
        Reply(Created, s.(productXrefs := s.productXrefs + [Xref(category, p)]))
  }

  /** Inserting the same product twice: the second insert is a conflict and
      the category's product count stays where the first one left it. */
  lemma InsertProductTwice(s: Store, category: Id, href: Option<string>)
    requires InsertProduct(s, category, href).status == Created
    ensures |ProductIds(InsertProduct(s, category, href).store, category)| == |ProductIds(s, category)| + 1
    ensures InsertProduct(InsertProduct(s, category, href).store, category, href)
         == Reply(Conflict, InsertProduct(s, category, href).store)
  {
  }

  /** `removeOneProductFromCategory`: the product must be among the visible
      products of the visible category; its first reference is removed. */
  function RemoveProduct(s: Store, category: Id, href: Option<string>): (r: Reply)
    ensures HrefId(href).Failure? ==> r == Reply(HrefId(href).error, s)
    ensures HrefId(href).Success? ==>
      var p := HrefId(href).value;
      (!CategoryVisible(s, category) ==> r == Reply(NotFound, s)) &&
      (CategoryVisible(s, category) && p !in VisibleProducts(s, ProductIds(s, category)) ==> r == Reply(NotFound, s)) &&
      (CategoryVisible(s, category) && p in VisibleProducts(s, ProductIds(s, category)) ==>
        r.status == NoContent &&
        r.store.productXrefs == RemoveFirst(s.productXrefs, Xref(category, p)) &&
        ProductIds(r.store, category) == RemoveFirst(ProductIds(s, category), p))
    ensures r.status != NoContent ==> r.store == s
    ensures r.store.categories == s.categories && r.store.products == s.products
    ensures r.store.categoryXrefs == s.categoryXrefs
  {
    match HrefId(href)
    case Failure(e) => Reply(e, s)
    case Success(p) =>
      if !CategoryVisible(s, category) then Reply(NotFound, s)
      else if p !in VisibleProducts(s, ProductIds(s, category)) then Reply(NotFound, s)
      else
        VisibleProductsMember(s, ProductIds(s, category), p);
        TargetsMember(s.productXrefs, category, p);
        TargetsRemoveFirst(s.productXrefs, Xref(category, p), category);
        Reply(NoContent, s.(productXrefs := RemoveFirst(s.productXrefs, Xref(category, p))))
  }

  /** With no duplicate rows, a removed product is gone from the category,
      so removing it again is "not found" with the count unchanged. */
  lemma RemoveProductTwice(s: Store, category: Id, href: Option<string>)
    requires WellFormed(s)
    requires RemoveProduct(s, category, href).status == NoContent
    ensures WellFormed(RemoveProduct(s, category, href).store)
    ensures |ProductIds(RemoveProduct(s, category, href).store, category)| == |ProductIds(s, category)| - 1
    ensures RemoveProduct(RemoveProduct(s, category, href).store, category, href)
         == Reply(NotFound, RemoveProduct(s, category, href).store)
  {
    var p := HrefId(href).value;
    var s1 := RemoveProduct(s, category, href).store;
    VisibleProductsMember(s, ProductIds(s, category), p);
    TargetsMember(s.productXrefs, category, p);
    NoDuplicatesRemoveFirst(s.productXrefs, Xref(category, p));
    TargetsMember(s1.productXrefs, category, p);
    VisibleProductsMember(s1, ProductIds(s1, category), p);
  }

  /** The mutations keep the join tables free of duplicate rows. */
  lemma MutationsPreserveWellFormed(s: Store, parent: Id, href: Option<string>)
    requires WellFormed(s)
    ensures WellFormed(AddSubcategory(s, parent, href).store)
    ensures WellFormed(RemoveSubcategory(s, parent, href).store)
    ensures WellFormed(InsertProduct(s, parent, href).store)
    ensures WellFormed(RemoveProduct(s, parent, href).store)
  {
    if HrefId(href).Success? {
      var id := HrefId(href).value;
      if AddSubcategory(s, parent, href).status == Created {
        TargetsMember(s.categoryXrefs, parent, id);
        NoDuplicatesAppend(s.categoryXrefs, Xref(parent, id));
      }
      NoDuplicatesRemoveFirst(s.categoryXrefs, Xref(parent, id));
      if InsertProduct(s, parent, href).status == Created {
        TargetsMember(s.productXrefs, parent, id);
        NoDuplicatesAppend(s.productXrefs, Xref(parent, id));
      }
      NoDuplicatesRemoveFirst(s.productXrefs, Xref(parent, id));
    }
  }

  /** `createOrUpdateOneMedia`: a media without url is refused before the
      lookup; otherwise the entry under `key` is replaced by one built from
      the transfer object. */
  function PutMedia(s: Store, category: Id, key: string, dto: MediaConverter.MediaDto): (r: Reply)
    ensures NullOrEmpty(dto.url) ==> r == Reply(BadRequest, s)
    ensures !NullOrEmpty(dto.url) && !CategoryVisible(s, category) ==> r == Reply(NotFound, s)
    ensures !NullOrEmpty(dto.url) && CategoryVisible(s, category) ==>
      r.status == Ok &&
      r.store.categories.Keys == s.categories.Keys &&
      r.store.categories[category].media == s.categories[category].media[key := CategoryMediaXref(key, MediaConverter.CreateEntity(dto))] &&
      r.store.categories[category] == s.categories[category].(media := r.store.categories[category].media) &&
      forall c :: c in s.categories && c != category ==> r.store.categories[c] == s.categories[c]
    ensures r.store.products == s.products
    ensures r.store.categoryXrefs == s.categoryXrefs && r.store.productXrefs == s.productXrefs
  {
    if NullOrEmpty(dto.url) then Reply(BadRequest, s)
    else if !CategoryVisible(s, category) then Reply(NotFound, s)
    else
      var c := s.categories[category];
      var xref := CategoryMediaXref(key, MediaConverter.CreateEntity(dto));
      Reply(Ok, s.(categories := s.categories[category := c.(media := c.media[key := xref])]))
  }

  /** `deleteOneMedia`: the category must be visible and hold media under
      `key`; that entry alone is removed. */
  function DeleteMedia(s: Store, category: Id, key: string): (r: Reply)
    ensures r.status == NoContent <==> CategoryVisible(s, category) && key in s.categories[category].media
    ensures r.status != NoContent ==> r == Reply(NotFound, s)
    ensures r.status == NoContent ==>
      r.store.categories.Keys == s.categories.Keys &&
      r.store.categories[category].media == s.categories[category].media - {key} &&
      r.store.categories[category] == s.categories[category].(media := r.store.categories[category].media) &&
      forall c :: c in s.categories && c != category ==> r.store.categories[c] == s.categories[c]
    ensures r.store.products == s.products
    ensures r.store.categoryXrefs == s.categoryXrefs && r.store.productXrefs == s.productXrefs
  {
    if !CategoryVisible(s, category) then Reply(NotFound, s)
    else if key !in s.categories[category].media then Reply(NotFound, s)
    else
      var c := s.categories[category];
      Reply(NoContent, s.(categories := s.categories[category := c.(media := c.media - {key})]))
  }

  /** Putting media and deleting it again succeeds and leaves no entry under
      that key; a second delete is "not found". */
  lemma PutThenDeleteMedia(s: Store, category: Id, key: string, dto: MediaConverter.MediaDto)
    requires !NullOrEmpty(dto.url) && CategoryVisible(s, category)
    ensures DeleteMedia(PutMedia(s, category, key, dto).store, category, key).status == NoContent
    ensures key !in DeleteMedia(PutMedia(s, category, key, dto).store, category, key).store.categories[category].media
    ensures DeleteMedia(DeleteMedia(PutMedia(s, category, key, dto).store, category, key).store, category, key).status == NotFound
  {
  }
}

=== FILE: category_converter.dfy ===
/** Conversion between category entities and their transfer objects: the
    replace-everything update of an entity, and the transfer object with its
    links and embedded visible subcategories. */
module CategoryConverter {
  import opened Base
  import opened CatalogUtils
  import opened Catalog
  import MediaConverter
  import CategoryController

  /** The category transfer object. A null attribute or media map is
      modelled as an empty one, which the update treats the same way. */
  datatype CategoryDto = CategoryDto(
    name: Option<string>,
    description: Option<string>,
    longDescription: Option<string>,
    validFrom: Option<int>,
    validTo: Option<int>,
    productsAvailability: Option<string>,
    attributes: map<string, string>,
    media: map<string, MediaConverter.MediaDto>,
    url: Option<string>)

  /** `updateEntity`: every field comes from the transfer object. A missing
      start date becomes `now`; attributes and media are replaced, not merged.
      The join tables live outside the entity, so edges and product references
      cannot change. */
  function UpdateEntity(c: Category, dto: CategoryDto, now: int): (r: Category)
    ensures r.name == dto.name && r.description == dto.description
    ensures r.longDescription == dto.longDescription && r.url == dto.url
    ensures dto.validFrom.Some? ==> r.activeStartDate == dto.validFrom
    ensures dto.validFrom.None? ==> r.activeStartDate == Some(now)
    ensures r.activeEndDate == dto.validTo
    ensures r.inventoryType == Some(ToInventoryTypeByAvailability(dto.productsAvailability))
    ensures dto.productsAvailability.None? ==> r.inventoryType == Some(AlwaysAvailable)
    ensures r.attributes.Keys == dto.attributes.Keys
    ensures forall k :: k in r.attributes ==> r.attributes[k] == CategoryAttribute(k, dto.attributes[k])
    ensures r.media.Keys == dto.media.Keys
    ensures forall k :: k in r.media ==> r.media[k].key == k
    ensures forall k :: k in r.media ==> r.media[k].media == MediaConverter.CreateEntity(dto.media[k])
    ensures r.archived == c.archived
    ensures forall t :: dto.validTo.Some? && dto.validTo.value < t ==> !CategoryActive(r, t)
    ensures c.archived != 'Y' && dto.validFrom.None? && dto.validTo.None? ==> CategoryActive(r, now)
  {
    c.(
      name := dto.name,
      description := dto.description,
      longDescription := dto.longDescription,
      activeStartDate := Some(if dto.validFrom.Some? then dto.validFrom.value else now),
      activeEndDate := dto.validTo,
      inventoryType := Some(if dto.productsAvailability.Some? then ToInventoryTypeByAvailability(dto.productsAvailability) else AlwaysAvailable),
      attributes := map k | k in dto.attributes :: CategoryAttribute(k, dto.attributes[k]),
      media := map k | k in dto.media :: CategoryMediaXref(k, MediaConverter.CreateEntity(dto.media[k])),
      url := dto.url)
  }

  /** The update applied to the stored category `id`. */
  function UpdateInStore(s: Store, id: Id, dto: CategoryDto, now: int): (r: Store)
    requires id in s.categories
    ensures r.categories.Keys == s.categories.Keys
    ensures r.categories[id] == UpdateEntity(s.categories[id], dto, now)
    ensures forall c :: c in s.categories && c != id ==> r.categories[c] == s.categories[c]
  {
    s.(categories := s.categories[id := UpdateEntity(s.categories[id], dto, now)])
  }

  /** A category keeps its products, subcategories and parents across an
      update, and stays as visible as it was. */
  lemma UpdateKeepsReferences(s: Store, id: Id, dto: CategoryDto, now: int)
    requires id in s.categories
    ensures forall c :: ProductIds(UpdateInStore(s, id, dto, now), c) == ProductIds(s, c)
    ensures forall c :: ChildIds(UpdateInStore(s, id, dto, now), c) == ChildIds(s, c)
    ensures forall c :: ParentIds(UpdateInStore(s, id, dto, now), c) == ParentIds(s, c)
    ensures forall c :: CategoryVisible(UpdateInStore(s, id, dto, now), c) <==> CategoryVisible(s, c)
  {
  }

  /** Updating twice with the same transfer object and time is updating once. */
  lemma UpdateEntityIdempotent(c: Category, dto: CategoryDto, now: int)
    ensures UpdateEntity(UpdateEntity(c, dto, now), dto, now) == UpdateEntity(c, dto, now)
  {
  }

  /** Attributes or media present before the update but absent from the
      transfer object are gone afterwards. */
  lemma UpdateDropsStaleEntries(c: Category, dto: CategoryDto, now: int, k: string)
    ensures k in c.attributes && k !in dto.attributes ==> k !in UpdateEntity(c, dto, now).attributes
    ensures k in c.media && k !in dto.media ==> k !in UpdateEntity(c, dto, now).media
  {
  }

  /** A HAL link: a relation name and the id of the category it points to. */
  datatype Link = Link(rel: string, target: Id)

  /** The category representation: copied fields, links, and the embedded
      representations of visible subcategories. */
  datatype CategoryView = CategoryView(
    name: Option<string>,
    description: Option<string>,
    longDescription: Option<string>,
    productsAvailability: Option<string>,
    attributes: map<string, string>,
    media: map<string, MediaConverter.MediaDto>,
    url: Option<string>,
    links: seq<Link>,
    subcategories: seq<CategoryView>)

  /** `shouldCategoryBeVisible` for a stored category at time `now`;
      `authorized` says whether the caller holds the category read
      permission. A category it lets through is never archived. */
  function ShouldCategoryBeVisible(s: Store, id: Id, authorized: bool, now: int): (r: bool)
    ensures r ==> CategoryVisible(s, id)
    ensures authorized ==> (r <==> CategoryVisible(s, id))
    ensures !authorized ==> (r <==> id in s.categories && CategoryActive(s.categories[id], now))
  {
    id in s.categories && ShouldBeVisible(CategoryActive(s.categories[id], now), Status(s.categories[id].archived), authorized)
  }

  /** An archived category is never embedded again, whatever the caller
      holds and whenever it asks. */
  lemma RemovedCategoryNeverEmbedded(s: Store, id: Id, authorized: bool, now: int)
    requires CategoryController.RemoveOneCategory(s, id).status == NoContent
    ensures !ShouldCategoryBeVisible(CategoryController.RemoveOneCategory(s, id).store, id, authorized, now)
  {
  }

  /** A category updated with an end date is hidden from callers without the
      read permission once that date has passed. */
  lemma ExpiredCategoryHiddenFromGuests(s: Store, id: Id, dto: CategoryDto, now: int, later: int)
    requires id in s.categories
    requires dto.validTo.Some? && dto.validTo.value < later
    ensures !ShouldCategoryBeVisible(UpdateInStore(s, id, dto, now), id, false, later)
  {
  }

  /** The subcategories worth embedding, in edge order. */
  function EmbeddedIds(s: Store, ids: seq<Id>, authorized: bool, now: int): (r: seq<Id>)
    ensures |r| <= |ids|
    ensures forall k :: 0 <= k < |r| ==> ShouldCategoryBeVisible(s, r[k], authorized, now)
  {
    if |ids| == 0 then []
    else (if ShouldCategoryBeVisible(s, ids[0], authorized, now) then [ids[0]] else []) + EmbeddedIds(s, ids[1..], authorized, now)
  }

  lemma {:induction false} EmbeddedIdsMember(s: Store, ids: seq<Id>, authorized: bool, now: int, id: Id)
    ensures id in EmbeddedIds(s, ids, authorized, now) <==> id in ids && ShouldCategoryBeVisible(s, id, authorized, now)
  {
    if |ids| > 0 {
      EmbeddedIdsMember(s, ids[1..], authorized, now, id);
      assert id in ids <==> ids[0] == id || id in ids[1..];
    }
  }

  function RelLinks(rel: string, ids: seq<Id>): (r: seq<Link>)
    ensures |r| == |ids|
    ensures forall k :: 0 <= k < |r| ==> r[k] == Link(rel, ids[k])
  {
    seq(|ids|, k requires 0 <= k < |ids| => Link(rel, ids[k]))
  }

  /** The links of a category's representation: self; then, with `link`,
      products, one per child edge and one per parent edge, archived or not. */
  function Links(s: Store, id: Id, link: bool): (r: seq<Link>)
    ensures |r| > 0 && r[0] == Link("self", id)
    ensures !link ==> |r| == 1
    ensures link ==> |r| == 2 + |ChildIds(s, id)| + |ParentIds(s, id)|
    ensures link ==> r[1] == Link("products", id)
    ensures link ==> r[2..2 + |ChildIds(s, id)|] == RelLinks("subcategories", ChildIds(s, id))
    ensures link ==> r[2 + |ChildIds(s, id)|..] == RelLinks("parentcategories", ParentIds(s, id))
  {
    var children := RelLinks("subcategories", ChildIds(s, id));
    var parents := RelLinks("parentcategories", ParentIds(s, id));
    if link then
      var r := [Link("self", id), Link("products", id)] + children + parents;
      assert r[2..2 + |children|] == children;
      assert r[2 + |children|..] == parents;
      r
    else [Link("self", id)]
  }

  /** The media representations, by the same keys as the entity's media. */
  function MediaDtos(c: Category): (r: map<string, MediaConverter.MediaDto>)
    ensures r.Keys == c.media.Keys
    ensures forall k :: k in r ==> r[k] == MediaConverter.CreateDto(c.media[k].media)
  {
    map k | k in c.media :: MediaConverter.CreateDto(c.media[k].media)
  }

  /** `createDto`: copied fields and `Links`; with `embed`, the
      representations of the children that should be visible, in edge order.
      Embedding recurses into the children; `fuel` bounds the depth. */
  function CreateDto(s: Store, id: Id, embed: bool, link: bool, authorized: bool, now: int, fuel: nat): (d: CategoryView)
    requires id in s.categories
    ensures d.name == s.categories[id].name && d.url == s.categories[id].url
    ensures d.description == s.categories[id].description
    ensures d.longDescription == s.categories[id].longDescription
    ensures s.categories[id].inventoryType.None? <==> d.productsAvailability.None?
    ensures s.categories[id].inventoryType.Some? ==> d.productsAvailability == Some(TypeName(s.categories[id].inventoryType.value))
    ensures d.attributes.Keys == s.categories[id].attributes.Keys
    ensures forall k :: k in d.attributes ==> d.attributes[k] == s.categories[id].attributes[k].value
    ensures d.media == MediaDtos(s.categories[id])
    ensures d.links == Links(s, id, link)
    ensures !embed || fuel == 0 ==> d.subcategories == []
    ensures embed && fuel > 0 ==> |d.subcategories| == |EmbeddedIds(s, ChildIds(s, id), authorized, now)|
    ensures embed && fuel > 0 ==> forall k :: 0 <= k < |d.subcategories| ==>
      |d.subcategories[k].links| > 0 &&
      d.subcategories[k].links[0] == Link("self", EmbeddedIds(s, ChildIds(s, id), authorized, now)[k])
    decreases fuel
  {
    var c := s.categories[id];
    var kids := if embed && fuel > 0 then EmbeddedIds(s, ChildIds(s, id), authorized, now) else [];
    var subs := seq(|kids|, k requires 0 <= k < |kids| => CreateDto(s, kids[k], true, link, authorized, now, fuel - 1));
    CategoryView(
      c.name, c.description, c.longDescription,
      if c.inventoryType.Some? then Some(TypeName(c.inventoryType.value)) else None,
      map k | k in c.attributes :: c.attributes[k].value,
      MediaDtos(c), c.url, Links(s, id, link), subs)
  }

  /** Embedding only changes what is embedded: the links are the same with or
      without it. */
  lemma CreateDtoLinksIndependentOfEmbed(s: Store, id: Id, link: bool, authorized: bool, now: int, fuel: nat)
    requires id in s.categories
    ensures CreateDto(s, id, true, link, authorized, now, fuel).links == CreateDto(s, id, false, link, authorized, now, fuel).links
  {
  }

  /** The representation of a category just updated from a transfer object
      gives back that object's name, descriptions, url, attributes and media,
      and its availability whenever it names an inventory type. */
  lemma UpdateThenCreateDto(s: Store, id: Id, dto: CategoryDto, now: int, link: bool, authorized: bool, later: int, fuel: nat)
    requires id in s.categories
    ensures var d := CreateDto(UpdateInStore(s, id, dto, now), id, false, link, authorized, later, fuel);
      d.name == dto.name && d.description == dto.description && d.longDescription == dto.longDescription &&
      d.url == dto.url && d.attributes == dto.attributes && d.media == dto.media &&
      (dto.productsAvailability.Some? && GetInstance(dto.productsAvailability.value).Some? ==>
         d.productsAvailability == dto.productsAvailability)
  {
    var d := CreateDto(UpdateInStore(s, id, dto, now), id, false, link, authorized, later, fuel);
    assert d.attributes == dto.attributes;
    assert d.media == dto.media;
  }
}

=== FILE: category_levels.dfy ===
/** `getCategoriesAtLevel`: the categories exactly `level` child edges below
    each of the given roots, root by root, in breadth-first order and with
    repetitions (a category reached along two paths appears twice). Edges are
    followed whether or not the child is archived, and each root takes at
    most `level` rounds, so cyclic edges do no harm. */
module CategoryLevels {
  import opened Base
  import opened Catalog

  /** One breadth-first round: the children of every category of `xs`, in
      queue order. */
  function Expand(s: Store, xs: seq<Id>): (r: seq<Id>)
  {
    if |xs| == 0 then [] else ChildIds(s, xs[0]) + Expand(s, xs[1..])
  }

  /** The queue after `d` rounds started from `xs`. */
  function Frontier(s: Store, xs: seq<Id>, d: nat): (r: seq<Id>)
    decreases d
  {
    if d == 0 then xs else Frontier(s, Expand(s, xs), d - 1)
  }

  /** Reference definition: `to` lies `d` child edges below `from`. */
  predicate Reachable(s: Store, from: Id, to: Id, d: nat)
    decreases d
  {
    if d == 0 then from == to
    else exists c :: c in ChildIds(s, from) && Reachable(s, c, to, d - 1)
  }

  /** The frontiers of each root, concatenated in root order. */
  function PerRoot(s: Store, roots: seq<Id>, level: nat): (r: seq<Id>)
  {
    if |roots| == 0 then []
    else PerRoot(s, roots[..|roots| - 1], level) + Frontier(s, [roots[|roots| - 1]], level)
  }

  /** The result of `getCategoriesAtLevel`. */
  function CategoriesAtLevel(s: Store, roots: seq<Id>, level: int): (r: seq<Id>)
    ensures level < 0 || |roots| == 0 ==> r == []
    ensures level == 0 ==> r == roots
  {
    if level < 0 || |roots| == 0 then []
    else if level == 0 then roots
    else PerRoot(s, roots, level)
  }

  lemma {:induction false} ExpandAppend(s: Store, xs: seq<Id>, ys: seq<Id>)
    ensures Expand(s, xs + ys) == Expand(s, xs) + Expand(s, ys)
  {
    if |xs| == 0 {
      assert xs + ys == ys;
    } else {
      assert (xs + ys)[1..] == xs[1..] + ys;
      ExpandAppend(s, xs[1..], ys);
    }
  }

  lemma {:induction false} FrontierAppend(s: Store, xs: seq<Id>, ys: seq<Id>, d: nat)
    ensures Frontier(s, xs + ys, d) == Frontier(s, xs, d) + Frontier(s, ys, d)
    decreases d
  {
    if d > 0 {
      ExpandAppend(s, xs, ys);
      FrontierAppend(s, Expand(s, xs), Expand(s, ys), d - 1);
    }
  }

  /** Taking the roots one at a time gives the same result as one
      breadth-first search started from all of them. */
  lemma {:induction false} PerRootIsFrontier(s: Store, roots: seq<Id>, level: nat)
    ensures PerRoot(s, roots, level) == Frontier(s, roots, level)
  {
    if |roots| == 0 {
      assert Frontier(s, [], level) == [] by { FrontierEmpty(s, level); }
    } else {
      var init := roots[..|roots| - 1];
      PerRootIsFrontier(s, init, level);
      assert roots == init + [roots[|roots| - 1]];
      FrontierAppend(s, init, [roots[|roots| - 1]], level);
    }
  }

  lemma {:induction false} FrontierEmpty(s: Store, d: nat)
    ensures Frontier(s, [], d) == []
    decreases d
  {
    if d > 0 {
      assert Expand(s, []) == [];
      FrontierEmpty(s, d - 1);
    }
  }

  lemma {:induction false} ExpandMember(s: Store, xs: seq<Id>, c: Id)
    ensures c in Expand(s, xs) <==> exists y :: y in xs && c in ChildIds(s, y)
  {
    if |xs| > 0 {
      ExpandMember(s, xs[1..], c);
      assert forall y :: y in xs <==> y == xs[0] || y in xs[1..];
    }
  }

  /** A category is in the frontier exactly when it lies `d` edges below
      one of the starting categories. */
  lemma {:induction false} FrontierMember(s: Store, xs: seq<Id>, d: nat, x: Id)
    ensures x in Frontier(s, xs, d) <==> exists y :: y in xs && Reachable(s, y, x, d)
    decreases d
  {
    if d > 0 {
      FrontierMember(s, Expand(s, xs), d - 1, x);
      if x in Frontier(s, xs, d) {
        var c :| c in Expand(s, xs) && Reachable(s, c, x, d - 1);
        ExpandMember(s, xs, c);
        var y :| y in xs && c in ChildIds(s, y);
        assert Reachable(s, y, x, d);
      }
      if exists y :: y in xs && Reachable(s, y, x, d) {
        var y :| y in xs && Reachable(s, y, x, d);
        var c :| c in ChildIds(s, y) && Reachable(s, c, x, d - 1);
        ExpandMember(s, xs, c);
      }
    }
  }

  /** The result holds exactly the categories `level` edges below some root. */
  lemma CategoriesAtLevelMember(s: Store, roots: seq<Id>, level: nat, x: Id)
    ensures x in CategoriesAtLevel(s, roots, level) <==> exists r :: r in roots && Reachable(s, r, x, level)
  {
    if |roots| > 0 && level > 0 {
      PerRootIsFrontier(s, roots, level);
    }
    FrontierMember(s, roots, level, x);
  }

  /** A root without children contributes nothing below level 0. */
  lemma {:induction false} LeafFrontier(s: Store, r: Id, d: nat)
    requires ChildIds(s, r) == [] && d > 0
    ensures Frontier(s, [r], d) == []
  {
    assert Expand(s, [r]) == ChildIds(s, r) + Expand(s, []);
    FrontierEmpty(s, d - 1);
  }

  /** The two-queue loop of `getCategoriesAtLevel`: for each root, rounds
      move the children of the active queue into the inactive one; after
      `level` rounds the inactive queue is collected and the root is done. */
  method GetCategoriesAtLevel(s: Store, parentCategories: seq<Id>, level: int) returns (levelCategories: seq<Id>)
    ensures levelCategories == CategoriesAtLevel(s, parentCategories, level)
  {
    if level < 0 || |parentCategories| <= 0 {
      return [];
    }
    if level == 0 {
      return parentCategories;
    }
    levelCategories := [];
    var j := 0;
    while j < |parentCategories|
      invariant 0 <= j <= |parentCategories|
      invariant levelCategories == PerRoot(s, parentCategories[..j], level)
    {
      var root := parentCategories[j];
      var currentDepth := 0;
      var active := [root];
      var inactive: seq<Id> := [];
      ghost var collected: seq<Id> := [];
      while |active| > 0
        invariant 0 <= currentDepth <= level && inactive == []
        invariant currentDepth < level ==> active == Frontier(s, [root], currentDepth) && collected == []
        invariant currentDepth == level ==> active == [] && collected == Frontier(s, [root], level)
        invariant currentDepth > 0 && active == [] && currentDepth < level ==> Frontier(s, [root], level) == []
        invariant levelCategories == PerRoot(s, parentCategories[..j], level) + collected
        decreases level - currentDepth
      {
        ghost var start := active;
        while |active| > 0
          invariant inactive + Expand(s, active) == Expand(s, start)
        {
          var c := active[0];
          active := active[1..];
          inactive := inactive + ChildIds(s, c);
        }
        assert inactive == Expand(s, start);
        currentDepth := currentDepth + 1;
        FrontierSplit(s, [root], currentDepth - 1, 1);
        if currentDepth >= level {
          levelCategories := levelCategories + inactive;
          collected := inactive;
          active := [];
        } else {
          active := inactive;
          if active == [] {
            FrontierEmpty(s, level - currentDepth);
            FrontierSplit(s, [root], currentDepth, level - currentDepth);
          }
        }
        inactive := [];
      }
      if currentDepth < level {
        assert collected == [];
      }
      assert parentCategories[..j + 1][..j] == parentCategories[..j];
      j := j + 1;
    }
    assert parentCategories[..j] == parentCategories;
  }

  lemma {:induction false} FrontierSplit(s: Store, xs: seq<Id>, a: nat, b: nat)
    ensures Frontier(s, xs, a + b) == Frontier(s, Frontier(s, xs, a), b)
    decreases a
  {
    if a > 0 {
      FrontierSplit(s, Expand(s, xs), a - 1, b);
    }
  }
}

=== FILE: currency.dfy ===
/** The default currency: reading its code, and making the currency with a
    given code (compared in upper case) the default one, which first clears
    the flag of the current default. */
module Currency {
  import opened Base

  /** A Broadleaf currency: its code and its default flag. */
  datatype BroadleafCurrency = BroadleafCurrency(code: string, isDefault: bool)

  /** `CurrencyNotFoundException`, answered with 404. */
  datatype CurrencyError = CurrencyNotFound

  /** The index of the first currency of the table carrying the default
      flag (`findDefaultBroadleafCurrency`). */
  function FindDefault(cs: seq<BroadleafCurrency>): (r: Option<nat>)
    ensures r.Some? ==> r.value < |cs| && cs[r.value].isDefault
    ensures r.Some? ==> forall k :: 0 <= k < r.value ==> !cs[k].isDefault
    ensures r.None? <==> forall k :: 0 <= k < |cs| ==> !cs[k].isDefault
  {
    if |cs| == 0 then None
    else if cs[0].isDefault then Some(0)
    else match FindDefault(cs[1..])
      case None => None
      case Some(k) => Some(k + 1)
  }

  /** The index of the first currency with exactly that code
      (`findCurrencyByCode`). */
  function FindByCode(cs: seq<BroadleafCurrency>, code: string): (r: Option<nat>)
    ensures r.Some? ==> r.value < |cs| && cs[r.value].code == code
    ensures r.Some? ==> forall k :: 0 <= k < r.value ==> cs[k].code != code
    ensures r.None? <==> forall k :: 0 <= k < |cs| ==> cs[k].code != code
  {
    if |cs| == 0 then None
    else if cs[0].code == code then Some(0)
    else match FindByCode(cs[1..], code)
      case None => None
      case Some(k) => Some(k + 1)
  }

  /** At most one currency carries the default flag. */
  predicate AtMostOneDefault(cs: seq<BroadleafCurrency>)
  {
    forall a, b :: 0 <= a < |cs| && 0 <= b < |cs| && cs[a].isDefault && cs[b].isDefault ==> a == b
  }

  /** `invalidateCurrentDefaultCurrency`: clears the flag of the current
      default, if any. */
  function InvalidateCurrentDefault(cs: seq<BroadleafCurrency>): (r: seq<BroadleafCurrency>)
    ensures |r| == |cs|
    ensures forall k :: 0 <= k < |cs| ==> r[k].code == cs[k].code
    ensures FindDefault(cs).Some? ==> !r[FindDefault(cs).value].isDefault
    ensures forall k :: 0 <= k < |cs| && Some(k) != FindDefault(cs) ==> r[k] == cs[k]
  {
    match FindDefault(cs)
    case None => cs
    case Some(j) => cs[j := cs[j].(isDefault := false)]
  }

  /** `setDefaultBroadleafCurrency`: the currency at `i` becomes the
      default after the current default is cleared; only those two
      currencies change. */
  function SetDefault(cs: seq<BroadleafCurrency>, i: nat): (r: seq<BroadleafCurrency>)
    requires i < |cs|
    ensures |r| == |cs|
    ensures forall k :: 0 <= k < |cs| ==> r[k].code == cs[k].code
    ensures r[i].isDefault
    ensures FindDefault(cs).Some? && FindDefault(cs).value != i ==> !r[FindDefault(cs).value].isDefault
    ensures forall k :: 0 <= k < |cs| && k != i && Some(k) != FindDefault(cs) ==> r[k] == cs[k]
  {
    var cleared := InvalidateCurrentDefault(cs);
    cleared[i := cleared[i].(isDefault := true)]
  }

  /** With at most one default before, the chosen currency is the only
      default afterwards, so it is the one the next lookup finds. */
  lemma {:induction false} SetDefaultIsTheDefault(cs: seq<BroadleafCurrency>, i: nat)
    requires i < |cs| && AtMostOneDefault(cs)
    ensures AtMostOneDefault(SetDefault(cs, i))
    ensures FindDefault(SetDefault(cs, i)) == Some(i)
  {
    var r := SetDefault(cs, i);
    forall k | 0 <= k < |cs| && k != i
      ensures !r[k].isDefault
    {
    }
    assert FindDefault(r).Some? by {
      assert !(forall m :: 0 <= m < |r| ==> !r[m].isDefault);
    }
  }

  /** ASCII upper case of one character (`Character.toUpperCase` on the
      letters a to z). */
  function UpperChar(c: char): (r: char)
    ensures 'a' <= c <= 'z' ==> 'A' <= r <= 'Z'
    ensures !('a' <= c <= 'z') ==> r == c
  {
    if 'a' <= c <= 'z' then (c as int - 32) as char else c
  }

  /** `String.toUpperCase` on ASCII text. */
  function ToUpper(s: string): (r: string)
    ensures |r| == |s|
    ensures forall k :: 0 <= k < |s| ==> r[k] == UpperChar(s[k])
  {
    if |s| == 0 then [] else [UpperChar(s[0])] + ToUpper(s[1..])
  }

  /** Upper-casing is idempotent. */
  lemma ToUpperIdempotent(s: string)
    ensures ToUpper(ToUpper(s)) == ToUpper(s)
  {
    assert forall k :: 0 <= k < |s| ==> UpperChar(UpperChar(s[k])) == UpperChar(s[k]);
  }

  /** `getDefaultCurrencyCode`: the default currency's code, or "currency
      not found". */
  function GetDefaultCurrencyCode(cs: seq<BroadleafCurrency>): (r: Result<string, CurrencyError>)
    ensures r.Failure? <==> forall k :: 0 <= k < |cs| ==> !cs[k].isDefault
    ensures r.Success? ==> exists k :: 0 <= k < |cs| && cs[k].isDefault && cs[k].code == r.value
  {
    match FindDefault(cs)
    case None => Failure(CurrencyNotFound)
    case Some(j) => Success(cs[j].code)
  }

  /** `setDefaultCurrencyCode`: the currency whose code equals the upper-cased
      request becomes the default; "currency not found" and no change when
      there is none. */
  function SetDefaultCurrencyCode(cs: seq<BroadleafCurrency>, currencyCode: string): (r: Result<seq<BroadleafCurrency>, CurrencyError>)
    ensures r.Failure? <==> forall k :: 0 <= k < |cs| ==> cs[k].code != ToUpper(currencyCode)
    ensures r.Success? ==> |r.value| == |cs| && forall k :: 0 <= k < |cs| ==> r.value[k].code == cs[k].code
  {
    match FindByCode(cs, ToUpper(currencyCode))
    case None => Failure(CurrencyNotFound)
    case Some(i) => Success(SetDefault(cs, i))
  }

  /** Setting the default by any spelling of a code and then reading it
      answers the code in upper case, and the table keeps a single default. */
  lemma SetThenGetDefault(cs: seq<BroadleafCurrency>, currencyCode: string)
    requires AtMostOneDefault(cs)
    requires SetDefaultCurrencyCode(cs, currencyCode).Success?
    ensures GetDefaultCurrencyCode(SetDefaultCurrencyCode(cs, currencyCode).value) == Success(ToUpper(currencyCode))
    ensures AtMostOneDefault(SetDefaultCurrencyCode(cs, currencyCode).value)
  {
    var i := FindByCode(cs, ToUpper(currencyCode)).value;
    SetDefaultIsTheDefault(cs, i);
  }

  /** Making the current default the default again changes nothing. */
  lemma SetCurrentDefaultAgain(cs: seq<BroadleafCurrency>, i: nat)
    requires i < |cs| && FindDefault(cs) == Some(i)
    ensures SetDefault(cs, i) == cs
  {
  }

  /** Asking for "eur" makes the currency with code EUR the default one. */
  lemma EurBecomesDefault(cs: seq<BroadleafCurrency>)
    requires AtMostOneDefault(cs)
    requires exists k :: 0 <= k < |cs| && cs[k].code == "EUR"
    ensures SetDefaultCurrencyCode(cs, "eur").Success?
    ensures GetDefaultCurrencyCode(SetDefaultCurrencyCode(cs, "eur").value) == Success("EUR")
  {
    assert ToUpper("eur") == "EUR";
    SetThenGetDefault(cs, "eur");
  }
}

=== FILE: customer_controller.dfy ===
/** The customer endpoints: resolving the `{id}` path segment ("me" or a
    number) to a customer, reading and updating one customer, listing the
    customers a principal may see, and registering an anonymous customer
    under a username and an email address. */
module CustomerController {
  import opened Base
  import opened CatalogUtils

  /** What the model keeps of a Broadleaf customer. */
  datatype CustomerRecord = CustomerRecord(
    id: Id,
    username: Option<string>,
    email: Option<string>,
    password: Option<string>,
    registered: bool)

  /** The customers by id, as `readCustomerById` finds them. */
  type Customers = map<Id, CustomerRecord>

  /** The exceptions of the endpoints. `NullPrincipal` is the null
      dereference of a registration without a customer principal. */
  datatype CustomerError = CustomerNotFound | AlreadyRegistered | UsernameTaken | EmailTaken | NullPrincipal

  /** `toCustomerId`: "me" names the logged-in customer; anything else is
      parsed as a long, and a string that does not parse names nobody. */
  function ToCustomerId(p: Principal, customerId: string): (r: Option<Id>)
    ensures p.CustomerPrincipal? && customerId == "me" ==> r == Some(p.id)
    ensures !(p.CustomerPrincipal? && customerId == "me") ==> r == ParseLong(customerId)
    ensures r.Some? && customerId != "me" ==> InLongRange(r.value)
  {
    if p.CustomerPrincipal? && customerId == "me" then Some(p.id) else ParseLong(customerId)
  }

  /** The decimal form of any long names that long, whoever asks. */
  lemma ToCustomerIdRoundTrip(p: Principal, n: Id)
    requires InLongRange(n)
    ensures ToCustomerId(p, LongToString(n)) == Some(n)
  {
    ParseLongRoundTrip(n);
    assert LongToString(n) != "me" by {
      assert ParseLong(LongToString(n)).Some?;
      assert ParseLong("me") == None by { assert !IsDigit('e'); }
    }
  }

  /** "me" without a logged-in customer names nobody. */
  lemma MeWithoutCustomer(p: Principal)
    requires !p.CustomerPrincipal?
    ensures ToCustomerId(p, "me") == None
  {
    assert !IsDigit("me"[1]);
  }

  /** The lookup shared by `readOneCustomer`, `updateCustomerEmail` and
      `createAuthorizationCode`: the customer the path segment names, or
      "customer not found". */
  function ResolveCustomer(cs: Customers, p: Principal, customerId: string): (r: Result<CustomerRecord, CustomerError>)
    ensures r.Success? <==> ToCustomerId(p, customerId).Some? && ToCustomerId(p, customerId).value in cs
    ensures r.Success? ==> r.value == cs[ToCustomerId(p, customerId).value]
    ensures r.Failure? ==> r.error == CustomerNotFound
  {
    match ToCustomerId(p, customerId)
    case None => Failure(CustomerNotFound)
    case Some(id) => if id in cs then Success(cs[id]) else Failure(CustomerNotFound)
  }

  /** `readOneCustomer`: the resolved customer with 200. */
  function ReadOneCustomer(cs: Customers, p: Principal, customerId: string): (r: Result<(HttpStatus, CustomerRecord), CustomerError>)
    ensures r.Success? <==> ResolveCustomer(cs, p, customerId).Success?
    ensures r.Success? ==> r.value.0 == Ok && r.value.1 in cs.Values
    ensures p.CustomerPrincipal? && p.id in cs && customerId == "me" ==> r == Success((Ok, cs[p.id]))
  {
    match ResolveCustomer(cs, p, customerId)
    case Failure(e) => Failure(e)
    case Success(c) => Success((Ok, c))
  }

  /** `updateCustomerEmail`: the resolved customer gets the new address and
      nobody else changes. */
  function UpdateCustomerEmail(cs: Customers, p: Principal, customerId: string, email: string): (r: Result<Customers, CustomerError>)
    ensures r.Failure? <==> ResolveCustomer(cs, p, customerId).Failure?
    ensures r.Failure? ==> r.error == CustomerNotFound
    ensures r.Success? ==> r.value.Keys == cs.Keys
    ensures r.Success? ==> (
      var id := ToCustomerId(p, customerId).value;
      r.value[id] == cs[id].(email := Some(email))
      && forall k :: k in cs && k != id ==> r.value[k] == cs[k])
  {
    match ResolveCustomer(cs, p, customerId)
    case Failure(e) => Failure(e)
    case Success(c) =>
      var id := ToCustomerId(p, customerId).value;
      Success(cs[id := c.(email := Some(email))])
  }

  /** Reading a customer after updating its email shows the new address. */
  lemma UpdateThenReadEmail(cs: Customers, p: Principal, customerId: string, email: string)
    requires UpdateCustomerEmail(cs, p, customerId, email).Success?
    ensures ReadOneCustomer(UpdateCustomerEmail(cs, p, customerId, email).value, p, customerId).Success?
    ensures ReadOneCustomer(UpdateCustomerEmail(cs, p, customerId, email).value, p, customerId).value.1.email == Some(email)
  {
  }

  /** `readAllCustomers`: every customer for an administrator, in the order
      the customer service lists them (`all`, which holds exactly the stored
      customers); a customer sees itself (or nothing once it is gone); any
      other principal sees nothing. */
  function ReadAllCustomers(cs: Customers, all: seq<CustomerRecord>, p: Principal): (r: seq<CustomerRecord>)
    requires forall c :: c in all <==> c in cs.Values
    ensures p.AdminPrincipal? ==> r == all
    ensures p.AdminPrincipal? ==> forall id :: id in cs ==> cs[id] in r
    ensures forall k :: 0 <= k < |r| ==> r[k] in cs.Values
    ensures p.CustomerPrincipal? ==> |r| <= 1 && (|r| == 1 <==> p.id in cs)
    ensures p.CustomerPrincipal? ==> forall k :: 0 <= k < |r| ==> r[k] == cs[p.id]
    ensures p.OtherPrincipal? ==> r == []
  {
    match p
    case AdminPrincipal => all
    case CustomerPrincipal(id) => if id in cs then [cs[id]] else []
    case OtherPrincipal => []
  }

  /** Some customer already uses the username (`readCustomerByUsername`
      finds one). */
  predicate UsernameInUse(cs: Customers, username: string)
  {
    exists k :: k in cs && cs[k].username == Some(username)
  }

  /** Some customer already uses the email address. */
  predicate EmailInUse(cs: Customers, email: string)
  {
    exists k :: k in cs && cs[k].email == Some(email)
  }

  /** No two customers share a username. */
  predicate UniqueUsernames(cs: Customers)
  {
    forall a, b :: a in cs && b in cs && cs[a].username.Some? && cs[a].username == cs[b].username ==> a == b
  }

  /** `registerCustomer`: the logged-in customer must exist and not be
      registered yet, and neither the username nor the email may be in use;
      the checks run in that order. The customer is then registered with the
      username, email and password it gave. */
  function RegisterCustomer(cs: Customers, p: Principal, username: string, password: string,
                            passwordConfirm: string, email: string): (r: Result<Customers, CustomerError>)
    ensures !p.CustomerPrincipal? ==> r == Failure(NullPrincipal)
    ensures p.CustomerPrincipal? && (p.id !in cs || cs[p.id].registered) ==> r == Failure(AlreadyRegistered)
    ensures (p.CustomerPrincipal? && p.id in cs && !cs[p.id].registered && UsernameInUse(cs, username))
      ==> r == Failure(UsernameTaken)
    ensures (p.CustomerPrincipal? && p.id in cs && !cs[p.id].registered && !UsernameInUse(cs, username)
             && EmailInUse(cs, email)) ==> r == Failure(EmailTaken)
    ensures r.Success? <==> (p.CustomerPrincipal? && p.id in cs && !cs[p.id].registered
                             && !UsernameInUse(cs, username) && !EmailInUse(cs, email))
    ensures r.Success? ==> (
      r.value.Keys == cs.Keys
      && r.value[p.id].id == cs[p.id].id
      && r.value[p.id].username == Some(username) && r.value[p.id].email == Some(email)
      && r.value[p.id].password == Some(password) && r.value[p.id].registered
      && forall k :: k in cs && k != p.id ==> r.value[k] == cs[k])
  {
    match p
    case CustomerPrincipal(id) =>
      if id !in cs || cs[id].registered then Failure(AlreadyRegistered)
      else if UsernameInUse(cs, username) then Failure(UsernameTaken)
      else if EmailInUse(cs, email) then Failure(EmailTaken)
      else
        Success(cs[id := cs[id].(username := Some(username), email := Some(email),
                                 password := Some(password), registered := true)])
    case _ => Failure(NullPrincipal)
  }

  /** Registration never lets two customers share a username. */
  lemma {:induction false} RegisterKeepsUsernamesUnique(cs: Customers, p: Principal, username: string,
                                                       password: string, passwordConfirm: string, email: string)
    requires UniqueUsernames(cs)
    requires RegisterCustomer(cs, p, username, password, passwordConfirm, email).Success?
    ensures UniqueUsernames(RegisterCustomer(cs, p, username, password, passwordConfirm, email).value)
  {
    var cs' := RegisterCustomer(cs, p, username, password, passwordConfirm, email).value;
    forall a, b | a in cs' && b in cs' && cs'[a].username.Some? && cs'[a].username == cs'[b].username
      ensures a == b
    {
      if a == p.id && b != p.id {
        assert false;
      } else if b == p.id && a != p.id {
        assert false;
      }
    }
  }

  /** A second registration of the same customer is refused. */
  lemma RegisterTwice(cs: Customers, p: Principal, username: string, password: string, passwordConfirm: string,
                      email: string, username2: string, password2: string, passwordConfirm2: string, email2: string)
    requires RegisterCustomer(cs, p, username, password, passwordConfirm, email).Success?
    ensures RegisterCustomer(RegisterCustomer(cs, p, username, password, passwordConfirm, email).value,
                             p, username2, password2, passwordConfirm2, email2) == Failure(AlreadyRegistered)
  {
  }

  /** A customer's listing is what reading "me" gives: itself when it
      exists, nothing otherwise. */
  lemma ReadAllCustomersIsReadMe(cs: Customers, all: seq<CustomerRecord>, id: Id)
    requires forall c :: c in all <==> c in cs.Values
    ensures ReadOneCustomer(cs, CustomerPrincipal(id), "me").Success? ==>
      ReadAllCustomers(cs, all, CustomerPrincipal(id)) == [ReadOneCustomer(cs, CustomerPrincipal(id), "me").value.1]
    ensures ReadOneCustomer(cs, CustomerPrincipal(id), "me").Failure? ==>
      ReadAllCustomers(cs, all, CustomerPrincipal(id)) == []
  {
  }
}

=== FILE: media_converter.dfy ===
/** Conversion between media entities and their transfer objects: a full
    update that overwrites every field and a partial one that overwrites only
    the fields the transfer object carries. */
module MediaConverter {
  import opened Base
  import opened Catalog

  datatype MediaDto = MediaDto(title: Option<string>, tags: Option<string>, altText: Option<string>, url: Option<string>)

  /** A freshly constructed media entity, every field null. */
  const EmptyMedia := Media(None, None, None, None)

  /** The transfer object of a media entity. */
  function CreateDto(m: Media): (d: MediaDto)
    ensures d.title == m.title && d.tags == m.tags && d.altText == m.altText && d.url == m.url
  {
    MediaDto(m.title, m.tags, m.altText, m.url)
  }

  /** Full update: all four fields take the transfer object's values, nulls
      included, whatever the entity held before. */
  function UpdateEntity(m: Media, d: MediaDto): (r: Media)
    ensures r.title == d.title && r.tags == d.tags && r.altText == d.altText && r.url == d.url
  {
    Media(d.title, d.tags, d.altText, d.url)
  }

  function CreateEntity(d: MediaDto): Media
  {
    UpdateEntity(EmptyMedia, d)
  }

  /** Overwrites a field only when the new value is present. */
  function Overwrite(current: Option<string>, given: Option<string>): (r: Option<string>)
    ensures given.Some? ==> r == given
    ensures given.None? ==> r == current
  {
    if given.Some? then given else current
  }

  /** Partial update: only the fields the transfer object carries change. */
  function PartialUpdateEntity(m: Media, d: MediaDto): (r: Media)
    ensures d.title.Some? ==> r.title == d.title
    ensures d.title.None? ==> r.title == m.title
    ensures d.tags.Some? ==> r.tags == d.tags
    ensures d.tags.None? ==> r.tags == m.tags
    ensures d.altText.Some? ==> r.altText == d.altText
    ensures d.altText.None? ==> r.altText == m.altText
    ensures d.url.Some? ==> r.url == d.url
    ensures d.url.None? ==> r.url == m.url
  {
    Media(Overwrite(m.title, d.title), Overwrite(m.tags, d.tags), Overwrite(m.altText, d.altText), Overwrite(m.url, d.url))
  }

  /** The transfer object of an updated entity is exactly the one applied:
      whatever the entity held before is forgotten. */
  lemma UpdateThenCreateDto(m: Media, d: MediaDto)
    ensures CreateDto(UpdateEntity(m, d)) == d
  {
  }

  /** Converting an entity to a transfer object and back loses nothing. */
  lemma CreateDtoThenEntity(m: Media)
    ensures CreateEntity(CreateDto(m)) == m
  {
  }

  /** A transfer object without fields leaves the entity as it was. */
  lemma PartialUpdateEmpty(m: Media)
    ensures PartialUpdateEntity(m, MediaDto(None, None, None, None)) == m
  {
  }

  /** Applying the same partial update twice is applying it once. */
  lemma PartialUpdateIdempotent(m: Media, d: MediaDto)
    ensures PartialUpdateEntity(PartialUpdateEntity(m, d), d) == PartialUpdateEntity(m, d)
  {
  }

  /** With every field present, the partial update is the full update. */
  lemma PartialUpdateOfCompleteDto(m: Media, d: MediaDto)
    requires d.title.Some? && d.tags.Some? && d.altText.Some? && d.url.Some?
    ensures PartialUpdateEntity(m, d) == UpdateEntity(m, d)
  {
  }

  /** A partial update never loses a field that was set and is not replaced. */
  lemma PartialUpdateKeepsPresent(m: Media, d: MediaDto)
    ensures m.title.Some? ==> PartialUpdateEntity(m, d).title.Some?
    ensures m.tags.Some? ==> PartialUpdateEntity(m, d).tags.Some?
    ensures m.altText.Some? ==> PartialUpdateEntity(m, d).altText.Some?
    ensures m.url.Some? ==> PartialUpdateEntity(m, d).url.Some?
  {
  }
}

=== FILE: order_access.dfy ===
/** Who may see which order. Both order service proxies resolve the orders of
    a principal and the "proper cart" the same way: an administrator sees
    every order, a customer only its own, any other principal nothing. */
module OrderAccess {
  import opened Base

  datatype OrderItem = OrderItem(id: Id, quantity: int)

  /** An order: its id, owner, item count, discrete items and the first
      shippable fulfillment group's selected option, if any. */
  datatype Order = Order(id: Id, customer: Id, itemCount: int, items: seq<OrderItem>, fulfillmentOption: Option<Id>)

  /** The exceptions the proxies throw. */
  datatype OrderError = CustomerNotFound | OrderNotFound | ResourceNotFound | FulfillmentOptionNotAllowed

  /** The item quantity update handed on to Broadleaf's order service. */
  datatype QuantityRequest = QuantityRequest(orderId: Id, itemId: Id, quantity: int)

  /** The persistent state: the registered customers and all orders in the
      order the database lists them. */
  datatype OrderStore = OrderStore(customers: set<Id>, orders: seq<Order>)

  /** `findOrdersForCustomer`: the customer's orders, in listing order. */
  function OrdersOf(orders: seq<Order>, customer: Id): (r: seq<Order>)
    ensures |r| <= |orders|
    ensures forall k :: 0 <= k < |r| ==> r[k].customer == customer
  {
    if |orders| == 0 then []
    else (if orders[0].customer == customer then [orders[0]] else []) + OrdersOf(orders[1..], customer)
  }

  lemma {:induction false} OrdersOfMember(orders: seq<Order>, customer: Id, o: Order)
    ensures o in OrdersOf(orders, customer) <==> o in orders && o.customer == customer
  {
    if |orders| > 0 {
      OrdersOfMember(orders[1..], customer, o);
      assert o in orders <==> orders[0] == o || o in orders[1..];
    }
  }

  /** The first order of `orders` with the id (`findAny` on a sequential
      stream, or the lookup by primary key). */
  function FindOrder(orders: seq<Order>, id: Id): (r: Option<Order>)
    ensures r.Some? ==> r.value in orders && r.value.id == id
    ensures r.None? <==> forall k :: 0 <= k < |orders| ==> orders[k].id != id
    ensures r.Some? ==> exists k :: 0 <= k < |orders| && orders[k] == r.value && forall j :: 0 <= j < k ==> orders[j].id != id
  {
    if |orders| == 0 then None
    else if orders[0].id == id then Some(orders[0])
    else
      var r := FindOrder(orders[1..], id);
      if r.Some? then
        var k :| 0 <= k < |orders[1..]| && orders[1..][k] == r.value && forall j :: 0 <= j < k ==> orders[1..][j].id != id;
        assert orders[k + 1] == r.value;
        assert forall j :: 0 <= j < k + 1 ==> orders[j].id != id by {
          forall j | 0 < j < k + 1 ensures orders[j].id != id {
            assert orders[j] == orders[1..][j - 1];
          }
        }
        r
      else r
  }

  /** `getOrdersByCustomer`: all orders for an administrator; the customer's
      own orders for a registered customer, "customer not found" for an
      unknown one; nothing for anyone else. */
  function GetOrdersByCustomer(st: OrderStore, p: Principal): (r: Result<seq<Order>, OrderError>)
    ensures p.AdminPrincipal? ==> r == Success(st.orders)
    ensures p.OtherPrincipal? ==> r == Success([])
    ensures p.CustomerPrincipal? ==> (r.Failure? <==> p.id !in st.customers)
    ensures r.Failure? ==> r.error == CustomerNotFound
    ensures p.CustomerPrincipal? && r.Success? ==> forall k :: 0 <= k < |r.value| ==> r.value[k].customer == p.id
  {
    match p
    case AdminPrincipal => Success(st.orders)
    case CustomerPrincipal(id) => if id in st.customers then Success(OrdersOf(st.orders, id)) else Failure(CustomerNotFound)
    case OtherPrincipal => Success([])
  }

  /** A registered customer is shown exactly its own orders. */
  lemma GetOrdersByCustomerOwn(st: OrderStore, customer: Id, o: Order)
    requires customer in st.customers
    ensures o in GetOrdersByCustomer(st, CustomerPrincipal(customer)).value <==> o in st.orders && o.customer == customer
  {
    OrdersOfMember(st.orders, customer, o);
  }

  /** `getOrderForCustomerById`: the customer's order with that id; an
      unknown customer or an order that is not the customer's is an error. */
  function GetOrderForCustomerById(st: OrderStore, customer: Id, orderId: Id): (r: Result<Order, OrderError>)
    ensures customer !in st.customers ==> r == Failure(CustomerNotFound)
    ensures customer in st.customers ==>
      (r.Success? <==> exists k :: 0 <= k < |st.orders| && st.orders[k].id == orderId && st.orders[k].customer == customer)
    ensures customer in st.customers && r.Failure? ==> r.error == OrderNotFound
    ensures r.Success? ==> r.value in st.orders && r.value.id == orderId && r.value.customer == customer
  {
    match GetOrdersByCustomer(st, CustomerPrincipal(customer))
    case Failure(e) => Failure(e)
    case Success(own) =>
      match FindOrder(own, orderId)
      case Some(o) =>
        OrdersOfMember(st.orders, customer, o);
        Success(o)
      case None =>
        forall k | 0 <= k < |st.orders| && st.orders[k].id == orderId
          ensures st.orders[k].customer != customer
        {
          OrdersOfMember(st.orders, customer, st.orders[k]);
        }
        Failure(OrderNotFound)
  }

  /** `getProperCart`: for a customer its own order with that id (or the
      lookup's error), for an administrator any order with that id, for
      anyone else no cart. */
  function GetProperCart(st: OrderStore, p: Principal, orderId: Id): (r: Result<Option<Order>, OrderError>)
    ensures p.CustomerPrincipal? ==> r.Success? == GetOrderForCustomerById(st, p.id, orderId).Success?
    ensures p.CustomerPrincipal? && r.Success? ==> r.value == Some(GetOrderForCustomerById(st, p.id, orderId).value)
    ensures p.CustomerPrincipal? && r.Failure? ==> r.error == GetOrderForCustomerById(st, p.id, orderId).error
    ensures p.AdminPrincipal? ==> r == Success(FindOrder(st.orders, orderId))
    ensures p.OtherPrincipal? ==> r == Success(None)
  {
    match p
    case CustomerPrincipal(id) =>
      (match GetOrderForCustomerById(st, id, orderId)
       case Success(o) => Success(Some(o))
       case Failure(e) => Failure(e))
    case AdminPrincipal => Success(FindOrder(st.orders, orderId))
    case OtherPrincipal => Success(None)
  }

  /** A customer never receives another customer's cart, and a resolved cart
      always carries the requested id. */
  lemma ProperCartIsOwned(st: OrderStore, p: Principal, orderId: Id)
    requires GetProperCart(st, p, orderId).Success? && GetProperCart(st, p, orderId).value.Some?
    ensures GetProperCart(st, p, orderId).value.value.id == orderId
    ensures GetProperCart(st, p, orderId).value.value in st.orders
    ensures p.CustomerPrincipal? ==> GetProperCart(st, p, orderId).value.value.customer == p.id
    ensures !p.OtherPrincipal?
  {
  }

  /** `getDiscreteOrderItemsFromProperCart`: the items of the proper cart;
      no cart is "resource not found". */
  function GetDiscreteOrderItems(st: OrderStore, p: Principal, orderId: Id): (r: Result<seq<OrderItem>, OrderError>)
    ensures GetProperCart(st, p, orderId).Failure? ==> r == Failure(GetProperCart(st, p, orderId).error)
    ensures GetProperCart(st, p, orderId) == Success(None) ==> r == Failure(ResourceNotFound)
    ensures r.Success? <==> GetProperCart(st, p, orderId).Success? && GetProperCart(st, p, orderId).value.Some?
    ensures r.Success? ==> r.value == GetProperCart(st, p, orderId).value.value.items
    ensures p.OtherPrincipal? ==> r == Failure(ResourceNotFound)
  {
    match GetProperCart(st, p, orderId)
    case Failure(e) => Failure(e)
    case Success(None) => Failure(ResourceNotFound)
    case Success(Some(o)) => Success(o.items)
  }

  /** A successful item listing is the item list of a stored order with the
      requested id that the caller may see: any order for an administrator,
      only its own for a customer, none for anyone else. */
  lemma DiscreteItemsOfVisibleOrder(st: OrderStore, p: Principal, orderId: Id)
    requires GetDiscreteOrderItems(st, p, orderId).Success?
    ensures !p.OtherPrincipal?
    ensures exists o :: (o in st.orders && o.id == orderId && o.items == GetDiscreteOrderItems(st, p, orderId).value
      && (p.CustomerPrincipal? ==> o.customer == p.id))
  {
    var o := GetProperCart(st, p, orderId).value.value;
    ProperCartIsOwned(st, p, orderId);
    assert o in st.orders;
  }

  /** The number of items whose id matches `itemId` under the comparison
      `same`. */
  function CountMatching(items: seq<OrderItem>, itemId: Id, same: (Id, Id) -> bool): (n: nat)
    ensures n <= |items|
    ensures n == 0 <==> forall k :: 0 <= k < |items| ==> !same(items[k].id, itemId)
  {
    if |items| == 0 then 0
    else (if same(items[0].id, itemId) then 1 else 0) + CountMatching(items[1..], itemId, same)
  }

  /** Exactly one item of `items` carries the id. */
  predicate UniqueItem(items: seq<OrderItem>, itemId: Id)
  {
    exists k :: 0 <= k < |items| && items[k].id == itemId
      && forall j :: 0 <= j < |items| && j != k ==> items[j].id != itemId
  }

  /** Counting by value equality finds exactly one match precisely when
      exactly one item carries the id. */
  lemma {:induction false} CountMatchingOne(items: seq<OrderItem>, itemId: Id)
    ensures CountMatching(items, itemId, ObjectsEquals) == 1 <==> UniqueItem(items, itemId)
  {
    if |items| > 0 {
      if items[0].id == itemId {
        UniqueItemHead(items, itemId);
      } else {
        CountMatchingOne(items[1..], itemId);
        UniqueItemTail(items, itemId);
      }
    }
  }

  /** When the first item carries the id, it is the unique one exactly when
      no later item does. */
  lemma UniqueItemHead(items: seq<OrderItem>, itemId: Id)
    requires |items| > 0 && items[0].id == itemId
    ensures CountMatching(items, itemId, ObjectsEquals) == 1 <==> UniqueItem(items, itemId)
  {
    var t := items[1..];
    assert CountMatching(items, itemId, ObjectsEquals) == 1 + CountMatching(t, itemId, ObjectsEquals);
    if UniqueItem(items, itemId) {
      var k :| 0 <= k < |items| && items[k].id == itemId
        && forall j :: 0 <= j < |items| && j != k ==> items[j].id != itemId;
      assert k == 0;
      forall j | 0 <= j < |t| ensures !ObjectsEquals(t[j].id, itemId) {
        assert t[j] == items[j + 1];
      }
    }
    if CountMatching(t, itemId, ObjectsEquals) == 0 {
      forall j | 0 <= j < |items| && j != 0 ensures items[j].id != itemId {
        assert items[j] == t[j - 1];
        assert !ObjectsEquals(t[j - 1].id, itemId);
      }
      assert items[0].id == itemId;
    }
  }

  /** An item without the id in front changes nothing. */
  lemma UniqueItemTail(items: seq<OrderItem>, itemId: Id)
    requires |items| > 0 && items[0].id != itemId
    ensures CountMatching(items, itemId, ObjectsEquals) == CountMatching(items[1..], itemId, ObjectsEquals)
    ensures UniqueItem(items, itemId) <==> UniqueItem(items[1..], itemId)
  {
    var t := items[1..];
    if UniqueItem(items, itemId) {
      var k :| 0 <= k < |items| && items[k].id == itemId
        && forall j :: 0 <= j < |items| && j != k ==> items[j].id != itemId;
      assert t[k - 1] == items[k];
      forall j | 0 <= j < |t| && j != k - 1 ensures t[j].id != itemId {
        assert t[j] == items[j + 1];
      }
    }
    if UniqueItem(t, itemId) {
      var k :| 0 <= k < |t| && t[k].id == itemId
        && forall j :: 0 <= j < |t| && j != k ==> t[j].id != itemId;
      assert items[k + 1] == t[k];
      forall j | 0 <= j < |items| && j != k + 1 ensures items[j].id != itemId {
        if j > 0 {
          assert items[j] == t[j - 1];
        }
      }
    }
  }

  /** `Objects.equals` on two boxed ids: value equality. */
  function ObjectsEquals(a: Id, b: Id): bool
  {
    a == b
  }

  /** `==` on two boxed `Long` ids: reference identity. Both sides are boxed
      through `Long.valueOf`, which hands out shared instances only for
      values from -128 to 127; any other value gets a fresh object. */
  function LongIdentical(a: Id, b: Id): (r: bool)
    ensures r ==> a == b
    ensures r <==> a == b && -128 <= a <= 127
  {
    a == b && -128 <= a <= 127
  }

  /** Identity agrees with equality on cached values and never matches
      anything else. */
  lemma {:induction false} CountMatchingIdentity(items: seq<OrderItem>, itemId: Id)
    ensures -128 <= itemId <= 127 ==> CountMatching(items, itemId, LongIdentical) == CountMatching(items, itemId, ObjectsEquals)
    ensures !(-128 <= itemId <= 127) ==> CountMatching(items, itemId, LongIdentical) == 0
  {
    if |items| > 0 {
      CountMatchingIdentity(items[1..], itemId);
    }
  }
}

=== FILE: order_service.dfy ===
/** The order-side order service proxy. It shares the access rules of
    `OrderAccess`; its quantity update compares ids by value and has no
    quantity check (that check is commented out). */
module OrderService {
  import opened Base
  import opened OrderAccess
  import CartOrderService

  /** `updateItemQuantityInOrder`: the proper cart must exist and exactly
      one of its items must carry the id; the quantity is passed on as
      given, zero and negative included. */
  function UpdateItemQuantityInOrder(st: OrderStore, quantity: int, p: Principal, orderId: Id, itemId: Id): (r: Result<QuantityRequest, OrderError>)
    ensures GetProperCart(st, p, orderId).Failure? ==> r == Failure(GetProperCart(st, p, orderId).error)
    ensures GetProperCart(st, p, orderId) == Success(None) ==> r == Failure(ResourceNotFound)
    ensures r.Success? <==>
      GetProperCart(st, p, orderId).Success? && GetProperCart(st, p, orderId).value.Some? &&
      CountMatching(GetProperCart(st, p, orderId).value.value.items, itemId, ObjectsEquals) == 1
    ensures r.Success? ==> r.value == QuantityRequest(orderId, itemId, quantity)
  {
    match GetProperCart(st, p, orderId)
    case Failure(e) => Failure(e)
    case Success(None) => Failure(ResourceNotFound)
    case Success(Some(cart)) =>
      if CountMatching(cart.items, itemId, ObjectsEquals) != 1 then Failure(ResourceNotFound)
      else Success(QuantityRequest(orderId, itemId, quantity))
  }

  /** For a positive quantity both proxies decide alike and hand on the same
      request, once the cart proxy compares ids by value; for any other
      quantity only the cart proxy refuses. */
  lemma UpdateItemQuantityProxiesAgree(st: OrderStore, quantity: int, p: Principal, orderId: Id, itemId: Id)
    ensures quantity > 0 ==>
      (UpdateItemQuantityInOrder(st, quantity, p, orderId, itemId).Success? <==>
       CartOrderService.UpdateItemQuantity(st, quantity, p, orderId, itemId).Success?)
    ensures quantity > 0 && UpdateItemQuantityInOrder(st, quantity, p, orderId, itemId).Success? ==>
      CartOrderService.UpdateItemQuantity(st, quantity, p, orderId, itemId).value.request
        == Some(UpdateItemQuantityInOrder(st, quantity, p, orderId, itemId).value)
    ensures quantity <= 0 ==> CartOrderService.UpdateItemQuantity(st, quantity, p, orderId, itemId).value.status == Conflict
  {
  }
}

=== FILE: order_validation.dfy ===
/** The checks an order passes before checkout, in their fixed order: it has
    items, its first shippable fulfillment group has an option, and that
    group has a complete address. The first failing check decides. */
module OrderValidation {
  import opened Base

  /** A shipping address; every field may be null. */
  datatype Address = Address(
    firstName: Option<string>,
    lastName: Option<string>,
    addressLine1: Option<string>,
    postalCode: Option<string>,
    city: Option<string>,
    isoCountryAlpha2: Option<string>)

  /** The first shippable fulfillment group: its option and its address. */
  datatype FulfillmentGroup = FulfillmentGroup(fulfillmentOption: Option<Id>, address: Option<Address>)

  /** What the checks read of an order. */
  datatype CheckoutOrder = CheckoutOrder(itemCount: int, firstShippableGroup: Option<FulfillmentGroup>)

  /** The exception a failing check throws; the address checks all throw an
      order validation exception, distinguished here by their message. */
  datatype ValidationError =
    | OrderEmpty
    | NoFulfillmentOption
    | NoShippingAddress
    | MissingName
    | MissingAddressLine
    | MissingPostalCodeOrCity
    | MissingCountry

  /** `validateCustomerDataInAddress`: names, then the first address line,
      then postal code and city, then the country. */
  function ValidateAddress(a: Address): (r: Option<ValidationError>)
    ensures r == None <==> (!NullOrEmpty(a.firstName) && !NullOrEmpty(a.lastName) && !NullOrEmpty(a.addressLine1)
                            && !NullOrEmpty(a.postalCode) && !NullOrEmpty(a.city) && a.isoCountryAlpha2.Some?)
    ensures NullOrEmpty(a.firstName) || NullOrEmpty(a.lastName) ==> r == Some(MissingName)
    ensures r.Some? ==> r.value in {MissingName, MissingAddressLine, MissingPostalCodeOrCity, MissingCountry}
  {
    if NullOrEmpty(a.firstName) || NullOrEmpty(a.lastName) then Some(MissingName)
    else if NullOrEmpty(a.addressLine1) then Some(MissingAddressLine)
    else if NullOrEmpty(a.postalCode) || NullOrEmpty(a.city) then Some(MissingPostalCodeOrCity)
    else if a.isoCountryAlpha2.None? then Some(MissingCountry)
    else None
  }

  /** `validateOrderBeforeCheckout`: `None` when the order may be checked out. */
  function ValidateOrderBeforeCheckout(o: CheckoutOrder): (r: Option<ValidationError>)
    ensures o.itemCount <= 0 ==> r == Some(OrderEmpty)
    ensures o.itemCount > 0 && (o.firstShippableGroup.None? || o.firstShippableGroup.value.fulfillmentOption.None?)
      ==> r == Some(NoFulfillmentOption)
    ensures (o.itemCount > 0 && o.firstShippableGroup.Some? && o.firstShippableGroup.value.fulfillmentOption.Some?
             && o.firstShippableGroup.value.address.None?) ==> r == Some(NoShippingAddress)
    ensures r == None <==> (o.itemCount > 0 && o.firstShippableGroup.Some? && o.firstShippableGroup.value.fulfillmentOption.Some?
                            && o.firstShippableGroup.value.address.Some? && ValidateAddress(o.firstShippableGroup.value.address.value) == None)
  {
    if o.itemCount <= 0 then Some(OrderEmpty)
    else if o.firstShippableGroup.None? || o.firstShippableGroup.value.fulfillmentOption.None? then Some(NoFulfillmentOption)
    else if o.firstShippableGroup.value.address.None? then Some(NoShippingAddress)
    else ValidateAddress(o.firstShippableGroup.value.address.value)
  }

  /** Reference definition: every check that fails, in the order the checks
      are listed, whether or not an earlier one already failed. */
  function AllFailures(o: CheckoutOrder): seq<ValidationError>
  {
    var g := o.firstShippableGroup;
    var a := if g.Some? then g.value.address else None;
    (if o.itemCount <= 0 then [OrderEmpty] else [])
    + (if g.None? || g.value.fulfillmentOption.None? then [NoFulfillmentOption] else [])
    + (if a.None? then [NoShippingAddress] else [])
    + (if a.Some? && (NullOrEmpty(a.value.firstName) || NullOrEmpty(a.value.lastName)) then [MissingName] else [])
    + (if a.Some? && NullOrEmpty(a.value.addressLine1) then [MissingAddressLine] else [])
    + (if a.Some? && (NullOrEmpty(a.value.postalCode) || NullOrEmpty(a.value.city)) then [MissingPostalCodeOrCity] else [])
    + (if a.Some? && a.value.isoCountryAlpha2.None? then [MissingCountry] else [])
  }

  /** The validation reports the first of all failing checks, and passes
      exactly when none fails. */
  lemma FirstFailureWins(o: CheckoutOrder)
    ensures ValidateOrderBeforeCheckout(o) == None <==> |AllFailures(o)| == 0
    ensures |AllFailures(o)| > 0 ==> ValidateOrderBeforeCheckout(o) == Some(AllFailures(o)[0])
  {
  }
}

=== FILE: product_controller.dfy ===
/** The product endpoints: search paging, bundles, archiving, the attribute
    map, the category count and the SKU sub-resources. Every product-scoped
    request first looks the product up and answers "not found" when it is
    missing or archived. */
module ProductController {
  import opened Base
  import opened CatalogUtils
  import opened Catalog
  import CategoryController

  // ---------------------------------------------------------------------------
  // Search paging

  datatype SearchPage = SearchPage(page: int, pageSize: int)

  /** The page and page size handed to the search service: a page of zero or
      less becomes the first page; a page size of zero or less becomes the
      configured default, any other is capped by the configured maximum. */
  function NormalizePaging(page: int, pageSize: int, defaultPageSize: int, maxPageSize: int): (r: SearchPage)
    ensures r.page >= 1
    ensures page > 0 ==> r.page == page
    ensures pageSize <= 0 ==> r.pageSize == defaultPageSize
    ensures pageSize > 0 ==> r.pageSize <= pageSize && r.pageSize <= maxPageSize
    ensures pageSize > 0 ==> r.pageSize == pageSize || r.pageSize == maxPageSize
  {
    SearchPage(if page <= 0 then 1 else page, if pageSize <= 0 then defaultPageSize else Min(pageSize, maxPageSize))
  }

  /** With a sensible configuration the page size ends up between 1 and the
      maximum, and normalising an already normalised request changes nothing. */
  lemma NormalizePagingStable(page: int, pageSize: int, defaultPageSize: int, maxPageSize: int)
    requires 0 < defaultPageSize <= maxPageSize
    ensures var r := NormalizePaging(page, pageSize, defaultPageSize, maxPageSize);
      1 <= r.pageSize <= maxPageSize &&
      NormalizePaging(r.page, r.pageSize, defaultPageSize, maxPageSize) == r
  {
  }

  // ---------------------------------------------------------------------------
  // Bundles and archiving

  /** `hasDuplicates`: some product that is not archived carries the name. */
  predicate HasDuplicates(s: Store, name: string)
  {
    exists id :: id in s.products && s.products[id].name == name && ProductVisible(s, id)
  }

  /** The bundle items whose SKU exists, in order. */
  function KnownItems(items: seq<Id>, knownSkus: set<Id>): (r: seq<Id>)
    ensures |r| <= |items|
    ensures forall k :: 0 <= k < |r| ==> r[k] in knownSkus
    ensures forall x :: x in r <==> x in items && x in knownSkus
  {
    if |items| == 0 then []
    else (if items[0] in knownSkus then [items[0]] else []) + KnownItems(items[1..], knownSkus)
  }

  /** No item is dropped exactly when every item's SKU exists, and then the
      kept items are the given ones. */
  lemma {:induction false} KnownItemsAll(items: seq<Id>, knownSkus: set<Id>)
    ensures |KnownItems(items, knownSkus)| == |items| <==> forall k :: 0 <= k < |items| ==> items[k] in knownSkus
    ensures |KnownItems(items, knownSkus)| == |items| ==> KnownItems(items, knownSkus) == items
  {
    if |items| > 0 {
      KnownItemsAll(items[1..], knownSkus);
      assert forall k :: 1 <= k < |items| ==> items[k] == items[1..][k - 1];
    }
  }

  /** `createNewBundle`: a name already used by a product that is not
      archived, or prices the price validator rejects, make a bad request;
      an item whose SKU does not exist makes a conflict; otherwise the bundle
      (`created`, built by the product converter) is stored under a fresh id
      with its items. */
  function CreateNewBundle(s: Store, name: string, pricesValid: bool, items: seq<Id>, knownSkus: set<Id>, created: Product, freshId: Id): (r: Reply)
    requires freshId !in s.products
    ensures r.status == BadRequest <==> HasDuplicates(s, name) || !pricesValid
    ensures r.status == Conflict <==> !HasDuplicates(s, name) && pricesValid && exists k :: 0 <= k < |items| && items[k] !in knownSkus
    ensures r.status != Created ==> r.store == s
    ensures r.status == Created ==>
      r.store.products == s.products[freshId := created.(bundleItems := items)] &&
      r.store.categories == s.categories && r.store.productXrefs == s.productXrefs && r.store.categoryXrefs == s.categoryXrefs
    ensures r.status in {BadRequest, Conflict, Created}
  {
    KnownItemsAll(items, knownSkus);
    if HasDuplicates(s, name) then Reply(BadRequest, s)
    else if !pricesValid then Reply(BadRequest, s)
    else
      var kept := KnownItems(items, knownSkus);
      if |kept| != |items| then Reply(Conflict, s)
      else Reply(Created, s.(products := s.products[freshId := created.(bundleItems := kept)]))
  }

  /** A bundle created under a name cannot be created again while it is not
      archived. */
  lemma CreateNewBundleTwice(s: Store, pricesValid: bool, items: seq<Id>, knownSkus: set<Id>, created: Product, freshId: Id, otherId: Id)
    requires freshId !in s.products
    requires CreateNewBundle(s, created.name, pricesValid, items, knownSkus, created, freshId).status == Created
    requires created.archived != 'Y'
    requires otherId !in CreateNewBundle(s, created.name, pricesValid, items, knownSkus, created, freshId).store.products
    ensures CreateNewBundle(CreateNewBundle(s, created.name, pricesValid, items, knownSkus, created, freshId).store,
                            created.name, pricesValid, items, knownSkus, created, otherId).status == BadRequest
  {
    var s1 := CreateNewBundle(s, created.name, pricesValid, items, knownSkus, created, freshId).store;
    assert s1.products[freshId].name == created.name && ProductVisible(s1, freshId);
  }

  /** Archiving a product frees its name exactly when no other product that
      is not archived carries it. */
  lemma RemovedProductFreesName(s: Store, id: Id, name: string)
    requires RemoveOneProduct(s, id).status == NoContent
    ensures HasDuplicates(RemoveOneProduct(s, id).store, name) <==>
      exists q :: q != id && ProductVisible(s, q) && s.products[q].name == name
  {
    var s1 := RemoveOneProduct(s, id).store;
    if HasDuplicates(s1, name) {
      var q :| q in s1.products && s1.products[q].name == name && ProductVisible(s1, q);
      assert q != id;
    }
    if exists q :: q != id && ProductVisible(s, q) && s.products[q].name == name {
      var q :| q != id && ProductVisible(s, q) && s.products[q].name == name;
      assert s1.products[q] == s.products[q];
    }
  }

  /** `removeOneProductById`: a visible product is archived, which also makes
      it inactive; the catalog keeps it and its references. */
  function RemoveOneProduct(s: Store, id: Id): (r: Reply)
    ensures r.status == NoContent <==> ProductVisible(s, id)
    ensures r.status != NoContent ==> r.status == NotFound && r.store == s
    ensures r.status == NoContent ==> !ProductVisible(r.store, id) && r.store.products.Keys == s.products.Keys
    ensures forall q :: q != id ==> (ProductVisible(r.store, q) <==> ProductVisible(s, q))
    ensures r.store.categories == s.categories
    ensures r.store.categoryXrefs == s.categoryXrefs && r.store.productXrefs == s.productXrefs
  {
    if !ProductVisible(s, id) then Reply(NotFound, s)
    else Reply(NoContent, s.(products := s.products[id := s.products[id].(archived := 'Y', active := false)]))
  }

  /** An archived product cannot be archived again, is no longer listed in
      any category and cannot be inserted into one. */
  lemma RemovedProductIsGone(s: Store, id: Id, category: Id, href: Option<string>)
    requires RemoveOneProduct(s, id).status == NoContent
    requires CategoryController.HrefId(href) == Success(id)
    ensures RemoveOneProduct(RemoveOneProduct(s, id).store, id).status == NotFound
    ensures CategoryController.ReadProductsFromCategory(RemoveOneProduct(s, id).store, category).Failure?
      || id !in CategoryController.ReadProductsFromCategory(RemoveOneProduct(s, id).store, category).value
    ensures CategoryController.InsertProduct(RemoveOneProduct(s, id).store, category, href).status == NotFound
  {
    var s1 := RemoveOneProduct(s, id).store;
    if CategoryVisible(s1, category) {
      VisibleProductsMember(s1, ProductIds(s1, category), id);
    }
  }

  // ---------------------------------------------------------------------------
  // Attributes

  /** Stores `p` as product `id`. */
  function WithProduct(s: Store, id: Id, p: Product): Store
  {
    s.(products := s.products[id := p])
  }

  /** The attribute map of a visible product. */
  function GetAttributes(s: Store, id: Id): (r: Result<map<string, string>, HttpStatus>)
    ensures r.Failure? <==> !ProductVisible(s, id)
    ensures r.Failure? ==> r.error == NotFound
    ensures r.Success? ==> r.value == s.products[id].attributes
  {
    if !ProductVisible(s, id) then Failure(NotFound) else Success(s.products[id].attributes)
  }

  /** `addOneProductByIdAttribute`: a missing or empty name or value is a bad
      request before the lookup; otherwise the value is stored under the
      name, replacing any previous one. */
  function AddAttribute(s: Store, id: Id, name: Option<string>, value: Option<string>): (r: Reply)
    ensures NullOrEmpty(name) || NullOrEmpty(value) ==> r == Reply(BadRequest, s)
    ensures !NullOrEmpty(name) && !NullOrEmpty(value) && !ProductVisible(s, id) ==> r == Reply(NotFound, s)
    ensures !NullOrEmpty(name) && !NullOrEmpty(value) && ProductVisible(s, id) ==>
      r.status == Created &&
      r.store == WithProduct(s, id, s.products[id].(attributes := s.products[id].attributes[name.value := value.value]))
  {
    if NullOrEmpty(name) || NullOrEmpty(value) then Reply(BadRequest, s)
    else if !ProductVisible(s, id) then Reply(NotFound, s)
    else
      var p := s.products[id];
      Reply(Created, WithProduct(s, id, p.(attributes := p.attributes[name.value := value.value])))
  }

  /** `removeOneProductByIdAttribute`: the product must be visible and have
      the attribute; only that key is removed. */
  function DeleteAttribute(s: Store, id: Id, name: string): (r: Reply)
    ensures r.status == NoContent <==> ProductVisible(s, id) && name in s.products[id].attributes
    ensures r.status != NoContent ==> r == Reply(NotFound, s)
    ensures r.status == NoContent ==>
      r.store == WithProduct(s, id, s.products[id].(attributes := s.products[id].attributes - {name}))
  {
    if !ProductVisible(s, id) then Reply(NotFound, s)
    else if name !in s.products[id].attributes then Reply(NotFound, s)
    else
      var p := s.products[id];
      Reply(NoContent, WithProduct(s, id, p.(attributes := p.attributes - {name})))
  }

  /** After an attribute is added, reading the attributes shows the new
      value under its name and every other attribute unchanged. */
  lemma AddThenGetAttribute(s: Store, id: Id, name: string, value: string)
    requires |name| > 0 && |value| > 0 && ProductVisible(s, id)
    ensures var a := GetAttributes(AddAttribute(s, id, Some(name), Some(value)).store, id);
      a.Success? && name in a.value && a.value[name] == value &&
      forall k :: k != name ==> ((k in a.value <==> k in s.products[id].attributes) &&
                                (k in a.value ==> a.value[k] == s.products[id].attributes[k]))
  {
  }

  /** An added attribute can be deleted; deleting it again is "not found". */
  lemma AddThenDeleteAttribute(s: Store, id: Id, name: string, value: string)
    requires |name| > 0 && |value| > 0 && ProductVisible(s, id)
    ensures var s1 := AddAttribute(s, id, Some(name), Some(value)).store;
      DeleteAttribute(s1, id, name).status == NoContent &&
      name !in GetAttributes(DeleteAttribute(s1, id, name).store, id).value &&
      DeleteAttribute(DeleteAttribute(s1, id, name).store, id, name).status == NotFound
  {
  }

  // ---------------------------------------------------------------------------
  // Category count

  /** `getCategoriesByProductCount`: the number of the product's references
      whose category is not archived. */
  function CategoryCount(s: Store, id: Id): (r: Result<nat, HttpStatus>)
    ensures r.Failure? <==> !ProductVisible(s, id)
    ensures r.Failure? ==> r.error == NotFound
    ensures r.Success? ==> r.value == |VisibleCategories(s, CategoryIdsOf(s, id))| && r.value <= |CategoryIdsOf(s, id)|
  {
    if !ProductVisible(s, id) then Failure(NotFound) else Success(|VisibleCategories(s, CategoryIdsOf(s, id))|)
  }

  /** Hiding one category from the filter removes exactly its occurrences. */
  lemma {:induction false} VisibleCategoriesHide(s: Store, t: Store, ids: seq<Id>, c: Id)
    requires CategoryVisible(s, c) && !CategoryVisible(t, c)
    requires forall x :: x != c ==> (CategoryVisible(t, x) <==> CategoryVisible(s, x))
    ensures |VisibleCategories(t, ids)| == |VisibleCategories(s, ids)| - Count(ids, c)
  {
    if |ids| > 0 {
      VisibleCategoriesHide(s, t, ids[1..], c);
      assert Count(ids, c) == (if ids[0] == c then 1 else 0) + Count(ids[1..], c);
    }
  }

  /** Archiving one of the product's categories lowers the count by one,
      provided the reference table holds no duplicate rows. */
  lemma ArchivingCategoryDecrementsCount(s: Store, product: Id, category: Id)
    requires WellFormed(s) && ProductVisible(s, product) && CategoryVisible(s, category)
    requires Xref(category, product) in s.productXrefs
    ensures CategoryCount(CategoryController.RemoveOneCategory(s, category).store, product).value
         == CategoryCount(s, product).value - 1
  {
    var t := CategoryController.RemoveOneCategory(s, category).store;
    VisibleCategoriesHide(s, t, CategoryIdsOf(s, product), category);
    OwnersCount(s.productXrefs, category, product);
    NoDuplicatesCount(s.productXrefs, Xref(category, product));
    CountPositive(s.productXrefs, Xref(category, product));
  }

  // ---------------------------------------------------------------------------
  // SKUs

  datatype OptionValue = OptionValue(attributeName: string, attributeValue: string)

  /** The fields of a SKU transfer object that the checks look at. */
  datatype SkuDto = SkuDto(
    name: Option<string>,
    quantityAvailable: Option<int>,
    activeStartDate: Option<int>,
    salePrice: Option<int>,
    optionValues: Option<seq<OptionValue>>)

  /** The product's SKU ids exclude `id`, and so do every other product's:
      the database hands out fresh ids. */
  predicate FreshSkuId(s: Store, id: Id)
  {
    forall q :: q in s.products ==> id !in SkuIds(s.products[q])
  }

  /** Replacing the additional SKUs by the product's whole SKU list plus a
      SKU with a new id: the list grows by exactly that SKU. */
  lemma AllSkusAfterAppend(p: Product, x: Sku)
    requires x.id != p.defaultSku.id
    ensures AllSkus(p.(additionalSkus := AllSkus(p) + [x])) == AllSkus(p) + [x]
  {
    var d := p.defaultSku;
    var rest := WithoutId(p.additionalSkus, d.id);
    var all := AllSkus(p);
    assert all == [d] + rest;
    WithoutIdAppend(all, [x], d.id);
    WithoutIdAppend([d], rest, d.id);
    assert WithoutId([d], d.id) == [] by { assert [d][1..] == []; }
    assert WithoutId([x], d.id) == [x] by { assert [x][1..] == []; }
    WithoutIdCommute(p.additionalSkus, d.id, d.id);
    assert WithoutId(all, d.id) == rest;
    assert WithoutId(all + [x], d.id) == rest + [x];
  }

  /** The transfer object has every field `saveOneSkuByProduct` requires
      and prices the validator accepts. */
  predicate CompleteSkuDto(dto: SkuDto, pricesValid: bool)
  {
    !NullOrEmpty(dto.name) && dto.quantityAvailable.Some? && dto.activeStartDate.Some? && dto.salePrice.Some? && pricesValid
  }

  /** `saveOneSkuByProduct`: a missing name, quantity, start date or sale
      price, or prices the validator rejects, make a bad request; then the
      product must be visible; a product with options needs exactly one value
      per option (bad request otherwise); option values that do not resolve
      (`optionsResolve`) are "not found". The new SKU (`created`, built by
      the SKU converter) is added after all existing ones. */
  function SaveOneSku(s: Store, id: Id, dto: SkuDto, pricesValid: bool, optionsResolve: bool, created: Sku): (r: Reply)
    requires FreshSkuId(s, created.id)
    ensures NullOrEmpty(dto.name) || dto.quantityAvailable.None? || dto.activeStartDate.None? || dto.salePrice.None? || !pricesValid
      ==> r == Reply(BadRequest, s)
    ensures r.status == Created <==>
      !NullOrEmpty(dto.name) && dto.quantityAvailable.Some? && dto.activeStartDate.Some? && dto.salePrice.Some? && pricesValid &&
      ProductVisible(s, id) &&
      (s.products[id].optionCount > 0 ==> dto.optionValues.Some? && |dto.optionValues.value| == s.products[id].optionCount) &&
      (dto.optionValues.Some? && |dto.optionValues.value| > 0 ==> optionsResolve)
    ensures r.status != Created ==> r.store == s && r.status in {BadRequest, NotFound}
    ensures CompleteSkuDto(dto, pricesValid) && !ProductVisible(s, id) ==> r == Reply(NotFound, s)
    ensures CompleteSkuDto(dto, pricesValid) && ProductVisible(s, id) && s.products[id].optionCount > 0 &&
      (dto.optionValues.None? || |dto.optionValues.value| != s.products[id].optionCount)
      ==> r == Reply(BadRequest, s)
    ensures CompleteSkuDto(dto, pricesValid) && ProductVisible(s, id) &&
      (s.products[id].optionCount > 0 ==> dto.optionValues.Some? && |dto.optionValues.value| == s.products[id].optionCount) &&
      dto.optionValues.Some? && |dto.optionValues.value| > 0 && !optionsResolve
      ==> r == Reply(NotFound, s)
    ensures r.status == Created ==>
      id in s.products && id in r.store.products &&
      AllSkus(r.store.products[id]) == AllSkus(s.products[id]) + [created] &&
      |AllSkus(r.store.products[id])| == |AllSkus(s.products[id])| + 1 &&
      r.store == WithProduct(s, id, s.products[id].(additionalSkus := AllSkus(s.products[id]) + [created]))
  {
    if NullOrEmpty(dto.name) || dto.quantityAvailable.None? || dto.activeStartDate.None? || dto.salePrice.None? then Reply(BadRequest, s)
    else if !pricesValid then Reply(BadRequest, s)
    else if !ProductVisible(s, id) then Reply(NotFound, s)
    else
      var p := s.products[id];
      if p.optionCount > 0 && (dto.optionValues.None? || |dto.optionValues.value| == 0 || |dto.optionValues.value| != p.optionCount) then
        Reply(BadRequest, s)
      else if dto.optionValues.Some? && |dto.optionValues.value| > 0 && !optionsResolve then Reply(NotFound, s)
      else
        assert created.id != p.defaultSku.id by {
          assert AllSkus(p)[0].id == p.defaultSku.id;
        }
        AllSkusAfterAppend(p, created);
        Reply(Created, WithProduct(s, id, p.(additionalSkus := AllSkus(p) + [created])))
  }

  /** A SKU just added can be deleted again, which gives the product back
      its previous SKU list. */
  lemma SaveThenDeleteSku(s: Store, id: Id, dto: SkuDto, pricesValid: bool, optionsResolve: bool, created: Sku)
    requires FreshSkuId(s, created.id)
    requires SaveOneSku(s, id, dto, pricesValid, optionsResolve, created).status == Created
    ensures DeleteOneSku(SaveOneSku(s, id, dto, pricesValid, optionsResolve, created).store, id, created.id).status == NoContent
    ensures AllSkus(DeleteOneSku(SaveOneSku(s, id, dto, pricesValid, optionsResolve, created).store, id, created.id).store.products[id])
         == AllSkus(s.products[id])
  {
    var p := s.products[id];
    var t := SaveOneSku(s, id, dto, pricesValid, optionsResolve, created).store;
    var all := AllSkus(p);
    assert created.id !in SkuIds(p);
    assert forall k :: 0 <= k < |all| ==> all[k].id != created.id;
    assert AllSkus(t.products[id]) == all + [created];
    assert AllSkus(t.products[id])[|all|] == created;
    assert created.id in SkuIds(t.products[id]);
    assert t.products[id].defaultSku == p.defaultSku;
    assert all[0].id != created.id;
    WithoutIdAppend(all, [created], created.id);
    assert WithoutId([created], created.id) == [] by { assert [created][1..] == []; }
    WithoutIdAbsent(all, created.id);
  }

  /** `deleteOneSkuById`: the default SKU cannot be deleted (conflict); a SKU
      the product does not have is "not found"; otherwise the product's SKUs
      become its SKU list without that id. */
  function DeleteOneSku(s: Store, id: Id, skuId: Id): (r: Reply)
    ensures !ProductVisible(s, id) ==> r == Reply(NotFound, s)
    ensures ProductVisible(s, id) && s.products[id].defaultSku.id == skuId ==> r == Reply(Conflict, s)
    ensures ProductVisible(s, id) && s.products[id].defaultSku.id != skuId && skuId !in SkuIds(s.products[id]) ==> r == Reply(NotFound, s)
    ensures r.status == NoContent <==> ProductVisible(s, id) && s.products[id].defaultSku.id != skuId && skuId in SkuIds(s.products[id])
    ensures r.status == NoContent ==>
      r.store == WithProduct(s, id, s.products[id].(additionalSkus := WithoutId(AllSkus(s.products[id]), skuId))) &&
      AllSkus(r.store.products[id]) == WithoutId(AllSkus(s.products[id]), skuId) &&
      skuId !in SkuIds(r.store.products[id])
  {
    if !ProductVisible(s, id) then Reply(NotFound, s)
    else
      var p := s.products[id];
      if p.defaultSku.id == skuId then Reply(Conflict, s)
      else if skuId !in SkuIds(p) then Reply(NotFound, s)
      else
        var p1 := p.(additionalSkus := WithoutId(AllSkus(p), skuId));
        AllSkusAfterDelete(p, skuId);
        Reply(NoContent, WithProduct(s, id, p1))
  }

  lemma AllSkusAfterDelete(p: Product, skuId: Id)
    requires p.defaultSku.id != skuId
    ensures AllSkus(p.(additionalSkus := WithoutId(AllSkus(p), skuId))) == WithoutId(AllSkus(p), skuId)
    ensures skuId !in SkuIds(p.(additionalSkus := WithoutId(AllSkus(p), skuId)))
  {
    var d := p.defaultSku;
    var rest := WithoutId(p.additionalSkus, d.id);
    WithoutIdAppend([d], rest, skuId);
    assert WithoutId([d], skuId) == [d] by { assert [d][1..] == []; }
    var add1 := [d] + WithoutId(rest, skuId);
    WithoutIdAppend([d], WithoutId(rest, skuId), d.id);
    assert WithoutId([d], d.id) == [] by { assert [d][1..] == []; }
    WithoutIdCommute(p.additionalSkus, d.id, skuId);
    WithoutIdCommute(WithoutId(p.additionalSkus, skuId), d.id, d.id);
    var p1 := p.(additionalSkus := WithoutId(AllSkus(p), skuId));
    assert AllSkus(p1) == WithoutId(AllSkus(p), skuId);
  }

  /** Every SKU but the deleted one survives a deletion, in order. */
  lemma DeleteOneSkuKeepsOthers(s: Store, id: Id, skuId: Id, x: Sku)
    requires DeleteOneSku(s, id, skuId).status == NoContent
    ensures x in AllSkus(DeleteOneSku(s, id, skuId).store.products[id]) <==> x in AllSkus(s.products[id]) && x.id != skuId
    ensures DeleteOneSku(DeleteOneSku(s, id, skuId).store, id, skuId) == Reply(NotFound, DeleteOneSku(s, id, skuId).store)
  {
    WithoutIdMember(AllSkus(s.products[id]), skuId, x);
  }

  /** The first SKU of `skus` with the id (`findAny` on a sequential stream). */
  function FindSku(skus: seq<Sku>, id: Id): (r: Option<Sku>)
    ensures r.Some? ==> r.value in skus && r.value.id == id
    ensures r.None? <==> forall k :: 0 <= k < |skus| ==> skus[k].id != id
  {
    if |skus| == 0 then None
    else if skus[0].id == id then Some(skus[0])
    else FindSku(skus[1..], id)
  }

  /** The SKU found comes before every other SKU with the id. */
  lemma {:induction false} FindSkuIsFirst(skus: seq<Sku>, id: Id)
    requires FindSku(skus, id).Some?
    ensures exists k :: 0 <= k < |skus| && skus[k] == FindSku(skus, id).value && forall j :: 0 <= j < k ==> skus[j].id != id
  {
    if skus[0].id == id {
      assert skus[0] == FindSku(skus, id).value;
    } else {
      FindSkuIsFirst(skus[1..], id);
      var k :| 0 <= k < |skus[1..]| && skus[1..][k] == FindSku(skus, id).value && forall j :: 0 <= j < k ==> skus[1..][j].id != id;
      assert skus[k + 1] == FindSku(skus, id).value;
      forall j | 0 < j < k + 1 ensures skus[j].id != id {
        assert skus[j] == skus[1..][j - 1];
      }
    }
  }

  /** `getSkuByIdAvailability`: the inventory type name of the product's SKU,
      or the empty string when it has none. */
  function GetSkuAvailability(s: Store, id: Id, skuId: Id): (r: Result<string, HttpStatus>)
    ensures r.Failure? <==> !ProductVisible(s, id) || skuId !in SkuIds(s.products[id])
    ensures r.Failure? ==> r.error == NotFound
    ensures r.Success? ==>
      var t := FindSku(AllSkus(s.products[id]), skuId).value.inventoryType;
      (t.None? ==> r.value == "") && (t.Some? ==> r.value == TypeName(t.value) && GetInstance(r.value) == t)
  {
    if !ProductVisible(s, id) then Failure(NotFound)
    else match FindSku(AllSkus(s.products[id]), skuId)
      case None => Failure(NotFound)
      case Some(sku) => Success(if sku.inventoryType.None? then "" else TypeName(sku.inventoryType.value))
  }

  /** The SKU `x` with the inventory type set when its id is `id`. */
  function SetType(x: Sku, id: Id, t: InventoryType): Sku
  {
    if x.id == id then x.(inventoryType := Some(t)) else x
  }

  function SetTypes(xs: seq<Sku>, id: Id, t: InventoryType): (r: seq<Sku>)
    ensures |r| == |xs|
    ensures forall k :: 0 <= k < |r| ==> r[k] == SetType(xs[k], id, t)
  {
    if |xs| == 0 then [] else [SetType(xs[0], id, t)] + SetTypes(xs[1..], id, t)
  }

  lemma {:induction false} WithoutIdSetTypes(xs: seq<Sku>, a: Id, id: Id, t: InventoryType)
    ensures WithoutId(SetTypes(xs, id, t), a) == SetTypes(WithoutId(xs, a), id, t)
  {
    if |xs| > 0 {
      WithoutIdSetTypes(xs[1..], a, id, t);
      var h := if xs[0].id != a then [xs[0]] else [];
      assert SetTypes(xs, id, t)[1..] == SetTypes(xs[1..], id, t);
      SetTypesAppend(h, WithoutId(xs[1..], a), id, t);
    }
  }

  lemma {:induction false} SetTypesAppend(xs: seq<Sku>, ys: seq<Sku>, id: Id, t: InventoryType)
    ensures SetTypes(xs + ys, id, t) == SetTypes(xs, id, t) + SetTypes(ys, id, t)
  {
    if |xs| == 0 {
      assert xs + ys == ys;
    } else {
      assert (xs + ys)[1..] == xs[1..] + ys;
      SetTypesAppend(xs[1..], ys, id, t);
    }
  }

  lemma {:induction false} FindSkuSetTypes(xs: seq<Sku>, id: Id, t: InventoryType, other: Id)
    ensures FindSku(SetTypes(xs, id, t), other).None? <==> FindSku(xs, other).None?
    ensures FindSku(xs, other).Some? ==> FindSku(SetTypes(xs, id, t), other).value == SetType(FindSku(xs, other).value, id, t)
  {
    if |xs| > 0 {
      FindSkuSetTypes(xs[1..], id, t, other);
      assert SetTypes(xs, id, t)[1..] == SetTypes(xs[1..], id, t);
    }
  }

  /** Setting the inventory type on a product's SKU list. */
  function SetProductSkuType(p: Product, id: Id, t: InventoryType): (r: Product)
    ensures AllSkus(r) == SetTypes(AllSkus(p), id, t)
  {
    var r := p.(defaultSku := SetType(p.defaultSku, id, t), additionalSkus := SetTypes(p.additionalSkus, id, t));
    WithoutIdSetTypes(p.additionalSkus, p.defaultSku.id, id, t);
    assert SetTypes(AllSkus(p), id, t) == [SetType(p.defaultSku, id, t)] + SetTypes(WithoutId(p.additionalSkus, p.defaultSku.id), id, t) by {
      SetTypesAppend([p.defaultSku], WithoutId(p.additionalSkus, p.defaultSku.id), id, t);
    }
    r
  }

  /** `updateSkuByIdAvailability`: the product, then its SKU, then the
      inventory type named by the body must exist ("not found" otherwise);
      the SKU with that id gets the type. */
  function SetSkuAvailability(s: Store, id: Id, skuId: Id, availability: string): (r: Reply)
    ensures r.status == Ok <==> ProductVisible(s, id) && skuId in SkuIds(s.products[id]) && GetInstance(availability).Some?
    ensures r.status != Ok ==> r == Reply(NotFound, s)
    ensures r.status == Ok ==>
      r.store == WithProduct(s, id, SetProductSkuType(s.products[id], skuId, GetInstance(availability).value))
  {
    if !ProductVisible(s, id) then Reply(NotFound, s)
    else if FindSku(AllSkus(s.products[id]), skuId).None? then Reply(NotFound, s)
    else match GetInstance(availability)
      case None => Reply(NotFound, s)
      case Some(t) => Reply(Ok, WithProduct(s, id, SetProductSkuType(s.products[id], skuId, t)))
  }

  /** Reading a SKU's availability after setting it gives back the string
      that was set, and the other SKUs of the product keep theirs. */
  lemma SetThenGetSkuAvailability(s: Store, id: Id, skuId: Id, availability: string, other: Id)
    requires SetSkuAvailability(s, id, skuId, availability).status == Ok
    ensures GetSkuAvailability(SetSkuAvailability(s, id, skuId, availability).store, id, skuId) == Success(availability)
    ensures other != skuId ==>
      GetSkuAvailability(SetSkuAvailability(s, id, skuId, availability).store, id, other) == GetSkuAvailability(s, id, other)
  {
    var t := GetInstance(availability).value;
    var p := s.products[id];
    FindSkuSetTypes(AllSkus(p), skuId, t, skuId);
    FindSkuSetTypes(AllSkus(p), skuId, t, other);
  }

  /** Every product-scoped request on a missing or archived product is "not
      found" and leaves the store alone. */
  lemma ProductScopedNotFound(s: Store, id: Id, name: string, value: string, skuId: Id, availability: string)
    requires !ProductVisible(s, id) && |name| > 0 && |value| > 0
    ensures GetAttributes(s, id) == Failure(NotFound)
    ensures AddAttribute(s, id, Some(name), Some(value)) == Reply(NotFound, s)
    ensures DeleteAttribute(s, id, name) == Reply(NotFound, s)
    ensures CategoryCount(s, id) == Failure(NotFound)
    ensures DeleteOneSku(s, id, skuId) == Reply(NotFound, s)
    ensures GetSkuAvailability(s, id, skuId) == Failure(NotFound)
    ensures SetSkuAvailability(s, id, skuId, availability) == Reply(NotFound, s)
    ensures RemoveOneProduct(s, id) == Reply(NotFound, s)
  {
  }
}

=== FILE: settings.dfy ===
/** The system settings endpoint: a fixed list of property names the
    settings service makes available, and the stored system properties,
    each of which may hold a null value. */
module Settings {
  import opened Base

  /** The available names in listing order, and the stored properties by
      name. A stored property with value `None` exists but was never set. */
  datatype SettingsStore = SettingsStore(available: seq<string>, properties: map<string, Option<string>>)

  /** `readAllProperties`: one entry per available name, in listing order. */
  function ReadAllProperties(st: SettingsStore): (r: seq<string>)
    ensures |r| == |st.available|
    ensures forall k :: 0 <= k < |r| ==> r[k] == st.available[k]
  {
    st.available
  }

  /** `getValue`: 404 for a name that is not available, 204 when the
      property does not exist or has no value, 200 with the value
      otherwise. */
  function GetValue(st: SettingsStore, key: string): (r: (HttpStatus, Option<string>))
    ensures r.0 in {Ok, NoContent, NotFound}
    ensures r.0 == NotFound <==> key !in st.available
    ensures r.0 == Ok <==> key in st.available && key in st.properties && st.properties[key].Some?
    ensures r.0 == Ok ==> r.1 == st.properties[key]
    ensures r.0 != Ok ==> r.1 == None
  {
    if key !in st.available then (NotFound, None)
    else if key in st.properties && st.properties[key].Some? then (Ok, st.properties[key])
    else (NoContent, None)
  }

  /** `setValue`: 404 and no change for a name that is not available;
      otherwise the property is created if missing, given the value and
      saved, and the value is answered with 200. */
  function SetValue(st: SettingsStore, key: string, value: string): (r: (HttpStatus, SettingsStore))
    ensures r.0 in {Ok, NotFound}
    ensures r.0 == NotFound <==> key !in st.available
    ensures r.0 == NotFound ==> r.1 == st
    ensures r.1.available == st.available
    ensures r.0 == Ok ==> r.1.properties.Keys == st.properties.Keys + {key}
    ensures r.0 == Ok ==> r.1.properties[key] == Some(value)
    ensures forall k :: k in st.properties && k != key ==> k in r.1.properties && r.1.properties[k] == st.properties[k]
  {
    if key !in st.available then (NotFound, st)
    else (Ok, st.(properties := st.properties[key := Some(value)]))
  }

  /** Reading a property right after setting it answers the value set. */
  lemma SetThenGet(st: SettingsStore, key: string, value: string)
    requires key in st.available
    ensures GetValue(SetValue(st, key, value).1, key) == (Ok, Some(value))
  {
  }

  /** Setting one property leaves what every other name reads unchanged. */
  lemma SetKeepsOthers(st: SettingsStore, key: string, value: string, other: string)
    requires other != key
    ensures GetValue(SetValue(st, key, value).1, other) == GetValue(st, other)
  {
  }

  /** Setting a property twice is the same as setting it once to the last
      value. */
  lemma SetTwice(st: SettingsStore, key: string, v1: string, v2: string)
    ensures SetValue(SetValue(st, key, v1).1, key, v2) == SetValue(st, key, v2)
  {
    assert st.properties[key := Some(v1)][key := Some(v2)] == st.properties[key := Some(v2)];
  }

  /** Every name the listing offers can be read: it answers 200 or 204,
      never 404. */
  lemma ListedNamesReadable(st: SettingsStore, k: nat)
    requires k < |ReadAllProperties(st)|
    ensures GetValue(st, ReadAllProperties(st)[k]).0 in {Ok, NoContent}
  {
    assert ReadAllProperties(st)[k] in st.available;
  }
}
